=== FILE: README.md ===
# Dastawez client logic in Dafny

Dastawez is a web app through which customers order document services from a
print and government-services shop. Those services are printing, certificates,
bill payments and CSC (MP Online) services. The app is a React client over a hosted
Postgres/storage backend. The client has no algorithmic centre. Its logic sits
inside hooks and page components. This project pulls that logic out as pure
functions over immutable records and proves what the pages promise:

- the in-browser **notification store** (`useNotifications`, the bell), modelled
  as a state machine over a list and an unread counter, with its persistence
  rules;
- the **order wizard**: price calculation, custom-field resolution with
  category defaults, file staging, the four-step machine and the insert
  payload (`NewOrder`, `useServices`, `useOrders`);
- the **admin service editor** and the **profile page** form reducers and
  validators;
- the **aggregations and filters** of the analytics, user-data, dashboard,
  order-list, user-list, documents and order-detail pages;
- the **string builders**: the UPI deep link and QR payload, storage paths and
  their recovery from public URLs, schema.org and meta-tag builders, and the
  accessibility label helpers.

Backend reads and writes are the inputs and outputs of these functions.
A failing backend call becomes a parameter (`fails`, `rejected`, `rowFails`).
The clock, generated ids and the browser's saved lists are parameters as well.

Modules follow the source files:

| module | source |
|---|---|
| Schema | the `app_role`, `order_status` and `service_category` enums and the joined order row |
| Notifications, Bell | `src/hooks/useNotifications.ts`, `src/components/NotificationBell.tsx` |
| Services, Wizard, OrderQueries | `src/hooks/useServices.ts`, `src/pages/dashboard/NewOrder.tsx`, `src/hooks/useOrders.ts` |
| ServiceEditor | `src/pages/admin/AdminServices.tsx` |
| Profile | `src/pages/dashboard/Profile.tsx` |
| Analytics, UserData, AdminOrders, AdminUsers, Dashboards, CustomerOrders, Documents, OrderDetail | the admin and dashboard pages |
| Deletes | the sequences of awaited deletes of the two admin pages |
| Upi | `src/components/UPIPayment.tsx` |
| Seo, Accessibility | `src/lib/seo.ts`, `src/lib/accessibility.ts` |
| Wrappers, Seqs, Strings, Js, Uri, Buckets | shared definitions: `Option`/`Result`, order-preserving filter/sum/take, ASCII case mapping and substring search, JavaScript falsiness and `||`/`??`, `encodeURIComponent`/`decodeURIComponent`, group-by in first-occurrence order with a descending sort |

JavaScript idioms are written out explicitly:

- `x || fallback` treats `""`, `0` and `null` as missing (`Js.OrString`, `Js.OrInt`, `Js.TruthyString`).
- `Math.round(t / n)` for `n > 0` is `(2t + n) div 2n`.
- `parseInt(s, 10)` is a leading-integer parse: optional white space, an optional sign, then the longest run of digits.
- `encodeURIComponent` is modelled over UTF-8 with upper-case hex escapes.
- `decodeURIComponent` is modelled down to the `URIError` it throws.

## Model

| member | source | states |
|---|---|---|
| Schema.ParseStatus | src/integrations/supabase/types.ts:239-246 | A stored status reads as one of the five `order_status` values only when it is that value's key; any other text is no status |
| Schema.ParseCategory | src/integrations/supabase/types.ts:239-246 | A stored category reads as one of the four `service_category` values only when it is that value's key |
| Schema.StatusRoundTrip | src/integrations/supabase/types.ts:239-246 | Every status survives being written as its key and read back |
| Schema.CategoryRoundTrip | src/integrations/supabase/types.ts:239-246 | Every category survives being written as its key and read back |
| Notifications.Prune | src/hooks/useNotifications.ts:76-86 | Pruning keeps every unread notification whatever its age; a read one survives exactly when it was created less than 24 hours before now; nothing new appears |
| Notifications.PruneShape | src/hooks/useNotifications.ts:76-86 | The survivors are an order-preserving subsequence; the length drops exactly when some notification is due for removal; pruning twice at the same time removes nothing more |
| Notifications.StorageKeyInjective | src/hooks/useNotifications.ts:48-69 | Distinct user ids have distinct `app_notifications_<id>` storage keys |
| Notifications.ReadSaved | src/hooks/useNotifications.ts:52-63 | Loading yields nothing without a user id or a saved list |
| Notifications.Save | src/hooks/useNotifications.ts:66-73 | Saving without a user id changes nothing; with one, the user's list reads back as saved and every other key is untouched |
| Notifications.SaveIsolated | src/hooks/useNotifications.ts:66-73 | Saving for one user never changes what another user loads |
| Notifications.OnUserChange | src/hooks/useNotifications.ts:96-107 | On load the list is the pruned saved list and the counter equals its unread count; storage is rewritten only when pruning removed something, and then it holds the pruned list |
| Notifications.OnItemsChange | src/hooks/useNotifications.ts:110-114 | The change-driven save writes only with a user id and a non-empty list, so an emptied list is never persisted |
| Notifications.Add | src/hooks/useNotifications.ts:137-146 | One unread notification with the given id and time is put in front, the existing ones follow unchanged, and the counter goes up by one |
| Notifications.AddConsistent | src/hooks/useNotifications.ts:137-146 | Adding keeps a counter that matched the unread notifications matching |
| Notifications.MarkAsRead | src/hooks/useNotifications.ts:162-167 | Exactly the notifications with the id become read, the others are unchanged, and the counter drops by one but not below zero whatever the target was |
| Notifications.MarkItemsUnread | src/hooks/useNotifications.ts:163-165 | Marking an id read removes exactly its unread notifications from the unread count |
| Notifications.MarkAsReadConsistentIff | src/hooks/useNotifications.ts:162-167 | From a matching counter, `markAsRead` keeps it matching if and only if the id names exactly one unread notification (none when nothing is unread) |
| Notifications.MarkAsReadDrift | src/hooks/useNotifications.ts:166 | A concrete store where marking an already-read notification leaves the counter one short |
| Notifications.MarkAsReadCounted | src/hooks/useNotifications.ts:162-167 | The corrected update marks the same notifications and never raises the counter |
| Notifications.MarkAsReadCountedConsistent | src/hooks/useNotifications.ts:162-167 | The corrected update keeps every matching counter matching, and agrees with the original when the id names one unread notification |
| Notifications.MarkAllAsRead | src/hooks/useNotifications.ts:170-173 | Every notification is marked read, the length is kept, and the counter is zero |
| Notifications.MarkAllAsReadConsistent | src/hooks/useNotifications.ts:170-173 | After marking all read nothing is unread, so the counter is right whatever it was before |
| Notifications.ClearAll | src/hooks/useNotifications.ts:176-179 | Only read notifications are removed, every unread one stays, and the counter is left as it was |
| Notifications.ClearAllShape | src/hooks/useNotifications.ts:176-179 | The unread notifications stay in order, the new length is the unread count, and a matching counter stays matching |
| Notifications.ClearedListReturns | src/hooks/useNotifications.ts:98-113 | Clearing a list of read notifications empties it, the save is skipped, and the next load brings back those still recent |
| Notifications.NewOrderEvent | src/hooks/useNotifications.ts:213-218 | The new-order notification is an order notification for the order; its message begins with the customer's name, email or "A customer" and ends with the service name or "a service" |
| Notifications.CustomerStatusEvent | src/hooks/useNotifications.ts:253-273 | A customer is notified exactly when the status changed, with the customer wording of the new status at the end of the message |
| Notifications.AdminStatusEvent | src/hooks/useNotifications.ts:309-335 | An administrator is notified exactly when the status changed, with the administrator wording of the new status at the end |
| Notifications.DocumentEvent | src/hooks/useNotifications.ts:369-374 | The document notification names the order and ends with the file name |
| Notifications.LabelsDifferOnlyForReady | src/hooks/useNotifications.ts:260-266 | The two audiences' status wordings differ for the ready status and for no other |
| Notifications.CustomerStatusLabel | src/hooks/useNotifications.ts:260-270 | The customer's wording is the analytics caption of the status, except "Ready for Pickup" for ready; a null status reads "null" |
| Notifications.AdminStatusLabel | src/hooks/useNotifications.ts:322-332 | The administrator's wording is the analytics caption of the status; a null status reads "null" |
| Bell.BadgeText | src/components/NotificationBell.tsx:48 | A count above nine reads "9+"; any other count reads back as itself |
| Bell.BadgeTextShape | src/components/NotificationBell.tsx:44-48 | A shown badge is one digit from 1 to 9 exactly when the count is at most nine |
| Bell.OnClick | src/components/NotificationBell.tsx:27-37 | A click always marks the notification read; it navigates and closes the popover only for a notification with an order, to the admin or the customer order list by role |
| Bell.ClickMarksRead | src/components/NotificationBell.tsx:28 | After a click the notification is read, and the badge stays right if and only if it was the one unread notification with its id, or nothing was unread |
| Services.ParseCustomFields | src/hooks/useServices.ts:28-34 | A falsy value gives null, an array is returned as it is (an empty one included), and any other value gives null |
| Services.ParseCustomFieldsRoundTrip | src/hooks/useServices.ts:30-32 | A stored field list parses back to itself, the empty list included |
| Services.Normalise | src/pages/dashboard/NewOrder.tsx:78-82 | A default field keeps its id, caption and placeholder; a missing or empty type becomes "text"; it is required only when it says so |
| Services.NormalisedDefaults | src/pages/dashboard/NewOrder.tsx:46-82 | Each category's built-in fields, each with a non-empty type |
| Services.FirstDefault | src/pages/dashboard/NewOrder.tsx:47-69 | The first built-in field is the copies field exactly for printing |
| Services.CopiesFieldOnlyForPrinting | src/pages/dashboard/NewOrder.tsx:47-69 | The normalised copies field leads the defaults of printing and of no other category |
| Services.SortByCategory | src/hooks/useServices.ts:44 | Ordering by category keeps the number of services |
| Services.SortByCategoryShape | src/hooks/useServices.ts:44 | The list is ordered by category in the enum's order and holds exactly the fetched services, each as often |
| Services.CategoryMultiset | src/hooks/useServices.ts:44 | The four category blocks hold every service exactly once |
| Services.CustomerCatalog | src/hooks/useServices.ts:40-44 | The customer catalog holds only services whose active flag is true |
| Services.CustomerCatalogMembers | src/hooks/useServices.ts:43 | A service is offered to customers exactly when it is explicitly active; a null flag hides it |
| Services.AdminCatalog | src/hooks/useServices.ts:56-59 | The administrator's catalog holds every service, inactive ones included |
| Wizard.TotalPrice | src/pages/dashboard/NewOrder.tsx:86-95 | The total is price times copies for a per-copy service whose copies parse to a positive integer, and the base price otherwise |
| Wizard.TotalForTypedCopies | src/pages/dashboard/NewOrder.tsx:88-92 | A per-copy service charges the price once per typed copy when the count is positive, and the base price otherwise |
| Wizard.TotalIgnoresDetails | src/pages/dashboard/NewOrder.tsx:88-94 | Without per-copy pricing the details never change the total |
| Wizard.ServiceFields | src/pages/dashboard/NewOrder.tsx:73-83 | A service's own non-empty field list is used; otherwise its category's normalised defaults; never an empty list |
| Wizard.EmptyFieldsFallBack | src/pages/dashboard/NewOrder.tsx:73-83 | A service storing an empty list, or no list, gets its category's defaults, each with a type |
| Wizard.Stage | src/pages/dashboard/NewOrder.tsx:162-170 | A staged file is a photo exactly when its MIME type starts with `image/`, and only photos get a preview |
| Wizard.AddFiles | src/pages/dashboard/NewOrder.tsx:145-175 | No file list changes nothing; otherwise the staged files stay in front and the files of at most 10 MiB follow in the order picked |
| Wizard.AddFilesContents | src/pages/dashboard/NewOrder.tsx:150-173 | Every added attachment is a picked file within the limit, and exactly as many are added as fit |
| Wizard.RemoveFile | src/pages/dashboard/NewOrder.tsx:177-186 | Removing the i-th attachment keeps the others in order and loses exactly that one |
| Wizard.AttachmentPath | src/pages/dashboard/NewOrder.tsx:192 | The storage name of an attachment ends with a dash and the file's own name |
| Wizard.AttachmentRow | src/pages/dashboard/NewOrder.tsx:207-212 | The attachment row keeps the order and the file name and is typed photo or document |
| Wizard.Next | src/pages/dashboard/NewOrder.tsx:237-240 | The step changes only by choosing a service on step 1, Back or Continue on step 2, Back on step 3, or a placed order with an id on step 3 |
| Wizard.NextValid | src/pages/dashboard/NewOrder.tsx:237-240 | Every move keeps steps 2 to 4 with a service and step 4 with an order id; step 4 is entered only by placing an order with an id |
| Wizard.RunValid | src/pages/dashboard/NewOrder.tsx:321-322 | Any run of moves from a valid state stays valid |
| Wizard.SubmitRequest | src/pages/dashboard/NewOrder.tsx:216-228 | Nothing is sent without a service; empty details and notes are left undefined; the total is the price computed at submit time |
| Wizard.PlacedRow | src/pages/dashboard/NewOrder.tsx:222-228 | The stored order carries the submit-time total, or null when it is zero, and null notes and details exactly when they were empty |
| Wizard.ThreeCopiesExample | src/pages/dashboard/NewOrder.tsx:86-95 | Example of Wizard.TotalForTypedCopies: three typed copies of a 50-rupee per-copy service are stored as 150 |
| OrderQueries.CreateOrderRow | src/hooks/useOrders.ts:130-139 | Without a user the insert fails with "User not authenticated"; otherwise the row has the user and service, and null notes and total exactly when they were falsy |
| OrderQueries.ZeroTotalStoredAsNull | src/hooks/useOrders.ts:138 | A free order is stored with no amount |
| OrderQueries.FindProfile | src/hooks/useOrders.ts:94 | The profile found is the first with the id, and none is found only when no profile has it |
| OrderQueries.MergeProfiles | src/hooks/useOrders.ts:92-95 | The orders keep their order and fields, and each gets the first profile with its user id, or null |
| OrderQueries.MergeTakesFirst | src/hooks/useOrders.ts:94 | The attached profile is the first matching one, whatever later profiles share its id |
| OrderQueries.Dedup | src/hooks/useOrders.ts:83 | The ids without repeats, exactly the ids given, never more of them |
| OrderQueries.DedupDistinct | src/hooks/useOrders.ts:83 | Ids already free of repeats come back unchanged |
| OrderQueries.ProfileLookupIds | src/hooks/useOrders.ts:83-87 | The profile lookup asks for exactly the customers of the listed orders |
| ServiceEditor.EditFields | src/pages/admin/AdminServices.tsx:137-141 | A stored field list, even an empty one, is used as it is; otherwise the category's normalised defaults |
| ServiceEditor.EditForm | src/pages/admin/AdminServices.tsx:127-147 | The edit form copies the service, with "" for no description, "FileText" for no icon, active and both sections shown unless explicitly false, and per-copy only when explicitly true |
| ServiceEditor.NullColumnsGiveNewForm | src/pages/admin/AdminServices.tsx:92-103 | A service with every optional column null opens as the new-service form with its name, category and price |
| ServiceEditor.ChangeCategory | src/pages/admin/AdminServices.tsx:259-271 | A category change replaces the fields by that category's defaults and makes the service per-copy exactly for printing, leaving the rest of the form alone |
| ServiceEditor.PickCategory | src/pages/admin/AdminServices.tsx:257-271 | A pick in the category select sets the category; the edited fields survive exactly when the category stays or they already were the new category's defaults; a different category goes through the handler |
| ServiceEditor.SameCategoryResetsFields | src/pages/admin/AdminServices.tsx:259-271 | The category handler itself, called with the form's current category, resets the fields, and leaves the form as it was only when it already held the defaults; the select never calls it that way |
| ServiceEditor.BlankField | src/pages/admin/AdminServices.tsx:341-351 | The added field has empty texts, type "text" and is optional |
| ServiceEditor.AddField | src/pages/admin/AdminServices.tsx:341-351 | Exactly one blank field is appended and nothing else in the form changes |
| ServiceEditor.RemoveField | src/pages/admin/AdminServices.tsx:376 | Only the field at the index is dropped, the rest keep their order; an index past the end drops nothing |
| ServiceEditor.RemoveAddedField | src/pages/admin/AdminServices.tsx:341-376 | Removing the field just added gives back the form |
| ServiceEditor.SetField | src/pages/admin/AdminServices.tsx:388-428 | Editing a field replaces only the field at the index |
| ServiceEditor.SetFieldUndo | src/pages/admin/AdminServices.tsx:388-428 | Putting back a field's old value gives back the form |
| ServiceEditor.Save | src/pages/admin/AdminServices.tsx:149-168 | Saving is refused exactly when the name or the price is empty; otherwise an empty description and an empty field list are written as null and the rest as typed |
| ServiceEditor.StoredFields | src/pages/admin/AdminServices.tsx:164 | A null field list is stored as JSON null |
| ServiceEditor.NewFormRefused | src/pages/admin/AdminServices.tsx:92-103 | Example of ServiceEditor.Save: the new-service form cannot be saved as it is |
| ServiceEditor.EditSaveRoundTrip | src/pages/admin/AdminServices.tsx:127-168 | Opening a fully set service and saving it untouched writes back what was stored, the price included |
| ServiceEditor.EmptyListReopensWithDefaults | src/pages/admin/AdminServices.tsx:137-164 | A stored empty list opens empty, is saved as null, and reopens with the category's defaults |
| ServiceEditor.ToggledActive | src/pages/admin/AdminServices.tsx:200 | The toggle writes true unless the service is explicitly active, so a null flag turns it on |
| ServiceEditor.ToggleFlipsCatalog | src/pages/admin/AdminServices.tsx:196-206 | Writing the toggled flag moves the service into or out of the customer catalog |
| ServiceEditor.ToggleTwiceRestoresCatalog | src/pages/admin/AdminServices.tsx:196-206 | Toggling a service twice gives back the customer catalog it started from, also for a service whose flag was null |
| Profile.LoadForm | src/pages/dashboard/Profile.tsx:64-72 | Each form field is the row's value, or empty when that is null |
| Profile.Apply | src/pages/dashboard/Profile.tsx:85-92 | An update leaves the id, the email and every column it does not name as they were |
| Profile.SaveUpdate | src/pages/dashboard/Profile.tsx:80-92 | Nothing is sent without a user; otherwise exactly name, phone and address are written and the avatar is not |
| Profile.SaveLoadedForm | src/pages/dashboard/Profile.tsx:64-92 | Saving the loaded form keeps email and avatar, turns a null name, phone or address into "", and reloads as the same form |
| Profile.ValidatePassword | src/pages/dashboard/Profile.tsx:111-125 | There is a length error exactly when the new password has fewer than 6 UTF-16 code units, and a mismatch error exactly when the two boxes differ |
| Profile.PasswordAccepted | src/pages/dashboard/Profile.tsx:124 | The form is accepted exactly when the password is long enough and typed the same twice |
| Profile.ChangePassword | src/pages/dashboard/Profile.tsx:127-149 | Nothing is sent for an invalid form; the new password is sent otherwise, and both boxes are cleared only after a successful change |
| Profile.ClearedFormRefused | src/pages/dashboard/Profile.tsx:147 | The cleared form cannot be sent again |
| Profile.AvatarPath | src/pages/dashboard/Profile.tsx:187-188 | The avatar key is the user's folder, `avatar.` and the extension |
| Profile.CheckAvatar | src/pages/dashboard/Profile.tsx:161-183 | No file or no user is ignored; a non-image is refused before the size is looked at; an image above 2 MiB is refused; anything else is uploaded to its avatar path |
| Profile.AvatarKeepsExtension | src/pages/dashboard/Profile.tsx:187-188 | The stored key keeps the picked file's extension and so its icon |
| Profile.AvatarUrl | src/pages/dashboard/Profile.tsx:203 | The stored URL is the public URL followed by `?t=` |
| Profile.AvatarUrlTime | src/pages/dashboard/Profile.tsx:203 | The upload time reads back from the stored URL's last parameter |
| Profile.AvatarUpdate | src/pages/dashboard/Profile.tsx:206-209 | The profile update after an upload writes the avatar URL and nothing else |
| Analytics.RoundedMean | src/pages/admin/AdminAnalytics.tsx:235 | The mean is 0 for no orders; otherwise it is the total over the count rounded half up |
| Analytics.RoundedMeanExact | src/pages/admin/AdminAnalytics.tsx:235 | An exact quotient is its own rounding |
| Analytics.RoundedMeanBounds | src/pages/admin/AdminAnalytics.tsx:235 | With a non-negative total the mean lies between 0 and the total |
| Analytics.RevenueGrowth | src/pages/admin/AdminAnalytics.tsx:221-223 | Growth is a relative figure exactly when last month earned something; otherwise "100" exactly when this month earned something, else "0" |
| Analytics.StatusPartition | src/pages/admin/AdminAnalytics.tsx:194-200 | Delivered, pending (neither delivered nor cancelled) and cancelled orders split the orders and the revenue exactly |
| Analytics.ComputeStats | src/pages/admin/AdminAnalytics.tsx:193-240 | Delivered orders and revenue are the delivered status's count and revenue; cancelled revenue is the cancelled status's; pending orders and revenue are everything neither delivered nor cancelled, a status-less order included; the month revenues are those of the orders in each month and growth is computed from this month against last; the three revenues add up to the total; the mean is rounded |
| Analytics.StatusSnoc | src/pages/admin/AdminAnalytics.tsx:143-165 | Order by order, an order adds one to a status's count and its amount to that status's revenue exactly when it has that status; no orders count nothing |
| Analytics.GrowthFromEmptyMonth | src/pages/admin/AdminAnalytics.tsx:219-223 | With no orders last month growth reads "100" exactly when this month earned something |
| Analytics.StatusBreakdown | src/pages/admin/AdminAnalytics.tsx:143-165 | The count slices keep the fixed order, and a status has a slice exactly when some order has it |
| Analytics.RevenueByStatus | src/pages/admin/AdminAnalytics.tsx:168-190 | The revenue slices keep the fixed order, and a status has a slice exactly when its revenue is positive |
| Analytics.FiveCounts | src/pages/admin/AdminAnalytics.tsx:152-156 | The five per-status counts add up to the orders that have a status |
| Analytics.FiveRevenues | src/pages/admin/AdminAnalytics.tsx:177-181 | The five per-status revenues add up to the revenue of the orders that have a status |
| Analytics.StatusBreakdownTotal | src/pages/admin/AdminAnalytics.tsx:143-165 | The count slices add up to the orders with a recognised status; a status-less order is in no slice |
| Analytics.RevenueByStatusTotal | src/pages/admin/AdminAnalytics.tsx:168-190 | With non-negative amounts the revenue slices add up to the revenue of the orders with a status |
| Analytics.DeliveredSliceAgrees | src/pages/admin/AdminAnalytics.tsx:187-196 | The delivered revenue slice and the summary's delivered revenue are the same figure |
| Analytics.RevenueByService | src/pages/admin/AdminAnalytics.tsx:78-95 | At most ten rows, highest revenue first, one per service name, each with that name's revenue and order count |
| Analytics.RevenueByServiceTop | src/pages/admin/AdminAnalytics.tsx:78-95 | No service cut from the ranking earned more than one kept; with ten names or fewer the rows add up to the revenue of the named orders |
| Analytics.RevenueByCategory | src/pages/admin/AdminAnalytics.tsx:98-121 | One row per category with orders and no other, highest revenue first, labels distinct, at most four |
| Analytics.CategoryRowsSpec | src/pages/admin/AdminAnalytics.tsx:98-121 | The sorted category rows keep one row per category with orders |
| Analytics.RevenueByCategoryTotal | src/pages/admin/AdminAnalytics.tsx:98-121 | The category rows add up to the revenue of the orders whose service has a category |
| Analytics.ServicePopularity | src/pages/admin/AdminAnalytics.tsx:124-140 | At most seven rows, most ordered first, one per service name, each with that name's order count |
| Analytics.ServicePopularityTotal | src/pages/admin/AdminAnalytics.tsx:124-140 | With seven names or fewer the counts add up to the orders that name a service |
| UserData.Classify | src/pages/admin/AdminUserData.tsx:164-166 | Each order is delivered, cancelled or open, and open orders are either active (pending or in progress) or in no bucket |
| UserData.FourWaySplit | src/pages/admin/AdminUserData.tsx:163-166 | Delivered, active, cancelled and unbucketed orders split the orders and the spending exactly |
| UserData.ComputeStats | src/pages/admin/AdminUserData.tsx:162-199 | Delivered and cancelled counts are those statuses' counts; pending counts and revenue are those of pending plus in-progress orders; delivered revenue is the delivered status's; the three buckets plus the unbucketed orders give the total; the mean is rounded; category spending has one entry per category with orders, each with its spending; documents add up |
| UserData.StatusBuckets | src/pages/admin/AdminUserData.tsx:164-166 | This page's delivered, pending and cancelled buckets are the delivered, pending plus in-progress, and cancelled statuses, counted and summed as the analytics page does per status |
| UserData.CategorySpendingMembers | src/pages/admin/AdminUserData.tsx:170-175 | Category spending has distinct keys, an entry exactly for each category with orders, and each entry holds that category's spending |
| UserData.SpendingBounds | src/pages/admin/AdminUserData.tsx:193-194 | With non-negative amounts, delivered plus pending revenue, and the category spending, stay within the total spent |
| UserData.PendingDiffers | src/pages/admin/AdminUserData.tsx:165 | The analytics summary's pending count exceeds this page's pending count by the ready and status-less orders; the two records agree exactly when there are none |
| UserData.ReadyOrderExample | src/pages/admin/AdminUserData.tsx:164-166 | Example of UserData.PendingDiffers: one ready order is pending on the analytics page and in no bucket here |
| UserData.FilteredOrders | src/pages/admin/AdminUserData.tsx:202-210 | The orders whose service name or id contains the search, ignoring case, and whose status passes, in their original order |
| UserData.EmptySearchKeepsAll | src/pages/admin/AdminUserData.tsx:202-210 | An empty search with "all" lists every order |
| UserData.StatusNarrows | src/pages/admin/AdminUserData.tsx:207 | Choosing a status filters the "all" result further, keeping its order |
| UserData.Activity | src/pages/admin/AdminUserData.tsx:635 | The activity tab shows the first twenty orders, or all of them when fewer |
| AdminOrders.FilteredOrders | src/pages/admin/AdminOrders.tsx:102-112 | The orders matching the search over service, customer name, email and id, ignoring case, and the status select, in their original order |
| AdminOrders.EmptySearch | src/pages/admin/AdminOrders.tsx:103-107 | An empty search keeps exactly the orders the status select lets through, every order under "all" |
| AdminOrders.SearchIgnoresCase | src/pages/admin/AdminOrders.tsx:103-107 | An upper-cased search matches the same orders |
| AdminOrders.DeleteOrder | src/pages/admin/AdminOrders.tsx:81-94 | The order's documents are deleted before the order row, both deletes are always sent, and the action fails exactly when the order delete fails |
| AdminOrders.DocumentErrorIgnored | src/pages/admin/AdminOrders.tsx:83 | The document delete's error never changes the outcome |
| AdminOrders.ShownStatus | src/pages/admin/AdminOrders.tsx:178-182 | A missing status is shown and selected as pending |
| AdminOrders.ShownPendingIsOpen | src/pages/admin/AdminOrders.tsx:178-182 | An order shown as pending is pending on the analytics page too |
| AdminOrders.SpacedLength | src/pages/admin/AdminOrders.tsx:334 | One space is added per ASCII capital |
| AdminOrders.SpaceBeforeCapitals | src/pages/admin/AdminOrders.tsx:334 | The spaced key never starts with a capital, and joining each capital back to the space in front of it gives the key again |
| AdminOrders.DetailLabel | src/pages/admin/AdminOrders.tsx:334 | The label neither starts nor ends with white space |
| AdminOrders.DetailLabelOfKey | src/pages/admin/AdminOrders.tsx:334 | For a key without white space the trim removes only the space put before a leading capital |
| AdminOrders.CamelCaseLabel | src/pages/admin/AdminOrders.tsx:334 | Example of AdminOrders.DetailLabelOfKey: `aB` is labelled "a B" |
| AdminUsers.WithAdminFlags | src/pages/admin/AdminUsers.tsx:86-91 | Every profile in order, flagged admin exactly when an admin role row names it |
| AdminUsers.CountForUser | src/pages/admin/AdminUsers.tsx:94-109 | A user's count is the number of order rows with their id, zero exactly when there are none |
| AdminUsers.OrderCounts | src/pages/admin/AdminUsers.tsx:95-109 | One counter per user id with order rows and no other, keys distinct, each holding the number of rows with that id |
| AdminUsers.CountsTotal | src/pages/admin/AdminUsers.tsx:104-108 | The per-user counts add up to the fetched order rows |
| AdminUsers.FilteredUsers | src/pages/admin/AdminUsers.tsx:183-196 | The users whose name or email contains the search ignoring case, or whose phone contains it as typed, and who pass the role filter, in order |
| AdminUsers.EmptySearch | src/pages/admin/AdminUsers.tsx:184-190 | An empty search lists exactly the users with some contact field |
| AdminUsers.RoleSplit | src/pages/admin/AdminUsers.tsx:191-195 | The admins and the non-admins among the matches make up all of them |
| AdminUsers.UserCounts | src/pages/admin/AdminUsers.tsx:198-199 | Admins and deletable users together are all users, so the admin count never exceeds the user count |
| AdminUsers.DeleteUser | src/pages/admin/AdminUsers.tsx:155-176 | Orders, user documents and roles are deleted before the profile, all four are always sent, only the profile's error fails the action, and order documents are never deleted |
| Dashboards.ThreeCountsBounded | src/pages/admin/AdminDashboard.tsx:21-23 | The five status counts add up to the orders with a status, so three of them never exceed the orders |
| Dashboards.ComputeAdminStats | src/pages/admin/AdminDashboard.tsx:11-26 | Pending, in-progress and delivered are the counts of orders with exactly that status; revenue counts delivered orders only; a missing customer count reads 0 |
| Dashboards.AdminRevenueAgrees | src/pages/admin/AdminDashboard.tsx:24 | The dashboard's revenue and delivered count are the analytics page's delivered figures |
| Dashboards.ComputeCustomerStats | src/pages/dashboard/Dashboard.tsx:32-37 | Pending and in-progress are the counts of orders with exactly that status, and "completed" is delivered; ready and cancelled orders are in none of the three counts, which stay within the total |
| Dashboards.DashboardsAgree | src/pages/dashboard/Dashboard.tsx:32-37 | Both dashboards count the same three statuses the same way |
| Dashboards.Recent | src/pages/dashboard/Dashboard.tsx:39 | The recent list is the first five orders, or all when fewer |
| CustomerOrders.FilteredOrders | src/pages/dashboard/Orders.tsx:35-39 | The orders whose service name contains the search, ignoring case, and that pass the status select, in their original order |
| CustomerOrders.EmptySearch | src/pages/dashboard/Orders.tsx:36 | An empty search lists exactly the orders with a service name; an order without a service is never listed |
| CustomerOrders.AsStatusFilter | src/pages/dashboard/Orders.tsx:37 | No status selected passes every order, as "all" does on the admin pages |
| CustomerOrders.NarrowerThanUserData | src/pages/dashboard/Orders.tsx:35-39 | The customer's list is the user-data page's list narrowed to service-name matches |
| CustomerOrders.DisplayedAmount | src/pages/dashboard/Orders.tsx:135 | The card shows the total, else the service price, else 0 |
| CustomerOrders.DisplayedAmountAgrees | src/pages/dashboard/Orders.tsx:135 | The card shows what the order page shows, and differs from the revenue amount exactly for a free order of a priced service |
| Documents.FilteredDocs | src/pages/dashboard/Documents.tsx:56-58 | The documents whose file name contains the search, ignoring case, in order |
| Documents.EmptySearchKeepsAll | src/pages/dashboard/Documents.tsx:56-58 | An empty search keeps every document in order |
| Documents.Extension | src/pages/dashboard/Documents.tsx:61 | The extension is the text after the last dot, a suffix of the name without a dot |
| Documents.IconFor | src/pages/dashboard/Documents.tsx:62-68 | Image extensions give the image icon, then pdf, doc, docx and txt the text icon, anything else the plain icon |
| Documents.IconOfExtension | src/pages/dashboard/Documents.tsx:60-69 | Only the lower-cased text after the last dot decides the icon |
| Documents.FileIcon | src/pages/dashboard/Documents.tsx:60-69 | A file gets the image icon exactly when its lower-cased extension is an image extension, and the text icon exactly when it is instead pdf, doc, docx or txt |
| Documents.UpperCasePdf | src/pages/dashboard/Documents.tsx:61 | Example of Documents.IconOfExtension: a `.PDF` file gets the text icon |
| Documents.DeleteRecoversUpload | src/pages/dashboard/Documents.tsx:77-125 | For a file name without a slash, the path deleted from a public URL ending in the upload's last segment is the upload path |
| Documents.UploadPath | src/pages/dashboard/Documents.tsx:77-78 | The locker key lies in the user's folder and keeps the file's extension |
| Documents.DeletePath | src/pages/dashboard/Documents.tsx:123-125 | The key removed is the user's folder followed by one segment with no slash, the segment the URL ends with |
| Documents.UploadRecord | src/pages/dashboard/Documents.tsx:92-97 | The row keeps the file's own name, the public URL and the MIME type as document type |
| OrderDetail.UploadedDocs | src/pages/OrderDetail.tsx:90 | The uploaded list is the documents typed exactly "uploaded", in order |
| OrderDetail.CompletedDocs | src/pages/OrderDetail.tsx:91 | The completed list is the documents typed exactly "completed", in order |
| OrderDetail.ListsDisjoint | src/pages/OrderDetail.tsx:90-91 | The two lists share nothing and together show only the documents of those two types |
| OrderDetail.WizardUploadsHidden | src/pages/OrderDetail.tsx:90-91 | A file attached in the order wizard shows in neither list |
| OrderDetail.DetailUploadRow | src/pages/OrderDetail.tsx:119-126 | A row written here is completed or uploaded by the section it was uploaded to |
| OrderDetail.DetailUploadListed | src/pages/OrderDetail.tsx:119-126 | An upload made here lands in its own section's list and not in the other |
| OrderDetail.DetailUploadPath | src/pages/OrderDetail.tsx:106-107 | The path starts with the user's and the order's folders and ends with the file's extension |
| OrderDetail.DeleteDocument | src/pages/OrderDetail.tsx:141-162 | With no text after `/documents/` no storage removal is sent but the row delete is; a malformed escape stops both; otherwise the decoded key is removed and the row deleted |
| OrderDetail.SecondPart | src/pages/OrderDetail.tsx:144 | There is a second part exactly when the URL holds `/documents/`; it is the start of the text after the first marker and holds no marker itself |
| OrderDetail.NoMarkerInEncoded | src/pages/OrderDetail.tsx:144 | An encoded storage key never contains `/documents/` |
| OrderDetail.DeleteFindsKey | src/pages/OrderDetail.tsx:144-152 | For a URL made of a base, `/documents/` and a key written out with its slashes, holding no escape and no second marker, exactly that key is removed and the row deleted |
| OrderDetail.DeleteFindsEncodedKey | src/pages/OrderDetail.tsx:144-152 | For a URL made of a base, `/documents/` and the `encodeURIComponent` form of a key, exactly that key is removed |
| OrderDetail.NoMarkerInUploadPath | src/pages/OrderDetail.tsx:106-107 | A key uploaded here has no escape and no `/documents/` in it, unless the order's folder is itself named `documents` |
| OrderDetail.DeleteFindsUpload | src/pages/OrderDetail.tsx:106-152 | Deleting a document uploaded here, whose public URL carries its key after `/documents/`, removes exactly the key it was uploaded under and deletes its row |
| OrderDetail.Visible | src/pages/OrderDetail.tsx:386-424 | Administrators see both sections; a customer sees each unless the service sets it to false; the area shows when a section does |
| OrderDetail.UnsetFlagsShowBoth | src/pages/OrderDetail.tsx:386-424 | Example of OrderDetail.Visible: unset flags show both sections to the customer |
| OrderDetail.Header | src/pages/OrderDetail.tsx:227 | The header is the first eight characters of the id, upper-cased |
| OrderDetail.ShownAmount | src/pages/OrderDetail.tsx:248 | The shown amount is the total, else the service price |
| OrderDetail.FreeOrderShowsListPrice | src/pages/OrderDetail.tsx:248 | A free order shows the service's list price while revenue counts it as 0 |
| OrderDetail.DeliveryDateValue | src/pages/OrderDetail.tsx:178-181 | A date is sent exactly when one is picked; clearing sends null |
| OrderDetail.FormatDay | src/pages/OrderDetail.tsx:180 | The formatted day is at least ten characters, all digits or dashes |
| OrderDetail.ParseDay | src/pages/OrderDetail.tsx:180 | A text reads as a day exactly when it is four digits, a dash, two digits, a dash and two digits |
| OrderDetail.DeliveryDateReadsBack | src/pages/OrderDetail.tsx:178-181 | The sent `yyyy-MM-dd` text reads back as the picked day |
| OrderDetail.FormatRoundTrip | src/pages/OrderDetail.tsx:180 | Every day with at most four year digits is ten characters that read back as the same day |
| Strings.ParseSkipsWhite | src/pages/dashboard/NewOrder.tsx:89 | Any run of JavaScript white space in front of a number leaves what `parseInt` reads unchanged |
| Strings.IdeographicSpaceSkipped | src/pages/dashboard/NewOrder.tsx:89 | Example of Strings.ParseSkipsWhite: an ideographic space and a space before `3` read as 3 |
| Uri.DecodeEncode | src/pages/OrderDetail.tsx:146 | `decodeURIComponent` undoes `encodeURIComponent` on every string |
| Upi.ParamsOfQuery | src/components/UPIPayment.tsx:24 | A non-empty list of parameters without separators in their keys or `&` in their values read back from the query in order |
| Upi.QrCodeUrl | src/components/UPIPayment.tsx:31 | The QR URL starts with the QR service's address and its `data=` parameter |
| Upi.UpiLink | src/components/UPIPayment.tsx:23-26 | The deep link is `upi://pay?` followed by the query of pa, pn, am, tn and cu in that order, with the UPI id, the merchant name and the note (service and the order's first eight characters) encoded, the amount as written and cu INR |
| Upi.QrPayload | src/components/UPIPayment.tsx:30 | The QR payment request is `upi://pay?` followed by the query of the same five parameters with nothing encoded and a note naming only the service |
| Upi.LinkParameters | src/components/UPIPayment.tsx:14-26 | The deep link reads back as pa, pn, am, tn, cu in that order; each encoded value decodes to the UPI id, the merchant name and the note with the order's short id; cu is INR |
| Upi.QrCarriesPayload | src/components/UPIPayment.tsx:29-32 | Scanning the QR code gives back the whole payment request exactly |
| Upi.QrParameters | src/components/UPIPayment.tsx:30 | For a service name without `&`, the QR request reads back as the same five parameters with the raw UPI id and name, the link's amount text, and a note without the order id |
| Upi.AmpersandSplitsQrNote | src/components/UPIPayment.tsx:30 | An `&` in the service name cuts the QR note short and makes the rest of the name a parameter of its own |
| Seo.AttributeFor | src/lib/seo.ts:68-72 | A tag is a `property` tag exactly when its name starts with `og:` or `article:` |
| Seo.UpdateMetaTag | src/lib/seo.ts:63-77 | The named element ends with the content; an existing one keeps its attribute, a new one gets the attribute its name calls for; every other element is unchanged |
| Seo.TagNameInjective | src/lib/seo.ts:18-59 | No two tags of `updateMetaTags` share a name |
| Seo.Performed | src/lib/seo.ts:15-60 | The calls made are exactly the planned calls whose guard holds |
| Seo.UpdateMetaTags | src/lib/seo.ts:17 | The document title becomes the page title |
| Seo.WritesDistinct | src/lib/seo.ts:15-60 | The calls of `updateMetaTags` name distinct tags |
| Seo.ApplyAllWritten | src/lib/seo.ts:63-77 | With distinct names every written element ends with its content, a created one with its name's attribute |
| Seo.WrittenContent | src/lib/seo.ts:15-77 | A tag whose call is made holds its content afterwards, with the right attribute when it was created |
| Seo.PerformedShape | src/lib/seo.ts:15-60 | The five title and description calls come first, then the optional ones whose setting is non-empty |
| Seo.FixedWritten | src/lib/seo.ts:17-24 | Each of the five title and description tags holds its value afterwards |
| Seo.TitleTags | src/lib/seo.ts:17-19 | The title goes to `og:title` and `twitter:title` |
| Seo.DescriptionTags | src/lib/seo.ts:22-24 | The description goes to all three description tags |
| Seo.WrittenTag | src/lib/seo.ts:15-60 | A tag is written exactly when a performed call names it |
| Seo.OptionalWrites | src/lib/seo.ts:26-60 | An optional tag is written exactly when its setting is non-empty |
| Seo.EmptySettingUntouched | src/lib/seo.ts:26-60 | A tag whose optional setting is empty keeps the element it had |
| Seo.ServiceSchemaOf | src/lib/seo.ts:126-142 | The service record names the business as provider and has an offer in INR exactly when the price is non-empty |
| Seo.FaqSchema | src/lib/seo.ts:144-155 | One question per entry, in order, with the answer text unchanged |
| Seo.FaqRoundTrip | src/lib/seo.ts:144-155 | The FAQ entries read back from the schema |
| Seo.BreadcrumbSchema | src/lib/seo.ts:157-166 | Each crumb keeps its name and URL and is numbered by its place from 1 |
| Seo.BreadcrumbPositions | src/lib/seo.ts:157-166 | Positions increase, the last is the count, and a crumb added at the end gets the next position |
| Seo.ArticleSchemaOf | src/lib/seo.ts:168-187 | The modified date falls back to the published date and the author to "Dastawez"; the rest is copied |
| Seo.UneditedArticle | src/lib/seo.ts:182 | Example of Seo.ArticleSchemaOf: an article never edited reads as modified when it was published |
| Accessibility.AltText | src/lib/accessibility.ts:3-10 | "Image: " or "Icon: " before the context, or " logo" after it; an omitted kind is an image |
| Accessibility.AltTextInjective | src/lib/accessibility.ts:3-10 | Different contexts never share an alt text of the same kind |
| Accessibility.AriaLabel | src/lib/accessibility.ts:12-14 | "action - context" for a non-empty context, the action alone otherwise |
| Accessibility.EmptyContextIsMissing | src/lib/accessibility.ts:13 | An empty context and a missing one give the same label |
| Accessibility.SemanticHeading | src/lib/accessibility.ts:21-29 | The heading has role "heading", an ARIA level equal to its level, and the text and id passed in |
| Accessibility.AccessibleForm | src/lib/accessibility.ts:124-139 | Each field in order is labelled by its caption; it is described by `<id>-description` exactly when it has a description, invalid exactly when it has an error, and points at `<id>-error` exactly then |
| Accessibility.DistinctReferences | src/lib/accessibility.ts:135-137 | Fields with different ids point at different description and error elements |
| Accessibility.ActionFor | src/lib/accessibility.ts:65-87 | A key selects the callback named by it, and no callback for any other key |
| Accessibility.ActionForName | src/lib/accessibility.ts:65-87 | Every callback is selected by its own key |
| Accessibility.Dispatch | src/lib/accessibility.ts:56-88 | At most one callback runs: the one for the key, and only when it was given |
| Deletes.Run | src/pages/admin/AdminUsers.tsx:155-176 | The deletes sent are a prefix of the steps, in order |
| Deletes.RunOutcome | src/pages/admin/AdminOrders.tsx:81-94 | A run succeeds exactly when no checked delete fails, and then sends every delete; otherwise it stops right after the first failing checked one |
| Deletes.UncheckedAlwaysRun | src/pages/admin/AdminOrders.tsx:83 | Deletes whose errors are not looked at are all sent and never fail the run |

## Left out

- Backend calls are inputs and outputs of the model, not modelled: table queries, storage upload, remove and public URLs, realtime channel setup and teardown, react-query caching and invalidation, and authentication. Their results are parameters.
- The Web Audio tone, the browser Notification API, toasts, the clipboard and timers are side effects with nothing to prove.
- localStorage is an abstract map from storage key to list. JSON encoding and its parse errors are left out: a list reads back as saved.
- Floating point is left out because the model works in whole rupees: `checkColorContrast`, the `toFixed` growth and completion percentages, `parseFloat` of prices, and megabyte display.
- Analytics.RevenueGrowth: a relative growth keeps its two revenues instead of the one-decimal percentage, which is floating point.
- Analytics.ComputeStats: the completion rate is not computed, because it is a `toFixed` percentage.
- UserData.ComputeStats: the month-by-month spending is not modelled, because its keys are date-fns month names.
- Calendar bucketing is left out: the last-30-days and last-6-months series and the `startOfMonth` comparisons. Membership of this and last month is a predicate parameter of Analytics.ComputeStats.
- Date formatting is left out except the delivery date's `yyyy-MM-dd`.
- Timestamps are integers of milliseconds. An invalid `created_at` is a missing one.
- Services.SortByCategory: the backend's `order('category')` guarantees nothing inside a category. The model keeps the fetched order there, which is one of the orders the backend may return.
- Case mapping is ASCII-only. Case-insensitive search lower-cases ASCII letters only, and the order header (OrderDetail.Header) upper-cases ASCII letters only. JavaScript's Unicode `toLowerCase` and `toUpperCase` are not modelled. Both are exact on the UUID order ids.
- Strings are sequences of Unicode scalar values. Lone surrogates, which `encodeURIComponent` rejects, are not modelled.
- The pages' crash paths are not modelled, for example `order.services?.name.toLowerCase()` on a service whose name is null. The schema declares these columns non-null.
- The order wizard's auto-fill of the details from the profile is not modelled. It is an effect that runs once and keeps no invariant.
- The per-category grouping of service cards (`groupedServices`) is display layout. Only the category order of the fetched list is modelled.
- The wizard's attachment upload loop skips files whose upload fails. Which files fail is backend behaviour, so only the path and the row of one upload are modelled.
- The public URL of a stored document is modelled as a base, `/documents/` and the storage key written out as it is. Any escaping the storage client applies to the key is not modelled. The keys this page writes hold only the two ids, digits, a dot and the extension.
- The order-detail page's status change is a backend call and is not modelled.
- The DOM helpers are not modelled: `createLiveRegion`, `createSkipLink`, `manageFocus`, `announceToScreenReaders`, `addStructuredData`, and the element lookup and creation in `seo.ts`. The meta tags are a map from name to element.
- The organization and local-business schema constants are fixed literals with nothing to prove.
- `optimizeImageForAI`, `src/lib/performance.ts` and the accessibility and SEO hooks are effect plumbing.
- Amounts are whole rupees (`int`). A fractional price typed in the service editor is read by the leading-integer parse.
- `parseInt` is modelled as skipping leading white space (the ECMAScript WhiteSpace and LineTerminator characters, which `trim` also removes), reading an optional sign and then the longest run of decimal digits. Radix prefixes and other number formats are not modelled.
- Object key order (`Object.values`, `Object.entries`) is modelled as first-insertion order, which is what JavaScript uses for non-numeric keys.
- Sort ties are modelled as a stable sort. JavaScript's `Array.prototype.sort` is stable since ES2019.
- ServiceEditor.PickCategory: the select calls its change handler only when the picked value differs from the current one. That rule belongs to the select component, which is not part of this model, and it is stated here as the component documents it.
- Services.Json: a stored `custom_fields` array is taken to hold field records, as the page's unchecked `as CustomField[]` cast assumes. Arrays of other values are not represented.
- Schema.Order: the nullable `service_id` and `created_at` columns are options. No page logic in the model reads them from this record.

## Findings

| source | as written | input that shows it | evidently intended | confidence | as-written member | corrected member |
|---|---|---|---|---|---|---|
| src/hooks/useNotifications.ts:162-167 | `markAsRead` lowers the unread counter by one whatever the target was | Items `a` (read) and `b` (unread) with counter 1, then `markAsRead("a")`: the counter becomes 0 while `b` is still unread, so the badge hides an unread notification | Lower the counter by the number of unread notifications the call marks read | not executed | Notifications.MarkAsReadDrift | Notifications.MarkAsReadCounted |

=== FILE: accessibility.dfy ===
/**
 * The accessibility helpers: alt texts, ARIA labels, heading descriptors,
 * the ARIA attributes added to form fields, and keyboard dispatch.
 */
module Accessibility {
  import opened Wrappers
  import Seqs
  import Strings
  import Js

  // ---------------------------------------------------------------------------
  // Labels

  datatype ImageKind = ImageAlt | IconAlt | LogoAlt

  /** `generateAltText`: the context behind "Image: " or "Icon: ", or before " logo"; an omitted kind is an image. */
  function AltText(context: string, kind: Option<ImageKind>): (r: string)
    ensures kind.None? || kind == Some(ImageAlt) ==> Strings.StartsWith(r, "Image: ") && r[7..] == context
    ensures kind == Some(IconAlt) ==> Strings.StartsWith(r, "Icon: ") && r[6..] == context
    ensures kind == Some(LogoAlt) ==> |r| == |context| + 5 && Strings.EndsWith(r, " logo") && r[..|context|] == context
  {
    match (if kind.Some? then kind.value else ImageAlt)
    case ImageAlt =>
      var r := "Image: " + context;
      assert r[..7] == "Image: " && r[7..] == context;
      r
    case IconAlt =>
      var r := "Icon: " + context;
      assert r[..6] == "Icon: " && r[6..] == context;
      r
    case LogoAlt =>
      var r := context + " logo";
      assert r[|r| - 5..] == " logo" && r[..|context|] == context;
      r
  }

  /** Different contexts never share an alt text of the same kind. */
  lemma AltTextInjective(c1: string, c2: string, kind: Option<ImageKind>)
    requires AltText(c1, kind) == AltText(c2, kind)
    ensures c1 == c2
  {
  }

  /** `generateAriaLabel`: "action - context" for a non-empty context, the action alone otherwise. */
  function AriaLabel(action: string, context: Option<string>): (r: string)
    ensures Js.TruthyString(context) ==> Strings.StartsWith(r, action + " - ") && r[|action| + 3..] == context.value
    ensures !Js.TruthyString(context) ==> r == action
  {
    if Js.TruthyString(context) then
      var prefix := action + " - ";
      var r := prefix + context.value;
      assert r[..|prefix|] == prefix && r[|prefix|..] == context.value;
      r
    else action
  }

  /** An empty context and a missing one give the same label. */
  lemma EmptyContextIsMissing(action: string)
    ensures AriaLabel(action, Some("")) == AriaLabel(action, None) == action
  {
  }

  /** `generateAriaDescription`: the description is used as it is. */
  function AriaDescription(description: string): (r: string)
    ensures r == description
  {
    description
  }

  type HeadingLevel = n: int | 1 <= n <= 6 witness 1

  /** The descriptor `semanticHeading` returns. */
  datatype Heading = Heading(level: HeadingLevel, text: string, id: Option<string>, role: string, ariaLevel: HeadingLevel)

  function SemanticHeading(level: HeadingLevel, text: string, id: Option<string>): (r: Heading)
    ensures r.role == "heading" && r.ariaLevel == r.level == level
    ensures r.text == text && r.id == id
  {
    Heading(level, text, id, "heading", level)
  }

  // ---------------------------------------------------------------------------
  // Forms

  /** A form field as described by the page. */
  datatype FieldSpec = FieldSpec(id: string, caption: string, fieldType: string, required: Option<bool>, description: Option<string>, error: Option<string>)

  /** The field with its ARIA attributes. */
  datatype AccessibleField = AccessibleField(
    spec: FieldSpec,
    ariaLabel: string,
    ariaDescribedBy: Option<string>,
    ariaInvalid: bool,
    ariaErrorMessage: Option<string>)

  function Annotate(f: FieldSpec): AccessibleField {
    AccessibleField(
      f,
      f.caption,
      if Js.TruthyString(f.description) then Some(f.id + "-description") else None,
      Js.TruthyString(f.error),
      if Js.TruthyString(f.error) then Some(f.id + "-error") else None)
  }

  /** `createAccessibleForm`: every field in order, labelled by its caption, pointing at its description and error only when they are set. */
  function AccessibleForm(fields: seq<FieldSpec>): (r: seq<AccessibleField>)
    ensures |r| == |fields|
    ensures forall i :: 0 <= i < |r| ==> r[i].spec == fields[i] && r[i].ariaLabel == fields[i].caption
    ensures forall i :: 0 <= i < |r| ==> (r[i].ariaDescribedBy.Some? <==> Js.TruthyString(fields[i].description))
    ensures forall i :: 0 <= i < |r| ==> (r[i].ariaInvalid <==> Js.TruthyString(fields[i].error))
    ensures forall i :: 0 <= i < |r| ==> (r[i].ariaErrorMessage.Some? <==> r[i].ariaInvalid)
    ensures forall i :: 0 <= i < |r| ==>
      r[i].ariaDescribedBy == (if Js.TruthyString(fields[i].description) then Some(fields[i].id + "-description") else None)
    ensures forall i :: 0 <= i < |r| ==>
      r[i].ariaErrorMessage == (if Js.TruthyString(fields[i].error) then Some(fields[i].id + "-error") else None)
  {
    Seqs.Map(fields, Annotate)
  }

  lemma SuffixCancels(a: string, b: string, suffix: string)
    requires a + suffix == b + suffix
    ensures a == b
  {
    assert a == (a + suffix)[..|a|];
    assert b == (b + suffix)[..|b|];
  }

  /** Fields with different ids point at different description and error elements. */
  lemma DistinctReferences(fields: seq<FieldSpec>, i: nat, j: nat)
    requires i < |fields| && j < |fields| && fields[i].id != fields[j].id
    ensures var r := AccessibleForm(fields);
      && (r[i].ariaDescribedBy.Some? && r[j].ariaDescribedBy.Some? ==> r[i].ariaDescribedBy != r[j].ariaDescribedBy)
      && (r[i].ariaErrorMessage.Some? && r[j].ariaErrorMessage.Some? ==> r[i].ariaErrorMessage != r[j].ariaErrorMessage)
  {
    var r := AccessibleForm(fields);
    if r[i].ariaDescribedBy.Some? && r[j].ariaDescribedBy.Some? && r[i].ariaDescribedBy == r[j].ariaDescribedBy {
      SuffixCancels(fields[i].id, fields[j].id, "-description");
    }
    if r[i].ariaErrorMessage.Some? && r[j].ariaErrorMessage.Some? && r[i].ariaErrorMessage == r[j].ariaErrorMessage {
      SuffixCancels(fields[i].id, fields[j].id, "-error");
    }
  }

  // ---------------------------------------------------------------------------
  // Keyboard

  /** The callbacks `handleKeyboardNavigation` accepts. */
  datatype KeyAction = OnEnter | OnEscape | OnArrowUp | OnArrowDown | OnArrowLeft | OnArrowRight | OnTab

  /** The `event.key` value each callback answers to. */
  function KeyName(a: KeyAction): string {
    match a
    case OnEnter => "Enter"
    case OnEscape => "Escape"
    case OnArrowUp => "ArrowUp"
    case OnArrowDown => "ArrowDown"
    case OnArrowLeft => "ArrowLeft"
    case OnArrowRight => "ArrowRight"
    case OnTab => "Tab"
  }

  /** The callback a key selects, if any. */
  function ActionFor(key: string): (r: Option<KeyAction>)
    ensures r.Some? ==> KeyName(r.value) == key
    ensures r.None? ==> forall a: KeyAction :: KeyName(a) != key
  {
    if key == "Enter" then Some(OnEnter)
    else if key == "Escape" then Some(OnEscape)
    else if key == "ArrowUp" then Some(OnArrowUp)
    else if key == "ArrowDown" then Some(OnArrowDown)
    else if key == "ArrowLeft" then Some(OnArrowLeft)
    else if key == "ArrowRight" then Some(OnArrowRight)
    else if key == "Tab" then Some(OnTab)
    else None
  }

  /** Every callback is selected by its own key. */
  lemma ActionForName(a: KeyAction)
    ensures ActionFor(KeyName(a)) == Some(a)
  {
  }

  /** The dispatch: at most one callback runs, the one for the key, and only when it was given. */
  function Dispatch(key: string, given: set<KeyAction>): (r: Option<KeyAction>)
    ensures r.Some? ==> r.value in given && KeyName(r.value) == key
    ensures r.None? ==> forall a :: a in given ==> KeyName(a) != key
  {
    var a := ActionFor(key);
    if a.Some? && a.value in given then a else None
  }
}

=== FILE: adminorders.dfy ===
/**
 * The administrator's order list: search and status filtering, deleting an
 * order, the status shown for an order without one, and the labels of the
 * form details.
 */
module AdminOrders {
  import opened Wrappers
  import Seqs
  import Strings
  import opened Schema
  import D = Deletes
  import A = Analytics

  // ---------------------------------------------------------------------------
  // Filtering

  function CustomerName(o: Order): Option<string> {
    if o.profile.Some? then o.profile.value.fullName else None
  }

  function CustomerEmail(o: Order): Option<string> {
    if o.profile.Some? then o.profile.value.email else None
  }

  /** Case-insensitive search over service name, customer name, customer email and order id. */
  predicate SearchMatches(q: string, o: Order) {
    || Strings.OptionIncludesIgnoreCase(ServiceName(o), q)
    || Strings.OptionIncludesIgnoreCase(CustomerName(o), q)
    || Strings.OptionIncludesIgnoreCase(CustomerEmail(o), q)
    || Strings.IncludesIgnoreCase(o.id, q)
  }

  predicate Matches(q: string, f: StatusFilter, o: Order) {
    SearchMatches(q, o) && StatusMatches(f, o)
  }

  /** `filteredOrders`: the matching orders in their original order. */
  function FilteredOrders(os: seq<Order>, q: string, f: StatusFilter): (r: seq<Order>)
    ensures Seqs.IsSubsequence(r, os)
    ensures forall i :: 0 <= i < |r| ==> Matches(q, f, r[i])
    ensures forall i :: 0 <= i < |os| && Matches(q, f, os[i]) ==> os[i] in r
  {
    Seqs.FilterIsSubsequence(os, o => Matches(q, f, o));
    Seqs.Filter(os, o => Matches(q, f, o))
  }

  /** Every order carries an id, so an empty search keeps exactly the orders the status select lets through. */
  lemma EmptySearch(os: seq<Order>, f: StatusFilter)
    ensures FilteredOrders(os, "", f) == Seqs.Filter(os, o => StatusMatches(f, o))
    ensures FilteredOrders(os, "", AnyStatus) == os
  {
    forall i | 0 <= i < |os|
      ensures Matches("", f, os[i]) == StatusMatches(f, os[i])
      ensures Matches("", AnyStatus, os[i])
    {
      Strings.IncludesIgnoreCaseEmpty(os[i].id);
    }
    Seqs.FilterSame(os, o => Matches("", f, o), o => StatusMatches(f, o));
    Seqs.FilterFull(os, o => Matches("", AnyStatus, o));
  }

  /** The search ignores the case of the query, so an id is found by its upper-case spelling too. */
  lemma SearchIgnoresCase(o: Order, q: string)
    ensures SearchMatches(Strings.Upper(q), o) <==> SearchMatches(q, o)
  {
    LowerUpper(q);
  }

  lemma LowerUpper(q: string)
    ensures Strings.Lower(Strings.Upper(q)) == Strings.Lower(q)
  {
  }

  // ---------------------------------------------------------------------------
  // Deleting

  function DeleteSteps(orderId: string): seq<D.Step> {
    [ D.Step(D.Delete(D.OrderDocuments, "order_id", orderId), false),
      D.Step(D.Delete(D.Orders, "id", orderId), true) ]
  }

  /** `handleDeleteOrder`: both deletes are always sent, documents first; only the order's own delete can fail the action. */
  function DeleteOrder(orderId: string, fails: D.Delete -> bool): (r: D.Outcome)
    ensures r.issued == [D.Delete(D.OrderDocuments, "order_id", orderId), D.Delete(D.Orders, "id", orderId)]
    ensures r.ok <==> !fails(D.Delete(D.Orders, "id", orderId))
  {
    var steps := DeleteSteps(orderId);
    var r := D.Run(steps, fails);
    D.RunOutcome(steps, fails);
    assert !D.Stops(steps[0], fails);
    assert D.Stops(steps[1], fails) <==> fails(D.Delete(D.Orders, "id", orderId));
    assert |r.issued| == 2;
    r
  }

  /** A failing document delete is ignored: the outcome depends on the order row alone. */
  lemma DocumentErrorIgnored(orderId: string, f1: D.Delete -> bool, f2: D.Delete -> bool)
    requires f1(D.Delete(D.Orders, "id", orderId)) == f2(D.Delete(D.Orders, "id", orderId))
    ensures DeleteOrder(orderId, f1) == DeleteOrder(orderId, f2)
  {
  }

  // ---------------------------------------------------------------------------
  // Status shown

  /** `order.status || 'pending'`: the status badge and select show a missing status as pending. */
  function ShownStatus(o: Order): (r: OrderStatus)
    ensures o.status.Some? ==> r == o.status.value
    ensures o.status.None? ==> r == Pending
  {
    if o.status.Some? then o.status.value else Pending
  }

  /** An order shown as pending here is counted as pending on the analytics page too. */
  lemma ShownPendingIsOpen(o: Order)
    ensures ShownStatus(o) == Pending ==> A.IsOpen(o)
    ensures ShownStatus(o) == Pending <==> o.status.None? || o.status == Some(Pending)
  {
  }

  // ---------------------------------------------------------------------------
  // Detail labels

  /**
   * `key.replace(/([A-Z])/g, ' $1')`: a space before every ASCII capital. The
   * spaced text never starts with a capital, and joining each capital back to
   * the space in front of it gives the key again.
   */
  function SpaceBeforeCapitals(k: string): (r: string)
    ensures |k| > 0 ==> |r| > 0 && !Strings.IsUpperAscii(r[0])
    ensures JoinCapitals(r) == k
    decreases |k|
  {
    if |k| == 0 then []
    else
      var rest := SpaceBeforeCapitals(k[1..]);
      var r := (if Strings.IsUpperAscii(k[0]) then [' ', k[0]] else [k[0]]) + rest;
      assert r[1..] == rest || r[2..] == rest;
      assert k == [k[0]] + k[1..];
      r
  }

  /** One space is added per capital. */
  lemma {:induction false} SpacedLength(k: string)
    ensures |SpaceBeforeCapitals(k)| == |k| + Seqs.Count(k, Strings.IsUpperAscii)
    decreases |k|
  {
    if |k| > 0 {
      SpacedLength(k[1..]);
      assert k == [k[0]] + k[1..];
      Seqs.FilterCons(k[0], k[1..], Strings.IsUpperAscii);
    }
  }

  /** Removes the space in front of each capital, undoing SpaceBeforeCapitals. */
  function JoinCapitals(s: string): string
    decreases |s|
  {
    if |s| == 0 then []
    else if |s| >= 2 && s[0] == ' ' && Strings.IsUpperAscii(s[1]) then [s[1]] + JoinCapitals(s[2..])
    else [s[0]] + JoinCapitals(s[1..])
  }

  /** The spaced key never starts with a capital, and starts with a space exactly when the key does with a capital. */
  lemma SpacedHead(k: string)
    requires |k| > 0
    ensures |SpaceBeforeCapitals(k)| > 0 && !Strings.IsUpperAscii(SpaceBeforeCapitals(k)[0])
    ensures Strings.IsUpperAscii(k[0]) ==> SpaceBeforeCapitals(k)[0] == ' ' && SpaceBeforeCapitals(k)[1..] == [k[0]] + SpaceBeforeCapitals(k[1..])
    ensures !Strings.IsUpperAscii(k[0]) ==> SpaceBeforeCapitals(k) == [k[0]] + SpaceBeforeCapitals(k[1..])
  {
    var head := if Strings.IsUpperAscii(k[0]) then [' ', k[0]] else [k[0]];
    var s := head + SpaceBeforeCapitals(k[1..]);
    assert SpaceBeforeCapitals(k) == s;
    assert s[0] == head[0];
    if Strings.IsUpperAscii(k[0]) {
      assert s[1..] == [k[0]] + SpaceBeforeCapitals(k[1..]);
    }
  }

  /** The spaced key ends with the key's last character. */
  lemma {:induction false} SpacedLast(k: string)
    requires |k| > 0
    ensures |SpaceBeforeCapitals(k)| > 0 && SpaceBeforeCapitals(k)[|SpaceBeforeCapitals(k)| - 1] == k[|k| - 1]
    decreases |k|
  {
    if |k| > 1 {
      SpacedLast(k[1..]);
    }
  }

  /** The label of a form-detail key: spaced before capitals, then trimmed, so it neither starts nor ends with white space. */
  function DetailLabel(k: string): (r: string)
    ensures |r| > 0 ==> !Strings.IsWhite(r[0]) && !Strings.IsWhite(r[|r| - 1])
  {
    var t := Strings.TrimStart(SpaceBeforeCapitals(k));
    var r := Strings.TrimEnd(t);
    assert |r| > 0 ==> r[0] == t[..|r|][0] == t[0];
    r
  }

  /** For a key without white space the trim removes only the space put before a leading capital. */
  lemma DetailLabelOfKey(k: string)
    requires forall i :: 0 <= i < |k| ==> !Strings.IsWhite(k[i])
    ensures |k| > 0 && Strings.IsUpperAscii(k[0]) ==> DetailLabel(k) == SpaceBeforeCapitals(k)[1..]
    ensures !(|k| > 0 && Strings.IsUpperAscii(k[0])) ==> DetailLabel(k) == SpaceBeforeCapitals(k)
  {
    var s := SpaceBeforeCapitals(k);
    if |k| > 0 {
      SpacedHead(k);
      SpacedLast(k);
      var t := if Strings.IsUpperAscii(k[0]) then s[1..] else s;
      assert t[0] == k[0] && t[|t| - 1] == k[|k| - 1];
      TrimAfterSpace(s, t);
    }
  }

  /** Trimming a text with no white space at its ends, or one space before it, gives that text. */
  lemma TrimAfterSpace(s: string, t: string)
    requires |t| > 0 && !Strings.IsWhite(t[0]) && !Strings.IsWhite(t[|t| - 1])
    requires s == t || (|s| > 0 && s[0] == ' ' && s[1..] == t)
    ensures Strings.Trim(s) == t
  {
    if s != t {
      Strings.TrimStartStep(s);
    }
    Strings.TrimNoWhiteEnds(t);
  }

  /** A camel-case key `aB` is shown as "a B". */
  lemma CamelCaseLabel()
    ensures DetailLabel("aB") == "a B"
  {
    var k: string := ['a', 'B'];
    assert k[1..] == ['B'] && k[1..][1..] == [];
    assert SpaceBeforeCapitals(k[1..]) == [' ', 'B'];
    assert SpaceBeforeCapitals(k) == ['a', ' ', 'B'];
    Strings.TrimNoWhiteEnds(['a', ' ', 'B']);
    assert k == "aB" && ['a', ' ', 'B'] == "a B";
  }
}

=== FILE: adminusers.dfy ===
/**
 * The administrator's user list: profiles flagged with their admin role, the
 * per-user order counts, search and role filtering, and deleting a user.
 */
module AdminUsers {
  import opened Wrappers
  import Seqs
  import Strings
  import B = Buckets
  import OQ = OrderQueries
  import D = Deletes

  /** A profile with its admin flag. */
  datatype UserRow = UserRow(profile: OQ.Profile, isAdmin: bool)

  /** The users query: every profile in fetched order, flagged when an admin role row names it. */
  function WithAdminFlags(profiles: seq<OQ.Profile>, adminIds: seq<string>): (r: seq<UserRow>)
    ensures |r| == |profiles|
    ensures forall i :: 0 <= i < |r| ==> r[i].profile == profiles[i]
    ensures forall i :: 0 <= i < |r| ==> (r[i].isAdmin <==> profiles[i].id in adminIds)
  {
    Seqs.Map(profiles, (p: OQ.Profile) => UserRow(p, p.id in adminIds))
  }

  // ---------------------------------------------------------------------------
  // Order counts

  function UserKey(u: string): Option<string> {
    Some(u)
  }

  function One(u: string): int {
    1
  }

  /** `orderCounts`: one counter per user id of the fetched order rows, in order of first appearance. */
  function OrderCounts(orderUserIds: seq<string>): (r: seq<B.Bucket<string>>)
    ensures B.DistinctKeys(r)
    ensures forall u :: B.HasBucket(r, u) <==> B.KeyedCount(orderUserIds, UserKey, u) > 0
    ensures forall i :: 0 <= i < |r| ==> r[i].count == B.KeyedCount(orderUserIds, UserKey, r[i].key)
  {
    var g := B.Group(orderUserIds, UserKey, One);
    forall u
      ensures B.HasBucket(g, u) <==> B.KeyedCount(orderUserIds, UserKey, u) > 0
    {
      B.GroupKeys(orderUserIds, UserKey, One, u);
    }
    forall i | 0 <= i < |g|
      ensures g[i].count == B.KeyedCount(orderUserIds, UserKey, g[i].key)
    {
      B.GroupMember(orderUserIds, UserKey, One, g[i]);
    }
    B.GroupKeys(orderUserIds, UserKey, One, "");
    g
  }

  /** `orderCounts[user.id] || 0`. */
  function CountFor(counts: seq<B.Bucket<string>>, u: string): nat {
    match B.FindKey(counts, u)
    case None => 0
    case Some(i) => counts[i].count
  }

  /** The count shown for a user is the number of order rows carrying their id, zero included. */
  lemma CountForUser(orderUserIds: seq<string>, u: string)
    ensures CountFor(OrderCounts(orderUserIds), u) == B.KeyedCount(orderUserIds, UserKey, u)
    ensures CountFor(OrderCounts(orderUserIds), u) > 0 <==> u in orderUserIds
  {
    var g := OrderCounts(orderUserIds);
    B.GroupKeys(orderUserIds, UserKey, One, u);
    B.KeyedCountPositive(orderUserIds, UserKey, u);
    match B.FindKey(g, u)
    case None =>
      assert !B.HasBucket(g, u);
    case Some(i) =>
      B.GroupMember(orderUserIds, UserKey, One, g[i]);
  }

  /** The counters add up to the number of fetched order rows. */
  lemma CountsTotal(orderUserIds: seq<string>)
    ensures Seqs.Sum(OrderCounts(orderUserIds), (b: B.Bucket<string>) => b.count) == |orderUserIds|
  {
    B.GroupTotals(orderUserIds, UserKey, One);
    Seqs.FilterFull(orderUserIds, x => B.Keyed(UserKey, x));
  }

  // ---------------------------------------------------------------------------
  // Filtering and counts

  /** The role select: everyone, admins only, or non-admins only. */
  datatype RoleFilter = AllUsers | AdminsOnly | CustomersOnly

  predicate RoleMatches(f: RoleFilter, u: UserRow) {
    || f.AllUsers?
    || (f.AdminsOnly? && u.isAdmin)
    || (f.CustomersOnly? && !u.isAdmin)
  }

  /** Name and email match ignoring case; the phone number matches as typed. */
  predicate SearchMatches(q: string, u: UserRow) {
    || Strings.OptionIncludesIgnoreCase(u.profile.fullName, q)
    || Strings.OptionIncludesIgnoreCase(u.profile.email, q)
    || (u.profile.phone.Some? && Strings.Contains(u.profile.phone.value, q))
  }

  predicate Matches(q: string, f: RoleFilter, u: UserRow) {
    SearchMatches(q, u) && RoleMatches(f, u)
  }

  /** `filteredUsers`: the matching users in their original order. */
  function FilteredUsers(users: seq<UserRow>, q: string, f: RoleFilter): (r: seq<UserRow>)
    ensures Seqs.IsSubsequence(r, users)
    ensures forall i :: 0 <= i < |r| ==> Matches(q, f, r[i])
    ensures forall i :: 0 <= i < |users| && Matches(q, f, users[i]) ==> users[i] in r
  {
    Seqs.FilterIsSubsequence(users, u => Matches(q, f, u));
    Seqs.Filter(users, u => Matches(q, f, u))
  }

  /** A user with at least one of name, email and phone. */
  predicate HasContact(u: UserRow) {
    u.profile.fullName.Some? || u.profile.email.Some? || u.profile.phone.Some?
  }

  /** An empty search lists exactly the users with some contact field; a user with none is never listed. */
  lemma EmptySearch(users: seq<UserRow>)
    ensures FilteredUsers(users, "", AllUsers) == Seqs.Filter(users, HasContact)
  {
    forall i | 0 <= i < |users|
      ensures Matches("", AllUsers, users[i]) == HasContact(users[i])
    {
      var p := users[i].profile;
      if p.fullName.Some? {
        Strings.IncludesIgnoreCaseEmpty(p.fullName.value);
      }
      if p.email.Some? {
        Strings.IncludesIgnoreCaseEmpty(p.email.value);
      }
      if p.phone.Some? {
        Strings.ContainsEmpty(p.phone.value);
      }
    }
    Seqs.FilterSame(users, u => Matches("", AllUsers, u), HasContact);
  }

  /** The admins and the non-admins among the matches make up all of them. */
  lemma RoleSplit(users: seq<UserRow>, q: string)
    ensures |FilteredUsers(users, q, AllUsers)| == |FilteredUsers(users, q, AdminsOnly)| + |FilteredUsers(users, q, CustomersOnly)|
  {
    var f1, f2, f3 := AllUsers, AdminsOnly, CustomersOnly;
    Seqs.CountOr(users, u => Matches(q, f2, u), u => Matches(q, f3, u), u => Matches(q, f1, u));
  }

  predicate IsAdmin(u: UserRow) {
    u.isAdmin
  }

  /** The delete control is offered for non-admin users only. */
  predicate CanDelete(u: UserRow) {
    !u.isAdmin
  }

  predicate AnyUser(u: UserRow) {
    true
  }

  /** `adminCount` and `userCount`: the admins and the deletable users together are all users. */
  lemma UserCounts(users: seq<UserRow>)
    ensures Seqs.Count(users, IsAdmin) + Seqs.Count(users, CanDelete) == |users|
    ensures Seqs.Count(users, IsAdmin) <= |users|
  {
    Seqs.CountOr(users, IsAdmin, CanDelete, AnyUser);
    Seqs.FilterFull(users, AnyUser);
  }

  // ---------------------------------------------------------------------------
  // Deleting

  function DeleteSteps(userId: string): seq<D.Step> {
    [ D.Step(D.Delete(D.Orders, "user_id", userId), false),
      D.Step(D.Delete(D.UserDocuments, "user_id", userId), false),
      D.Step(D.Delete(D.UserRoles, "user_id", userId), false),
      D.Step(D.Delete(D.Profiles, "id", userId), true) ]
  }

  /**
   * `deleteUser`: orders, documents and roles go before the profile, all four
   * are always sent, only the profile's error is reported, and the order
   * documents are never deleted.
   */
  function DeleteUser(userId: string, fails: D.Delete -> bool): (r: D.Outcome)
    ensures r.issued == [ D.Delete(D.Orders, "user_id", userId), D.Delete(D.UserDocuments, "user_id", userId),
                          D.Delete(D.UserRoles, "user_id", userId), D.Delete(D.Profiles, "id", userId) ]
    ensures r.ok <==> !fails(D.Delete(D.Profiles, "id", userId))
    ensures forall i :: 0 <= i < |r.issued| ==> r.issued[i].table != D.OrderDocuments
  {
    var steps := DeleteSteps(userId);
    var r := D.Run(steps, fails);
    D.RunOutcome(steps, fails);
    assert !D.Stops(steps[0], fails) && !D.Stops(steps[1], fails) && !D.Stops(steps[2], fails);
    assert D.Stops(steps[3], fails) <==> fails(D.Delete(D.Profiles, "id", userId));
    assert |r.issued| == 4;
    r
  }
}

=== FILE: analytics.dfy ===
/**
 * The administrator's analytics page: the summary figures, the two status
 * pie charts, and the revenue and popularity rankings by service and by
 * category. Calendar bucketing is abstracted into two month predicates.
 */
module Analytics {
  import opened Wrappers
  import Seqs
  import Js
  import opened Schema
  import B = Buckets

  /** `orders.reduce((sum, o) => sum + (o.total_amount || 0), 0)`. */
  function Revenue(os: seq<Order>): int {
    Seqs.Sum(os, Amount)
  }

  predicate IsDelivered(o: Order) {
    o.status == Some(Delivered)
  }

  predicate IsCancelled(o: Order) {
    o.status == Some(Cancelled)
  }

  /** "Pending" on this page: neither delivered nor cancelled, an order without a status included. */
  predicate IsOpen(o: Order) {
    !IsDelivered(o) && !IsCancelled(o)
  }

  // ---------------------------------------------------------------------------
  // Summary figures

  /** `n > 0 ? Math.round(t / n) : 0`; a half rounds up, as `Math.round` does. */
  function RoundedMean(t: int, n: nat): (r: int)
    ensures n == 0 ==> r == 0
    ensures n > 0 ==> 2 * n * r <= 2 * t + n < 2 * n * r + 2 * n
  {
    if n == 0 then 0
    else
      var r := (2 * t + n) / (2 * n);
      assert 2 * t + n == 2 * n * r + (2 * t + n) % (2 * n);
      r
  }

  /** An exact quotient is its own rounding. */
  lemma RoundedMeanExact(k: int, n: nat)
    requires n > 0
    ensures RoundedMean(n * k, n) == k
  {
    var r := RoundedMean(n * k, n);
    if r < k {
      MulMono(2 * n, r + 1, k);
    } else if r > k {
      MulMono(2 * n, k + 1, r);
    }
  }

  /** With non-negative amounts the mean lies between 0 and the total. */
  lemma RoundedMeanBounds(t: int, n: nat)
    requires t >= 0
    ensures 0 <= RoundedMean(t, n) <= t
  {
    if n > 0 {
      var r := RoundedMean(t, n);
      if r < 0 {
        MulMono(2 * n, r + 1, 0);
      } else if r > t {
        MulMono(2 * n, t + 1, r);
        MulMono(t, 1, n);
      }
    }
  }

  lemma MulMono(a: int, b: int, c: int)
    requires a >= 0 && b <= c
    ensures a * b <= a * c
  {
    assert a * c - a * b == a * (c - b);
  }

  /** `revenueGrowth`: a percentage when last month earned something, else "100" or "0". */
  datatype Growth = Relative(thisMonth: int, lastMonth: int) | Hundred | Zero

  function RevenueGrowth(thisMonth: int, lastMonth: int): (r: Growth)
    ensures r.Relative? <==> lastMonth > 0
    ensures r.Relative? ==> r.thisMonth == thisMonth && r.lastMonth == lastMonth
    ensures r == Hundred <==> lastMonth <= 0 && thisMonth > 0
    ensures r == Zero <==> lastMonth <= 0 && thisMonth <= 0
  {
    if lastMonth > 0 then Relative(thisMonth, lastMonth)
    else if thisMonth > 0 then Hundred
    else Zero
  }

  /** The summary cards. */
  datatype Stats = Stats(
    totalOrders: nat,
    totalRevenue: int,
    deliveredRevenue: int,
    pendingRevenue: int,
    cancelledRevenue: int,
    avgOrderValue: int,
    thisMonthRevenue: int,
    lastMonthRevenue: int,
    revenueGrowth: Growth,
    pendingOrders: nat,
    deliveredOrders: nat)

  /** Delivered, open and cancelled orders split the orders and the revenue exactly. */
  lemma {:induction false} StatusPartition(os: seq<Order>)
    ensures Seqs.Count(os, IsDelivered) + Seqs.Count(os, IsOpen) + Seqs.Count(os, IsCancelled) == |os|
    ensures Revenue(Seqs.Filter(os, IsDelivered)) + Revenue(Seqs.Filter(os, IsOpen)) + Revenue(Seqs.Filter(os, IsCancelled))
            == Revenue(os)
  {
    assert forall i :: 0 <= i < |os| ==> Seqs.ExactlyOne(IsDelivered(os[i]), IsOpen(os[i]), IsCancelled(os[i]));
    Seqs.CountSplit3(os, IsDelivered, IsOpen, IsCancelled);
    Seqs.SumSplit3(os, IsDelivered, IsOpen, IsCancelled, Amount);
  }

  /**
   * `stats`; which orders fall in this month and in last month is decided by
   * the two predicates, standing in for the calendar comparisons.
   */
  function ComputeStats(os: seq<Order>, inThisMonth: Order -> bool, inLastMonth: Order -> bool): (r: Stats)
    ensures r.totalOrders == |os| && r.totalRevenue == Revenue(os)
    ensures r.deliveredRevenue + r.pendingRevenue + r.cancelledRevenue == r.totalRevenue
    ensures r.deliveredOrders + r.pendingOrders + Seqs.Count(os, IsCancelled) == r.totalOrders
    ensures r.totalOrders == 0 ==> r.avgOrderValue == 0
    ensures r.totalOrders > 0 ==>
      2 * r.totalOrders * r.avgOrderValue <= 2 * r.totalRevenue + r.totalOrders < 2 * r.totalOrders * r.avgOrderValue + 2 * r.totalOrders
    ensures r.lastMonthRevenue == 0 ==> (r.revenueGrowth == Hundred <==> r.thisMonthRevenue > 0)
    ensures r.lastMonthRevenue == 0 ==> (r.revenueGrowth == Zero <==> r.thisMonthRevenue <= 0)
    ensures r.deliveredOrders == StatusCount(os, Delivered) && r.deliveredRevenue == StatusRevenue(os, Delivered)
    ensures r.cancelledRevenue == StatusRevenue(os, Cancelled)
    ensures r.pendingOrders == |os| - StatusCount(os, Delivered) - StatusCount(os, Cancelled)
    ensures r.pendingRevenue == Revenue(os) - StatusRevenue(os, Delivered) - StatusRevenue(os, Cancelled)
    ensures r.thisMonthRevenue == Revenue(Seqs.Filter(os, inThisMonth))
    ensures r.lastMonthRevenue == Revenue(Seqs.Filter(os, inLastMonth))
    ensures r.revenueGrowth == RevenueGrowth(r.thisMonthRevenue, r.lastMonthRevenue)
  {
    StatusPartition(os);
    Seqs.FilterSame(os, IsDelivered, x => B.HasKey(StatusOf, Delivered, x));
    Seqs.FilterSame(os, IsCancelled, x => B.HasKey(StatusOf, Cancelled, x));
    var total := Revenue(os);
    var thisMonth := Revenue(Seqs.Filter(os, inThisMonth));
    var lastMonth := Revenue(Seqs.Filter(os, inLastMonth));
    Stats(
      |os|,
      total,
      Revenue(Seqs.Filter(os, IsDelivered)),
      Revenue(Seqs.Filter(os, IsOpen)),
      Revenue(Seqs.Filter(os, IsCancelled)),
      RoundedMean(total, |os|),
      thisMonth,
      lastMonth,
      RevenueGrowth(thisMonth, lastMonth),
      Seqs.Count(os, IsOpen),
      Seqs.Count(os, IsDelivered))
  }

  /** With no orders last month, growth reads "100" exactly when this month earned something. */
  lemma GrowthFromEmptyMonth(os: seq<Order>, inThisMonth: Order -> bool, inLastMonth: Order -> bool)
    requires forall i :: 0 <= i < |os| ==> !inLastMonth(os[i])
    ensures ComputeStats(os, inThisMonth, inLastMonth).revenueGrowth
            == (if Revenue(Seqs.Filter(os, inThisMonth)) > 0 then Hundred else Zero)
  {
    Seqs.FilterNone(os, inLastMonth);
  }

  // ---------------------------------------------------------------------------
  // Status pie charts

  /** A pie slice: the status caption, its value and its colour. */
  datatype Slice = Slice(name: string, value: int, color: string)

  const AllStatuses: seq<OrderStatus> := [Pending, InProgress, Ready, Delivered, Cancelled]

  function SliceName(s: OrderStatus): string {
    match s
    case Pending => "Pending"
    case InProgress => "In Progress"
    case Ready => "Ready"
    case Delivered => "Delivered"
    case Cancelled => "Cancelled"
  }

  function SliceColor(s: OrderStatus): string {
    match s
    case Pending => "#f59e0b"
    case InProgress => "#3b82f6"
    case Ready => "#10b981"
    case Delivered => "#6b7280"
    case Cancelled => "#ef4444"
  }

  function SliceOf(s: OrderStatus, value: int): Slice {
    Slice(SliceName(s), value, SliceColor(s))
  }

  function SliceValue(x: Slice): int {
    x.value
  }

  predicate Shown(x: Slice) {
    x.value > 0
  }

  function StatusOf(o: Order): Option<OrderStatus> {
    o.status
  }

  predicate HasSomeStatus(o: Order) {
    o.status.Some?
  }

  /** The number of orders with status s. */
  function StatusCount(os: seq<Order>, s: OrderStatus): nat {
    B.KeyedCount(os, StatusOf, s)
  }

  /** The revenue of the orders with status s. */
  function StatusRevenue(os: seq<Order>, s: OrderStatus): int {
    B.KeyedSum(os, StatusOf, s, Amount)
  }

  /** Order by order: an order adds one to a status's count, and its amount to its revenue, exactly when it has that status. */
  lemma StatusSnoc(os: seq<Order>, o: Order, s: OrderStatus)
    ensures StatusCount([], s) == 0 && StatusRevenue([], s) == 0
    ensures StatusCount(os + [o], s) == StatusCount(os, s) + (if o.status == Some(s) then 1 else 0)
    ensures StatusRevenue(os + [o], s) == StatusRevenue(os, s) + (if o.status == Some(s) then Amount(o) else 0)
  {
    Seqs.FilterSnoc(os, o, x => B.HasKey(StatusOf, s, x));
    Seqs.SumFilterSnoc(os, o, x => B.HasKey(StatusOf, s, x), Amount);
  }

  /** The five count slices in the page's fixed order, empty ones included. */
  function CountSlices(os: seq<Order>): seq<Slice> {
    [
      SliceOf(Pending, StatusCount(os, Pending)),
      SliceOf(InProgress, StatusCount(os, InProgress)),
      SliceOf(Ready, StatusCount(os, Ready)),
      SliceOf(Delivered, StatusCount(os, Delivered)),
      SliceOf(Cancelled, StatusCount(os, Cancelled))]
  }

  /** The five revenue slices in the page's fixed order, empty ones included. */
  function RevenueSlices(os: seq<Order>): seq<Slice> {
    [
      SliceOf(Pending, StatusRevenue(os, Pending)),
      SliceOf(InProgress, StatusRevenue(os, InProgress)),
      SliceOf(Ready, StatusRevenue(os, Ready)),
      SliceOf(Delivered, StatusRevenue(os, Delivered)),
      SliceOf(Cancelled, StatusRevenue(os, Cancelled))]
  }

  /** `statusBreakdown`: the number of orders per status, in the fixed order, without the empty ones. */
  function StatusBreakdown(os: seq<Order>): (r: seq<Slice>)
    ensures forall i :: 0 <= i < |r| ==> r[i].value > 0
    ensures forall s :: StatusCount(os, s) > 0 <==> SliceOf(s, StatusCount(os, s)) in r
    ensures Seqs.IsSubsequence(r, CountSlices(os))
  {
    CountSlicesShown(os);
    Seqs.FilterIsSubsequence(CountSlices(os), Shown);
    Seqs.Filter(CountSlices(os), Shown)
  }

  /** `revenueByStatus`: the revenue per status, in the fixed order, without the slices that are not positive. */
  function RevenueByStatus(os: seq<Order>): (r: seq<Slice>)
    ensures forall i :: 0 <= i < |r| ==> r[i].value > 0
    ensures forall s :: StatusRevenue(os, s) > 0 <==> SliceOf(s, StatusRevenue(os, s)) in r
    ensures Seqs.IsSubsequence(r, RevenueSlices(os))
  {
    RevenueSlicesShown(os);
    Seqs.FilterIsSubsequence(RevenueSlices(os), Shown);
    Seqs.Filter(RevenueSlices(os), Shown)
  }

  lemma CountSlicesShown(os: seq<Order>)
    ensures forall s :: StatusCount(os, s) > 0 <==> SliceOf(s, StatusCount(os, s)) in Seqs.Filter(CountSlices(os), Shown)
  {
    forall s ensures StatusCount(os, s) > 0 <==> SliceOf(s, StatusCount(os, s)) in Seqs.Filter(CountSlices(os), Shown) {
      Seqs.FilterMember(CountSlices(os), Shown, SliceOf(s, StatusCount(os, s)));
      match s
      case Pending => assert CountSlices(os)[0] == SliceOf(s, StatusCount(os, s));
      case InProgress => assert CountSlices(os)[1] == SliceOf(s, StatusCount(os, s));
      case Ready => assert CountSlices(os)[2] == SliceOf(s, StatusCount(os, s));
      case Delivered => assert CountSlices(os)[3] == SliceOf(s, StatusCount(os, s));
      case Cancelled => assert CountSlices(os)[4] == SliceOf(s, StatusCount(os, s));
    }
  }

  lemma RevenueSlicesShown(os: seq<Order>)
    ensures forall s :: StatusRevenue(os, s) > 0 <==> SliceOf(s, StatusRevenue(os, s)) in Seqs.Filter(RevenueSlices(os), Shown)
  {
    forall s ensures StatusRevenue(os, s) > 0 <==> SliceOf(s, StatusRevenue(os, s)) in Seqs.Filter(RevenueSlices(os), Shown) {
      Seqs.FilterMember(RevenueSlices(os), Shown, SliceOf(s, StatusRevenue(os, s)));
      match s
      case Pending => assert RevenueSlices(os)[0] == SliceOf(s, StatusRevenue(os, s));
      case InProgress => assert RevenueSlices(os)[1] == SliceOf(s, StatusRevenue(os, s));
      case Ready => assert RevenueSlices(os)[2] == SliceOf(s, StatusRevenue(os, s));
      case Delivered => assert RevenueSlices(os)[3] == SliceOf(s, StatusRevenue(os, s));
      case Cancelled => assert RevenueSlices(os)[4] == SliceOf(s, StatusRevenue(os, s));
    }
  }

  lemma SumFive<T>(a: T, b: T, c: T, d: T, e: T, f: T -> int)
    ensures Seqs.Sum([a, b, c, d, e], f) == f(a) + f(b) + f(c) + f(d) + f(e)
  {
    assert [a, b, c, d, e] == [a, b, c, d] + [e];
    assert [a, b, c, d] == [a, b, c] + [d];
    assert [a, b, c] == [a, b] + [c];
    assert [a, b] == [a] + [b];
    assert [a] == [] + [a];
    Seqs.SumAppendOne([], a, f);
    Seqs.SumAppendOne([a], b, f);
    Seqs.SumAppendOne([a, b], c, f);
    Seqs.SumAppendOne([a, b, c], d, f);
    Seqs.SumAppendOne([a, b, c, d], e, f);
  }

  /** The five statuses are distinct, and an order has one of them exactly when it has a status. */
  lemma AllStatusesListed()
    ensures forall i, j :: 0 <= i < j < |AllStatuses| ==> AllStatuses[i] != AllStatuses[j]
    ensures forall o :: B.InKeys(StatusOf, AllStatuses, o) <==> HasSomeStatus(o)
  {
    forall o | HasSomeStatus(o)
      ensures B.InKeys(StatusOf, AllStatuses, o)
    {
      match o.status.value
      case Pending => assert AllStatuses[0] == Pending;
      case InProgress => assert AllStatuses[1] == InProgress;
      case Ready => assert AllStatuses[2] == Ready;
      case Delivered => assert AllStatuses[3] == Delivered;
      case Cancelled => assert AllStatuses[4] == Cancelled;
    }
  }

  /** The count tally over the five statuses, written out. */
  lemma CountTallyFive(os: seq<Order>)
    ensures B.Total(B.TallyCounts(os, StatusOf, AllStatuses))
            == StatusCount(os, Pending) + StatusCount(os, InProgress) + StatusCount(os, Ready) + StatusCount(os, Delivered) + StatusCount(os, Cancelled)
  {
    var t := B.TallyCounts(os, StatusOf, AllStatuses);
    assert t == [StatusCount(os, Pending), StatusCount(os, InProgress), StatusCount(os, Ready), StatusCount(os, Delivered), StatusCount(os, Cancelled)];
    SumFive<int>(StatusCount(os, Pending), StatusCount(os, InProgress), StatusCount(os, Ready), StatusCount(os, Delivered), StatusCount(os, Cancelled), B.Id);
  }

  /** The revenue tally over the five statuses, written out. */
  lemma RevenueTallyFive(os: seq<Order>)
    ensures B.Total(B.TallySums(os, StatusOf, AllStatuses, Amount))
            == StatusRevenue(os, Pending) + StatusRevenue(os, InProgress) + StatusRevenue(os, Ready) + StatusRevenue(os, Delivered) + StatusRevenue(os, Cancelled)
  {
    var t := B.TallySums(os, StatusOf, AllStatuses, Amount);
    assert t == [StatusRevenue(os, Pending), StatusRevenue(os, InProgress), StatusRevenue(os, Ready), StatusRevenue(os, Delivered), StatusRevenue(os, Cancelled)];
    SumFive<int>(StatusRevenue(os, Pending), StatusRevenue(os, InProgress), StatusRevenue(os, Ready), StatusRevenue(os, Delivered), StatusRevenue(os, Cancelled), B.Id);
  }

  /** The tallies over all five statuses cover exactly the orders that have a status. */
  lemma StatusTallies(os: seq<Order>)
    ensures B.Total(B.TallyCounts(os, StatusOf, AllStatuses)) == Seqs.Count(os, HasSomeStatus)
    ensures B.Total(B.TallySums(os, StatusOf, AllStatuses, Amount)) == Revenue(Seqs.Filter(os, HasSomeStatus))
  {
    AllStatusesListed();
    B.TallyTotals(os, StatusOf, AllStatuses, Amount, HasSomeStatus);
  }

  /** The five per-status counts add up to the orders that have a status. */
  lemma FiveCounts(os: seq<Order>)
    ensures StatusCount(os, Pending) + StatusCount(os, InProgress) + StatusCount(os, Ready) + StatusCount(os, Delivered) + StatusCount(os, Cancelled) == Seqs.Count(os, HasSomeStatus)
  {
    CountTallyFive(os);
    StatusTallies(os);
  }

  /** The five per-status revenues add up to the revenue of the orders that have a status. */
  lemma FiveRevenues(os: seq<Order>)
    ensures StatusRevenue(os, Pending) + StatusRevenue(os, InProgress) + StatusRevenue(os, Ready) + StatusRevenue(os, Delivered) + StatusRevenue(os, Cancelled) == Revenue(Seqs.Filter(os, HasSomeStatus))
  {
    RevenueTallyFive(os);
    StatusTallies(os);
  }

  /** The five count slices, written out. */
  lemma CountSlicesSum(os: seq<Order>)
    ensures Seqs.Sum(CountSlices(os), SliceValue)
            == StatusCount(os, Pending) + StatusCount(os, InProgress) + StatusCount(os, Ready) + StatusCount(os, Delivered) + StatusCount(os, Cancelled)
  {
    SumFive(SliceOf(Pending, StatusCount(os, Pending)), SliceOf(InProgress, StatusCount(os, InProgress)), SliceOf(Ready, StatusCount(os, Ready)), SliceOf(Delivered, StatusCount(os, Delivered)), SliceOf(Cancelled, StatusCount(os, Cancelled)), SliceValue);
  }

  /** The five revenue slices, written out. */
  lemma RevenueSlicesSum(os: seq<Order>)
    ensures Seqs.Sum(RevenueSlices(os), SliceValue)
            == StatusRevenue(os, Pending) + StatusRevenue(os, InProgress) + StatusRevenue(os, Ready) + StatusRevenue(os, Delivered) + StatusRevenue(os, Cancelled)
  {
    SumFive(SliceOf(Pending, StatusRevenue(os, Pending)), SliceOf(InProgress, StatusRevenue(os, InProgress)), SliceOf(Ready, StatusRevenue(os, Ready)), SliceOf(Delivered, StatusRevenue(os, Delivered)), SliceOf(Cancelled, StatusRevenue(os, Cancelled)), SliceValue);
  }

  /** The count slices add up to the orders that have a status; an order without one is in no slice. */
  lemma StatusBreakdownTotal(os: seq<Order>)
    ensures Seqs.Sum(StatusBreakdown(os), SliceValue) == Seqs.Count(os, HasSomeStatus)
  {
    BreakdownDropsZeros(os);
    CountSlicesSum(os);
    FiveCounts(os);
  }

  /** Leaving out the empty count slices does not change their sum. */
  lemma BreakdownDropsZeros(os: seq<Order>)
    ensures Seqs.Sum(StatusBreakdown(os), SliceValue) == Seqs.Sum(CountSlices(os), SliceValue)
  {
    var all := CountSlices(os);
    assert forall i :: 0 <= i < |all| ==> all[i].value >= 0;
    Seqs.SumDropZeros(all, Shown, SliceValue);
  }

  /** With non-negative amounts no revenue slice is negative, so dropping the others loses nothing. */
  lemma RevenueSlicesKept(os: seq<Order>)
    requires forall i :: 0 <= i < |os| ==> Amount(os[i]) >= 0
    ensures Seqs.Sum(RevenueByStatus(os), SliceValue) == Seqs.Sum(RevenueSlices(os), SliceValue)
  {
    var all := RevenueSlices(os);
    B.KeyedSumNonNegative(os, StatusOf, Pending, Amount);
    B.KeyedSumNonNegative(os, StatusOf, InProgress, Amount);
    B.KeyedSumNonNegative(os, StatusOf, Ready, Amount);
    B.KeyedSumNonNegative(os, StatusOf, Delivered, Amount);
    B.KeyedSumNonNegative(os, StatusOf, Cancelled, Amount);
    forall i | 0 <= i < |all|
      ensures all[i].value >= 0
    {
      assert i == 0 || i == 1 || i == 2 || i == 3 || i == 4;
    }
    Seqs.SumDropZeros(all, Shown, SliceValue);
  }

  /** With non-negative amounts the revenue slices add up to the revenue of the orders that have a status. */
  lemma RevenueByStatusTotal(os: seq<Order>)
    requires forall i :: 0 <= i < |os| ==> Amount(os[i]) >= 0
    ensures Seqs.Sum(RevenueByStatus(os), SliceValue) == Revenue(Seqs.Filter(os, HasSomeStatus))
  {
    RevenueSlicesKept(os);
    RevenueSlicesSum(os);
    FiveRevenues(os);
  }

  /** The Delivered revenue slice, when shown, is the delivered revenue of the summary. */
  lemma DeliveredSliceAgrees(os: seq<Order>, inThisMonth: Order -> bool, inLastMonth: Order -> bool)
    ensures StatusRevenue(os, Delivered) == ComputeStats(os, inThisMonth, inLastMonth).deliveredRevenue
  {
    Seqs.FilterSame(os, x => B.HasKey(StatusOf, Delivered, x), IsDelivered);
  }

  // ---------------------------------------------------------------------------
  // Rankings

  /** A ranking row: the name shown, the revenue and the number of orders. */
  datatype RevenueRow = RevenueRow(name: string, revenue: int, orders: nat)

  function RowRevenue(r: RevenueRow): int {
    r.revenue
  }

  function RowName(r: RevenueRow): string {
    r.name
  }

  /** `order.services?.name` when truthy; the orders without one are skipped. */
  function NameKey(o: Order): Option<string> {
    if Js.TruthyString(ServiceName(o)) then ServiceName(o) else None
  }

  function ServiceRow(b: B.Bucket<string>): RevenueRow {
    RevenueRow(b.key, b.total, b.count)
  }

  /** `revenueByService`: one row per service name, highest revenue first, at most ten. */
  function RevenueByService(os: seq<Order>): (r: seq<RevenueRow>)
    ensures |r| <= 10
    ensures B.SortedDesc(r, RowRevenue)
    ensures B.DistinctBy(r, RowName)
    ensures forall i :: 0 <= i < |r| ==>
      r[i].revenue == B.KeyedSum(os, NameKey, r[i].name, Amount) && r[i].orders == B.KeyedCount(os, NameKey, r[i].name) > 0
  {
    ServiceTop(os);
    Seqs.Take(B.SortDesc(Seqs.Map(B.Group(os, NameKey, Amount), ServiceRow), RowRevenue), 10)
  }

  /** The ten highest service rows keep the sorted rows' properties. */
  lemma ServiceTop(os: seq<Order>)
    ensures var r := Seqs.Take(B.SortDesc(Seqs.Map(B.Group(os, NameKey, Amount), ServiceRow), RowRevenue), 10);
      && |r| <= 10
      && B.SortedDesc(r, RowRevenue)
      && B.DistinctBy(r, RowName)
      && forall i :: 0 <= i < |r| ==>
           r[i].revenue == B.KeyedSum(os, NameKey, r[i].name, Amount) && r[i].orders == B.KeyedCount(os, NameKey, r[i].name) > 0
  {
    var rows := Seqs.Map(B.Group(os, NameKey, Amount), ServiceRow);
    ServiceRowsSpec(os);
    var sorted := B.SortDesc(rows, RowRevenue);
    B.TakeSortedDesc(sorted, 10, RowRevenue);
    B.TakeKeeps(sorted, 10, RowName);
    var r := Seqs.Take(sorted, 10);
    forall i | 0 <= i < |r|
      ensures r[i].revenue == B.KeyedSum(os, NameKey, r[i].name, Amount) && r[i].orders == B.KeyedCount(os, NameKey, r[i].name) > 0
    {
      assert r[i] == sorted[i];
    }
  }

  /** The sorted service rows: distinct names, each with its own tallies. */
  lemma ServiceRowsSpec(os: seq<Order>)
    ensures var sorted := B.SortDesc(Seqs.Map(B.Group(os, NameKey, Amount), ServiceRow), RowRevenue);
      && B.DistinctBy(sorted, RowName)
      && forall i :: 0 <= i < |sorted| ==>
           sorted[i].revenue == B.KeyedSum(os, NameKey, sorted[i].name, Amount)
           && sorted[i].orders == B.KeyedCount(os, NameKey, sorted[i].name) > 0
  {
    var g := B.Group(os, NameKey, Amount);
    var rows := Seqs.Map(g, ServiceRow);
    forall i | 0 <= i < |rows|
      ensures rows[i].revenue == B.KeyedSum(os, NameKey, rows[i].name, Amount)
      ensures rows[i].orders == B.KeyedCount(os, NameKey, rows[i].name) > 0
    {
      B.GroupMember(os, NameKey, Amount, g[i]);
    }
    B.GroupKeys(os, NameKey, Amount, "");
    B.SortDescDistinct(rows, RowRevenue, RowName);
    var sorted := B.SortDesc(rows, RowRevenue);
    forall i | 0 <= i < |sorted|
      ensures sorted[i].revenue == B.KeyedSum(os, NameKey, sorted[i].name, Amount)
      ensures sorted[i].orders == B.KeyedCount(os, NameKey, sorted[i].name) > 0
    {
      assert sorted[i] in multiset(rows);
    }
  }

  /** No service left out of the ranking earned more than one kept; with ten names or fewer nothing is cut. */
  lemma RevenueByServiceTop(os: seq<Order>)
    ensures var rows := Seqs.Map(B.Group(os, NameKey, Amount), ServiceRow);
      && (forall i, j :: 0 <= i < |RevenueByService(os)| <= j < |rows| ==>
            B.SortDesc(rows, RowRevenue)[j].revenue <= RevenueByService(os)[i].revenue)
      && (|rows| <= 10 ==> Seqs.Sum(RevenueByService(os), RowRevenue) == Revenue(Seqs.Filter(os, x => B.Keyed(NameKey, x))))
  {
    var g := B.Group(os, NameKey, Amount);
    var rows := Seqs.Map(g, ServiceRow);
    B.TopK(rows, RowRevenue, 10);
    B.SortDescSum(rows, RowRevenue, RowRevenue);
    Seqs.SumMap(g, ServiceRow, RowRevenue, (b: B.Bucket<string>) => b.total);
    B.GroupTotals(os, NameKey, Amount);
  }

  /** `labels[cat] || cat`. */
  function CategoryLabel(c: ServiceCategory): string {
    match c
    case Printing => "Printing"
    case Certificates => "Certificates"
    case Bills => "Bills"
    case MpOnline => "CSC Service"
  }

  function CategoryRow(b: B.Bucket<ServiceCategory>): RevenueRow {
    RevenueRow(CategoryLabel(b.key), b.total, b.count)
  }

  /** `revenueByCategory`: one row per category that has orders, highest revenue first, no cap. */
  function RevenueByCategory(os: seq<Order>): (r: seq<RevenueRow>)
    ensures |r| <= 4
    ensures B.SortedDesc(r, RowRevenue)
    ensures B.DistinctBy(r, RowName)
    ensures forall c :: B.KeyedCount(os, Category, c) > 0 <==> CategoryRowOf(os, c) in r
  {
    CategoryRowsSpec(os);
    B.SortDesc(Seqs.Map(B.Group(os, Category, Amount), CategoryRow), RowRevenue)
  }

  /** The row a category with orders gets. */
  function CategoryRowOf(os: seq<Order>, c: ServiceCategory): RevenueRow {
    RevenueRow(CategoryLabel(c), B.KeyedSum(os, Category, c, Amount), B.KeyedCount(os, Category, c))
  }

  /** Before sorting: a row for exactly the categories that have orders. */
  lemma CategoryRowsMembers(os: seq<Order>, c: ServiceCategory)
    ensures B.KeyedCount(os, Category, c) > 0 <==> CategoryRowOf(os, c) in Seqs.Map(B.Group(os, Category, Amount), CategoryRow)
  {
    var g := B.Group(os, Category, Amount);
    var rows := Seqs.Map(g, CategoryRow);
    var row := CategoryRowOf(os, c);
    B.GroupKeys(os, Category, Amount, c);
    if B.KeyedCount(os, Category, c) > 0 {
      var i :| 0 <= i < |g| && g[i].key == c;
      B.GroupMember(os, Category, Amount, g[i]);
      assert rows[i] == row;
    }
    if row in rows {
      var i :| 0 <= i < |rows| && rows[i] == row;
      assert CategoryLabel(g[i].key) == CategoryLabel(c);
      B.GroupMember(os, Category, Amount, g[i]);
    }
  }

  /** Before sorting: no label twice, and only the four labels. */
  lemma CategoryRowsNames(os: seq<Order>)
    ensures B.DistinctBy(Seqs.Map(B.Group(os, Category, Amount), CategoryRow), RowName)
    ensures forall x :: x in Seqs.Map(B.Group(os, Category, Amount), CategoryRow) ==>
      x.name in {"Printing", "Certificates", "Bills", "CSC Service"}
  {
    var g := B.Group(os, Category, Amount);
    var rows := Seqs.Map(g, CategoryRow);
    B.GroupKeys(os, Category, Amount, Printing);
    forall i, j | 0 <= i < j < |rows|
      ensures rows[i].name != rows[j].name
    {
      assert g[i].key != g[j].key;
    }
  }

  /** The category rows: one per category with orders, labels distinct. */
  lemma CategoryRowsSpec(os: seq<Order>)
    ensures var r := B.SortDesc(Seqs.Map(B.Group(os, Category, Amount), CategoryRow), RowRevenue);
      && |r| <= 4
      && B.DistinctBy(r, RowName)
      && forall c :: B.KeyedCount(os, Category, c) > 0 <==> CategoryRowOf(os, c) in r
  {
    var rows := Seqs.Map(B.Group(os, Category, Amount), CategoryRow);
    var r := B.SortDesc(rows, RowRevenue);
    CategoryRowsNames(os);
    B.SortDescDistinct(rows, RowRevenue, RowName);
    forall c ensures B.KeyedCount(os, Category, c) > 0 <==> CategoryRowOf(os, c) in r {
      CategoryRowsMembers(os, c);
      assert CategoryRowOf(os, c) in r <==> CategoryRowOf(os, c) in multiset(rows);
    }
    forall i | 0 <= i < |r|
      ensures r[i].name in {"Printing", "Certificates", "Bills", "CSC Service"}
    {
      assert r[i] in multiset(rows);
    }
    DistinctCategoriesAtMostFour(r);
  }

  /** Rows with distinct category labels number at most four. */
  lemma DistinctCategoriesAtMostFour(r: seq<RevenueRow>)
    requires B.DistinctBy(r, RowName)
    requires forall i :: 0 <= i < |r| ==> r[i].name in {"Printing", "Certificates", "Bills", "CSC Service"}
    ensures |r| <= 4
  {
    var names := set i | 0 <= i < |r| :: r[i].name;
    assert names <= {"Printing", "Certificates", "Bills", "CSC Service"};
    assert |names| <= 4 by {
      SubsetCard(names, {"Printing", "Certificates", "Bills", "CSC Service"});
    }
    InjectiveCard(r);
  }

  lemma SubsetCard<T>(a: set<T>, b: set<T>)
    requires a <= b
    ensures |a| <= |b|
  {
    assert b == a + (b - a);
  }

  lemma {:induction false} InjectiveCard(r: seq<RevenueRow>)
    requires B.DistinctBy(r, RowName)
    ensures |set i | 0 <= i < |r| :: r[i].name| == |r|
  {
    if |r| > 0 {
      var init := r[..|r| - 1];
      InjectiveCard(init);
      var a := set i | 0 <= i < |init| :: init[i].name;
      var b := set i | 0 <= i < |r| :: r[i].name;
      assert b == a + {r[|r| - 1].name};
      assert r[|r| - 1].name !in a;
    }
  }

  /** The category rows add up to the revenue of the orders whose service has a category. */
  lemma RevenueByCategoryTotal(os: seq<Order>)
    ensures Seqs.Sum(RevenueByCategory(os), RowRevenue) == Revenue(Seqs.Filter(os, x => B.Keyed(Category, x)))
  {
    var g := B.Group(os, Category, Amount);
    var rows := Seqs.Map(g, CategoryRow);
    B.SortDescSum(rows, RowRevenue, RowRevenue);
    Seqs.SumMap(g, CategoryRow, RowRevenue, (b: B.Bucket<ServiceCategory>) => b.total);
    B.GroupTotals(os, Category, Amount);
  }

  /** A popularity row: the service name and its number of orders. */
  datatype PopularityRow = PopularityRow(name: string, count: nat)

  function RowCount(r: PopularityRow): int {
    r.count
  }

  function PopularityName(r: PopularityRow): string {
    r.name
  }

  function PopularityOf(b: B.Bucket<string>): PopularityRow {
    PopularityRow(b.key, b.count)
  }

  /** `servicePopularity`: one row per service name, most ordered first, at most seven. */
  function ServicePopularity(os: seq<Order>): (r: seq<PopularityRow>)
    ensures |r| <= 7
    ensures B.SortedDesc(r, RowCount)
    ensures B.DistinctBy(r, PopularityName)
    ensures forall i :: 0 <= i < |r| ==> r[i].count == B.KeyedCount(os, NameKey, r[i].name) > 0
  {
    PopularityTop(os);
    Seqs.Take(B.SortDesc(Seqs.Map(B.Group(os, NameKey, Amount), PopularityOf), RowCount), 7)
  }

  /** The seven most ordered rows keep the sorted rows' properties. */
  lemma PopularityTop(os: seq<Order>)
    ensures var r := Seqs.Take(B.SortDesc(Seqs.Map(B.Group(os, NameKey, Amount), PopularityOf), RowCount), 7);
      && |r| <= 7
      && B.SortedDesc(r, RowCount)
      && B.DistinctBy(r, PopularityName)
      && forall i :: 0 <= i < |r| ==> r[i].count == B.KeyedCount(os, NameKey, r[i].name) > 0
  {
    var rows := Seqs.Map(B.Group(os, NameKey, Amount), PopularityOf);
    PopularityRowsSpec(os);
    var sorted := B.SortDesc(rows, RowCount);
    B.TakeSortedDesc(sorted, 7, RowCount);
    B.TakeKeeps(sorted, 7, PopularityName);
    var r := Seqs.Take(sorted, 7);
    forall i | 0 <= i < |r|
      ensures r[i].count == B.KeyedCount(os, NameKey, r[i].name) > 0
    {
      assert r[i] == sorted[i];
    }
  }

  /** The sorted popularity rows: distinct names, each with its order count. */
  lemma PopularityRowsSpec(os: seq<Order>)
    ensures var sorted := B.SortDesc(Seqs.Map(B.Group(os, NameKey, Amount), PopularityOf), RowCount);
      && B.DistinctBy(sorted, PopularityName)
      && forall i :: 0 <= i < |sorted| ==> sorted[i].count == B.KeyedCount(os, NameKey, sorted[i].name) > 0
  {
    var g := B.Group(os, NameKey, Amount);
    var rows := Seqs.Map(g, PopularityOf);
    forall i | 0 <= i < |rows|
      ensures rows[i].count == B.KeyedCount(os, NameKey, rows[i].name) > 0
    {
      B.GroupMember(os, NameKey, Amount, g[i]);
    }
    B.GroupKeys(os, NameKey, Amount, "");
    B.SortDescDistinct(rows, RowCount, PopularityName);
    var sorted := B.SortDesc(rows, RowCount);
    forall i | 0 <= i < |sorted|
      ensures sorted[i].count == B.KeyedCount(os, NameKey, sorted[i].name) > 0
    {
      assert sorted[i] in multiset(rows);
    }
  }

  /** With seven names or fewer the counts add up to the orders that name a service. */
  lemma ServicePopularityTotal(os: seq<Order>)
    requires |B.Group(os, NameKey, Amount)| <= 7
    ensures Seqs.Sum(ServicePopularity(os), RowCount) == Seqs.Count(os, x => B.Keyed(NameKey, x))
  {
    var g := B.Group(os, NameKey, Amount);
    var rows := Seqs.Map(g, PopularityOf);
    B.TopK(rows, RowCount, 7);
    B.SortDescSum(rows, RowCount, RowCount);
    Seqs.SumMap(g, PopularityOf, RowCount, (b: B.Bucket<string>) => b.count);
    B.GroupTotals(os, NameKey, Amount);
  }
}

=== FILE: bell.dfy ===
/**
 * The notification bell: the unread badge, the list controls and what a
 * click on a notification does.
 */
module Bell {
  import opened Wrappers
  import Js
  import Strings
  import N = Notifications

  /** The badge is drawn only while something is unread. */
  predicate BadgeShown(unread: int) {
    unread > 0
  }

  /** The badge text: the count itself, capped as "9+". */
  function BadgeText(unread: int): (r: string)
    ensures unread > 9 ==> r == "9+"
    ensures unread <= 9 ==> Strings.ParseLeadingInt(r) == Some(unread)
  {
    if unread > 9 then "9+"
    else
      Strings.ParseIntToString(unread);
      Strings.IntToString(unread)
  }

  /** A shown badge reads as one digit from 1 to 9, or as "9+". */
  lemma BadgeTextShape(unread: int)
    requires BadgeShown(unread)
    ensures |BadgeText(unread)| == 1 <==> unread <= 9
    ensures |BadgeText(unread)| == 1 ==> '1' <= BadgeText(unread)[0] <= '9'
  {
    if unread <= 9 {
      assert Strings.NatToString(unread) == [Strings.DigitChar(unread)];
    }
  }

  /** "Read all" and the clear button are offered only for a non-empty list. */
  predicate ControlsShown(st: N.Store) {
    |st.items| > 0
  }

  /** The result of clicking a notification: the new store, where to go, and whether the popover closes. */
  datatype Click = Click(store: N.Store, navigateTo: Option<string>, closes: bool)

  /** `handleNotificationClick`. */
  function OnClick(st: N.Store, n: N.Notification, isAdmin: bool): (r: Click)
    ensures r.store == N.MarkAsRead(st, n.id)
    ensures r.closes <==> Js.TruthyString(n.orderId)
    ensures r.navigateTo.Some? <==> Js.TruthyString(n.orderId)
    ensures r.navigateTo.Some? ==> r.navigateTo.value == (if isAdmin then "/admin/orders" else "/dashboard/orders")
  {
    var marked := N.MarkAsRead(st, n.id);
    if Js.TruthyString(n.orderId) then
      Click(marked, Some(if isAdmin then "/admin/orders" else "/dashboard/orders"), true)
    else
      Click(marked, None, false)
  }

  /**
   * A click leaves the clicked notification read, and keeps the badge right
   * exactly when it was the one unread notification carrying its id (or
   * nothing was unread).
   */
  lemma ClickMarksRead(st: N.Store, i: nat, isAdmin: bool)
    requires i < |st.items|
    requires N.Consistent(st)
    ensures OnClick(st, st.items[i], isAdmin).store.items[i].read
    ensures N.Consistent(OnClick(st, st.items[i], isAdmin).store)
            <==> N.UnreadWithId(st.items, st.items[i].id) == (if st.unread > 0 then 1 else 0)
  {
    N.MarkAsReadConsistentIff(st, st.items[i].id);
  }
}

=== FILE: buckets.dfy ===
/**
 * Grouping records into keyed buckets in order of first appearance (an
 * object filled by `forEach` and read back with `Object.values`), tallies
 * over a fixed list of keys, and a stable descending sort with its top-k.
 */
module Buckets {
  import opened Wrappers
  import Seqs

  /** The elements whose key is k. */
  predicate HasKey<T, K(==)>(key: T -> Option<K>, k: K, x: T) {
    key(x) == Some(k)
  }

  /** The elements that have some key. */
  predicate Keyed<T, K>(key: T -> Option<K>, x: T) {
    key(x).Some?
  }

  function KeyedCount<T, K(==)>(s: seq<T>, key: T -> Option<K>, k: K): nat {
    Seqs.Count(s, x => HasKey(key, k, x))
  }

  function KeyedSum<T, K(==)>(s: seq<T>, key: T -> Option<K>, k: K, amount: T -> int): int {
    Seqs.Sum(Seqs.Filter(s, x => HasKey(key, k, x)), amount)
  }

  /** With non-negative amounts every keyed sum is non-negative. */
  lemma KeyedSumNonNegative<T, K>(s: seq<T>, key: T -> Option<K>, k: K, amount: T -> int)
    requires forall i :: 0 <= i < |s| ==> amount(s[i]) >= 0
    ensures KeyedSum(s, key, k, amount) >= 0
  {
    Seqs.SumFilterNonNegative(s, x => HasKey(key, k, x), amount);
  }

  /** A key some element carries has a positive count, and only such a key. */
  lemma KeyedCountPositive<T, K>(s: seq<T>, key: T -> Option<K>, k: K)
    ensures KeyedCount(s, key, k) > 0 <==> exists i :: 0 <= i < |s| && key(s[i]) == Some(k)
  {
    var f := Seqs.Filter(s, x => HasKey(key, k, x));
    if |f| > 0 {
      var i :| 0 <= i < |s| && s[i] == f[0];
    }
    if exists i :: 0 <= i < |s| && key(s[i]) == Some(k) {
      var i :| 0 <= i < |s| && key(s[i]) == Some(k);
      assert s[i] in f;
    }
  }

  /** A bucket: the key, the summed amount and the number of elements. */
  datatype Bucket<K> = Bucket(key: K, total: int, count: nat)

  function FindKey<K(==)>(bs: seq<Bucket<K>>, k: K): (r: Option<nat>)
    ensures r.Some? ==> r.value < |bs| && bs[r.value].key == k
    ensures r.None? ==> forall i :: 0 <= i < |bs| ==> bs[i].key != k
  {
    if |bs| == 0 then None
    else if bs[0].key == k then Some(0)
    else
      match FindKey(bs[1..], k)
      case None => None
      case Some(i) => Some(i + 1)
  }

  /** `if (!acc[k]) acc[k] = {total: 0, count: 0}; acc[k].total += a; acc[k].count++`. */
  function AddTo<K(==)>(bs: seq<Bucket<K>>, k: K, a: int): seq<Bucket<K>> {
    match FindKey(bs, k)
    case Some(i) => bs[i := Bucket(k, bs[i].total + a, bs[i].count + 1)]
    case None => bs + [Bucket(k, a, 1)]
  }

  /** Buckets for the keyed elements of s, in order of each key's first element. */
  function Group<T, K(==)>(s: seq<T>, key: T -> Option<K>, amount: T -> int): seq<Bucket<K>> {
    if |s| == 0 then []
    else
      var g := Group(s[..|s| - 1], key, amount);
      match key(s[|s| - 1])
      case None => g
      case Some(k) => AddTo(g, k, amount(s[|s| - 1]))
  }

  predicate DistinctKeys<K(==)>(bs: seq<Bucket<K>>) {
    forall i, j :: 0 <= i < j < |bs| ==> bs[i].key != bs[j].key
  }

  predicate HasBucket<K(==)>(bs: seq<Bucket<K>>, k: K) {
    exists i :: 0 <= i < |bs| && bs[i].key == k
  }

  /**
   * g is the grouping of s: one bucket per key that occurs, and each bucket
   * holds exactly the total and the number of the elements carrying its key.
   */
  ghost predicate Groups<T, K(!new)>(s: seq<T>, key: T -> Option<K>, amount: T -> int, g: seq<Bucket<K>>) {
    && DistinctKeys(g)
    && (forall k :: HasBucket(g, k) <==> KeyedCount(s, key, k) > 0)
    && (forall i :: 0 <= i < |g| ==>
         g[i].total == KeyedSum(s, key, g[i].key, amount) && g[i].count == KeyedCount(s, key, g[i].key))
  }

  /** One step of the grouping: the bucket list after the element x. */
  function Step<T, K(==)>(g: seq<Bucket<K>>, x: T, key: T -> Option<K>, amount: T -> int): seq<Bucket<K>> {
    match key(x)
    case None => g
    case Some(k) => AddTo(g, k, amount(x))
  }

  lemma GroupUnfold<T, K>(s: seq<T>, key: T -> Option<K>, amount: T -> int)
    requires |s| > 0
    ensures Group(s, key, amount) == Step(Group(s[..|s| - 1], key, amount), s[|s| - 1], key, amount)
  {
  }

  lemma {:induction false} GroupSpec<T, K(!new)>(s: seq<T>, key: T -> Option<K>, amount: T -> int)
    ensures Groups(s, key, amount, Group(s, key, amount))
  {
    if |s| > 0 {
      var init, x := s[..|s| - 1], s[|s| - 1];
      GroupSpec(init, key, amount);
      GroupUnfold(s, key, amount);
      GroupStep(init, x, key, amount, Group(init, key, amount));
      Seqs.Snoc(s);
    }
  }

  lemma GroupStep<T, K(!new)>(init: seq<T>, x: T, key: T -> Option<K>, amount: T -> int, g: seq<Bucket<K>>)
    requires Groups(init, key, amount, g)
    ensures Groups(init + [x], key, amount, Step(g, x, key, amount))
  {
    match key(x)
    case None =>
      GroupStepOther(init, x, key, amount, g);
    case Some(k) =>
      match FindKey(g, k)
      case Some(i) =>
        GroupStepFound(init, x, key, amount, g, k, i);
      case None =>
        GroupStepNew(init, x, key, amount, g, k, g + [Bucket(k, amount(x), 1)]);
  }

  lemma GroupStepFound<T, K(!new)>(init: seq<T>, x: T, key: T -> Option<K>, amount: T -> int, g: seq<Bucket<K>>, k: K, i: nat)
    requires Groups(init, key, amount, g)
    requires key(x) == Some(k) && FindKey(g, k) == Some(i)
    ensures Groups(init + [x], key, amount, AddTo(g, k, amount(x)))
  {
    AddToFound(g, k, amount(x), i);
    GroupStepExisting(init, x, key, amount, g, k, i, g[i := Bucket(k, g[i].total + amount(x), g[i].count + 1)]);
  }

  lemma AddToFound<K>(g: seq<Bucket<K>>, k: K, a: int, i: nat)
    requires FindKey(g, k) == Some(i)
    ensures AddTo(g, k, a) == g[i := Bucket(k, g[i].total + a, g[i].count + 1)]
  {
  }

  lemma GroupStepOther<T, K(!new)>(init: seq<T>, x: T, key: T -> Option<K>, amount: T -> int, g: seq<Bucket<K>>)
    requires Groups(init, key, amount, g)
    requires key(x).None?
    ensures Groups(init + [x], key, amount, g)
  {
    KeyedSnocOther(init, x, key, amount);
  }

  /** Appending an element moves only the tallies of its own key. */
  lemma KeyedSnoc<T, K>(init: seq<T>, x: T, key: T -> Option<K>, amount: T -> int, k: K)
    ensures KeyedCount(init + [x], key, k) == KeyedCount(init, key, k) + (if key(x) == Some(k) then 1 else 0)
    ensures KeyedSum(init + [x], key, k, amount) == KeyedSum(init, key, k, amount) + (if key(x) == Some(k) then amount(x) else 0)
  {
    Seqs.FilterSnoc(init, x, y => HasKey(key, k, y));
    Seqs.SumFilterSnoc(init, x, y => HasKey(key, k, y), amount);
  }

  lemma KeyedSnocOther<T, K>(init: seq<T>, x: T, key: T -> Option<K>, amount: T -> int)
    requires key(x).None?
    ensures forall k :: KeyedCount(init + [x], key, k) == KeyedCount(init, key, k)
    ensures forall k :: KeyedSum(init + [x], key, k, amount) == KeyedSum(init, key, k, amount)
  {
    forall k
      ensures KeyedCount(init + [x], key, k) == KeyedCount(init, key, k)
      ensures KeyedSum(init + [x], key, k, amount) == KeyedSum(init, key, k, amount)
    {
      KeyedSnoc(init, x, key, amount, k);
    }
  }

  /** An element whose key has a bucket adds to that bucket only. */
  lemma GroupStepExisting<T, K(!new)>(init: seq<T>, x: T, key: T -> Option<K>, amount: T -> int, g: seq<Bucket<K>>, k: K, i: nat, r: seq<Bucket<K>>)
    requires Groups(init, key, amount, g)
    requires key(x) == Some(k) && i < |g| && g[i].key == k
    requires r == g[i := Bucket(k, g[i].total + amount(x), g[i].count + 1)]
    ensures Groups(init + [x], key, amount, r)
  {
    SameKeys(g, i, r[i]);
    forall k' ensures HasBucket(r, k') <==> KeyedCount(init + [x], key, k') > 0 {
      KeyedSnoc(init, x, key, amount, k');
    }
    forall j | 0 <= j < |r|
      ensures r[j].total == KeyedSum(init + [x], key, r[j].key, amount)
      ensures r[j].count == KeyedCount(init + [x], key, r[j].key)
    {
      KeyedSnoc(init, x, key, amount, r[j].key);
    }
  }

  /** Replacing a bucket by one with the same key keeps the set of keys. */
  lemma SameKeys<K(!new)>(g: seq<Bucket<K>>, i: nat, b: Bucket<K>)
    requires i < |g| && b.key == g[i].key
    ensures forall k :: HasBucket(g[i := b], k) <==> HasBucket(g, k)
    ensures DistinctKeys(g) ==> DistinctKeys(g[i := b])
  {
    forall k ensures HasBucket(g[i := b], k) <==> HasBucket(g, k) {
      if HasBucket(g, k) {
        var j :| 0 <= j < |g| && g[j].key == k;
        assert g[i := b][j].key == k;
      }
      if HasBucket(g[i := b], k) {
        var j :| 0 <= j < |g| && g[i := b][j].key == k;
        assert g[j].key == k;
      }
    }
  }

  /** Appending a bucket with a new key adds just that key. */
  lemma NewKey<K(!new)>(g: seq<Bucket<K>>, b: Bucket<K>)
    requires !HasBucket(g, b.key)
    ensures forall k :: HasBucket(g + [b], k) <==> HasBucket(g, k) || k == b.key
    ensures DistinctKeys(g) ==> DistinctKeys(g + [b])
  {
    forall k ensures HasBucket(g + [b], k) <==> HasBucket(g, k) || k == b.key {
      if HasBucket(g, k) {
        var j :| 0 <= j < |g| && g[j].key == k;
        assert (g + [b])[j].key == k;
      }
      if k == b.key {
        assert (g + [b])[|g|].key == k;
      }
    }
  }

  /** An element with a key not seen before opens a bucket at the end. */
  lemma GroupStepNew<T, K(!new)>(init: seq<T>, x: T, key: T -> Option<K>, amount: T -> int, g: seq<Bucket<K>>, k: K, r: seq<Bucket<K>>)
    requires Groups(init, key, amount, g)
    requires key(x) == Some(k) && FindKey(g, k).None?
    requires r == g + [Bucket(k, amount(x), 1)]
    ensures Groups(init + [x], key, amount, r)
  {
    var b := Bucket(k, amount(x), 1);
    NewKey(g, b);
    assert KeyedCount(init, key, k) == 0;
    assert KeyedSum(init, key, k, amount) == 0 by {
      Seqs.FilterNone(init, y => HasKey(key, k, y));
    }
    forall k' ensures HasBucket(r, k') <==> KeyedCount(init + [x], key, k') > 0 {
      KeyedSnoc(init, x, key, amount, k');
    }
    forall j | 0 <= j < |r|
      ensures r[j].total == KeyedSum(init + [x], key, r[j].key, amount)
      ensures r[j].count == KeyedCount(init + [x], key, r[j].key)
    {
      KeyedSnoc(init, x, key, amount, r[j].key);
      if j < |g| {
        assert r[j] == g[j];
      }
    }
  }

  /** Replacing one element changes a sum by the difference. */
  lemma {:induction false} SumUpdate<T>(s: seq<T>, i: nat, v: T, f: T -> int)
    requires i < |s|
    ensures Seqs.Sum(s[i := v], f) == Seqs.Sum(s, f) - f(s[i]) + f(v)
  {
    var init := s[..|s| - 1];
    if i == |s| - 1 {
      assert s[i := v][..|s| - 1] == init;
    } else {
      SumUpdate(init, i, v, f);
      assert s[i := v][..|s| - 1] == init[i := v];
    }
  }

  /** One step adds the element's amount and one to the bucket sums when it has a key. */
  lemma StepTotals<T, K>(g: seq<Bucket<K>>, x: T, key: T -> Option<K>, amount: T -> int)
    ensures Seqs.Sum(Step(g, x, key, amount), (b: Bucket<K>) => b.total)
            == Seqs.Sum(g, (b: Bucket<K>) => b.total) + (if key(x).Some? then amount(x) else 0)
    ensures Seqs.Sum(Step(g, x, key, amount), (b: Bucket<K>) => b.count)
            == Seqs.Sum(g, (b: Bucket<K>) => b.count) + (if key(x).Some? then 1 else 0)
  {
    if key(x).Some? {
      var k := key(x).value;
      var f := FindKey(g, k);
      if f.Some? {
        var i := f.value;
        var b := Bucket(k, g[i].total + amount(x), g[i].count + 1);
        AddToFound(g, k, amount(x), i);
        SumUpdate(g, i, b, (b: Bucket<K>) => b.total);
        SumUpdate(g, i, b, (b: Bucket<K>) => b.count);
      } else {
        Seqs.SumAppendOne(g, Bucket(k, amount(x), 1), (b: Bucket<K>) => b.total);
        Seqs.SumAppendOne(g, Bucket(k, amount(x), 1), (b: Bucket<K>) => b.count);
      }
    }
  }

  /** The bucket totals add up to the amounts of the keyed elements, and the counts to their number. */
  lemma {:induction false} GroupTotals<T, K>(s: seq<T>, key: T -> Option<K>, amount: T -> int)
    ensures Seqs.Sum(Group(s, key, amount), (b: Bucket<K>) => b.total) == Seqs.Sum(Seqs.Filter(s, x => Keyed(key, x)), amount)
    ensures Seqs.Sum(Group(s, key, amount), (b: Bucket<K>) => b.count) == Seqs.Count(s, x => Keyed(key, x))
  {
    if |s| > 0 {
      var init, x := s[..|s| - 1], s[|s| - 1];
      assert s == init + [x];
      GroupTotals(init, key, amount);
      GroupUnfold(s, key, amount);
      StepTotals(Group(init, key, amount), x, key, amount);
      Seqs.SumFilterSnoc(init, x, y => Keyed(key, y), amount);
      Seqs.FilterSnoc(init, x, y => Keyed(key, y));
    }
  }

  // ---------------------------------------------------------------------------
  // Tallies over a fixed key list

  /** Each key of a fixed list with the number of elements carrying it. */
  function TallyCounts<T, K(==)>(s: seq<T>, key: T -> Option<K>, ks: seq<K>): (r: seq<int>)
    ensures |r| == |ks|
    ensures forall i :: 0 <= i < |ks| ==> r[i] == KeyedCount(s, key, ks[i])
  {
    Seqs.Map(ks, k => KeyedCount(s, key, k))
  }

  /** Each key of a fixed list with the summed amount of the elements carrying it. */
  function TallySums<T, K(==)>(s: seq<T>, key: T -> Option<K>, ks: seq<K>, amount: T -> int): (r: seq<int>)
    ensures |r| == |ks|
    ensures forall i :: 0 <= i < |ks| ==> r[i] == KeyedSum(s, key, ks[i], amount)
  {
    Seqs.Map(ks, k => KeyedSum(s, key, k, amount))
  }

  predicate InKeys<T, K(==)>(key: T -> Option<K>, ks: seq<K>, x: T) {
    key(x).Some? && key(x).value in ks
  }

  function Id(v: int): int {
    v
  }

  /** The plain sum of a list of numbers. */
  function Total(xs: seq<int>): int {
    Seqs.Sum(xs, Id)
  }

  /** With distinct keys, the tallies add up to the elements whose key is listed (inKs says which those are). */
  lemma {:induction false} TallyTotals<T, K>(s: seq<T>, key: T -> Option<K>, ks: seq<K>, amount: T -> int, inKs: T -> bool)
    requires forall i, j :: 0 <= i < j < |ks| ==> ks[i] != ks[j]
    requires forall x :: inKs(x) <==> InKeys(key, ks, x)
    ensures Total(TallyCounts(s, key, ks)) == Seqs.Count(s, inKs)
    ensures Total(TallySums(s, key, ks, amount)) == Seqs.Sum(Seqs.Filter(s, inKs), amount)
  {
    if |ks| == 0 {
      Seqs.FilterNone(s, inKs);
    } else {
      var front, k := ks[..|ks| - 1], ks[|ks| - 1];
      Seqs.Snoc(ks);
      var inFront := x => InKeys(key, front, x);
      TallyTotals(s, key, front, amount, inFront);
      TallySnoc(s, key, front, k, amount);
      TallySplit(s, key, front, k, amount, inFront, inKs);
    }
  }

  /** Adding a key to the list adds its tally to the totals. */
  lemma TallySnoc<T, K>(s: seq<T>, key: T -> Option<K>, front: seq<K>, k: K, amount: T -> int)
    ensures Total(TallyCounts(s, key, front + [k])) == Total(TallyCounts(s, key, front)) + KeyedCount(s, key, k)
    ensures Total(TallySums(s, key, front + [k], amount)) == Total(TallySums(s, key, front, amount)) + KeyedSum(s, key, k, amount)
  {
    assert TallyCounts(s, key, front + [k]) == TallyCounts(s, key, front) + [KeyedCount(s, key, k)];
    assert TallySums(s, key, front + [k], amount) == TallySums(s, key, front, amount) + [KeyedSum(s, key, k, amount)];
    Seqs.SumAppendOne(TallyCounts(s, key, front), KeyedCount(s, key, k), Id);
    Seqs.SumAppendOne(TallySums(s, key, front, amount), KeyedSum(s, key, k, amount), Id);
  }

  /** The elements with a listed key split into those with a key of the front and those with the new key. */
  lemma TallySplit<T, K>(s: seq<T>, key: T -> Option<K>, front: seq<K>, k: K, amount: T -> int, inFront: T -> bool, inKs: T -> bool)
    requires k !in front
    requires forall x :: inFront(x) <==> InKeys(key, front, x)
    requires forall x :: inKs(x) <==> InKeys(key, front + [k], x)
    ensures Seqs.Count(s, inKs) == Seqs.Count(s, inFront) + KeyedCount(s, key, k)
    ensures Seqs.Sum(Seqs.Filter(s, inKs), amount) == Seqs.Sum(Seqs.Filter(s, inFront), amount) + KeyedSum(s, key, k, amount)
  {
    Seqs.CountOr(s, inFront, x => HasKey(key, k, x), inKs);
    Seqs.SumFilterOr(s, inFront, x => HasKey(key, k, x), inKs, amount);
  }

  // ---------------------------------------------------------------------------
  // Stable descending sort

  predicate SortedDesc<T>(s: seq<T>, w: T -> int) {
    forall i, j :: 0 <= i < j < |s| ==> w(s[i]) >= w(s[j])
  }

  /** Places x after every element weighing at least as much, as a stable sort does. */
  function InsertDesc<T>(x: T, s: seq<T>, w: T -> int): (r: seq<T>)
    ensures multiset(r) == multiset(s) + multiset{x}
    ensures |r| == |s| + 1
  {
    if |s| == 0 then [x]
    else if w(s[0]) >= w(x) then
      assert s == [s[0]] + s[1..];
      [s[0]] + InsertDesc(x, s[1..], w)
    else
      [x] + s
  }

  lemma {:induction false} InsertDescSorted<T>(x: T, s: seq<T>, w: T -> int)
    requires SortedDesc(s, w)
    ensures SortedDesc(InsertDesc(x, s, w), w)
  {
    if |s| > 0 && w(s[0]) >= w(x) {
      InsertDescSorted(x, s[1..], w);
      InsertDescBelow(x, s[1..], w, w(s[0]));
    }
  }

  /** Inserting an element no heavier than v into a list of such elements keeps them all no heavier than v. */
  lemma InsertDescBelow<T>(x: T, s: seq<T>, w: T -> int, v: int)
    requires w(x) <= v && forall i :: 0 <= i < |s| ==> w(s[i]) <= v
    ensures forall i :: 0 <= i < |InsertDesc(x, s, w)| ==> w(InsertDesc(x, s, w)[i]) <= v
  {
    var r := InsertDesc(x, s, w);
    forall i | 0 <= i < |r|
      ensures w(r[i]) <= v
    {
      assert r[i] in multiset(s) + multiset{x};
      if r[i] != x {
        assert r[i] in s;
      }
    }
  }

  /** `[...s].sort((a, b) => w(b) - w(a))`. */
  function SortDesc<T>(s: seq<T>, w: T -> int): (r: seq<T>)
    ensures multiset(r) == multiset(s)
    ensures SortedDesc(r, w)
    ensures |r| == |s|
  {
    if |s| == 0 then []
    else
      assert s == s[..|s| - 1] + [s[|s| - 1]];
      InsertDescSorted(s[|s| - 1], SortDesc(s[..|s| - 1], w), w);
      InsertDesc(s[|s| - 1], SortDesc(s[..|s| - 1], w), w)
  }

  lemma {:induction false} SumCons<T>(x: T, s: seq<T>, f: T -> int)
    ensures Seqs.Sum([x] + s, f) == f(x) + Seqs.Sum(s, f)
  {
    if |s| > 0 {
      var init := s[..|s| - 1];
      SumCons(x, init, f);
      assert ([x] + s)[..|[x] + s| - 1] == [x] + init;
    }
  }

  lemma {:induction false} InsertDescSum<T>(x: T, s: seq<T>, w: T -> int, f: T -> int)
    ensures Seqs.Sum(InsertDesc(x, s, w), f) == Seqs.Sum(s, f) + f(x)
  {
    if |s| == 0 {
      assert [x] == [] + [x];
      Seqs.SumAppendOne([], x, f);
    } else if w(s[0]) >= w(x) {
      InsertDescSum(x, s[1..], w, f);
      SumCons(s[0], InsertDesc(x, s[1..], w), f);
      SumCons(s[0], s[1..], f);
      assert [s[0]] + s[1..] == s;
    } else {
      SumCons(x, s, f);
    }
  }

  /** Sorting keeps every sum. */
  lemma {:induction false} SortDescSum<T>(s: seq<T>, w: T -> int, f: T -> int)
    ensures Seqs.Sum(SortDesc(s, w), f) == Seqs.Sum(s, f)
  {
    if |s| > 0 {
      SortDescSum(s[..|s| - 1], w, f);
      InsertDescSum(s[|s| - 1], SortDesc(s[..|s| - 1], w), w, f);
    }
  }

  /** `sorted.slice(0, k)`: the k heaviest, heaviest first; nothing left out outweighs anything kept. */
  lemma TopK<T>(s: seq<T>, w: T -> int, k: nat)
    ensures |Seqs.Take(SortDesc(s, w), k)| == Seqs.Min(k, |s|)
    ensures SortedDesc(Seqs.Take(SortDesc(s, w), k), w)
    ensures forall i, j :: 0 <= i < |Seqs.Take(SortDesc(s, w), k)| <= j < |s| ==>
      w(SortDesc(s, w)[j]) <= w(Seqs.Take(SortDesc(s, w), k)[i])
    ensures |s| <= k ==> Seqs.Take(SortDesc(s, w), k) == SortDesc(s, w)
  {
  }

  /** No two elements share a value of f. */
  predicate DistinctBy<T, K(==)>(s: seq<T>, f: T -> K) {
    forall i, j :: 0 <= i < j < |s| ==> f(s[i]) != f(s[j])
  }

  /** The first k elements of a list with distinct names are its own elements, still with distinct names. */
  /** A prefix of a sorted sequence is sorted. */
  lemma TakeSortedDesc<T>(s: seq<T>, k: nat, w: T -> int)
    requires SortedDesc(s, w)
    ensures SortedDesc(Seqs.Take(s, k), w)
  {
  }

  lemma TakeKeeps<T, K>(s: seq<T>, k: nat, f: T -> K)
    requires DistinctBy(s, f)
    ensures DistinctBy(Seqs.Take(s, k), f)
    ensures forall i :: 0 <= i < |Seqs.Take(s, k)| ==> Seqs.Take(s, k)[i] == s[i]
  {
  }

  lemma {:induction false} InsertDescDistinct<T, K>(x: T, s: seq<T>, w: T -> int, f: T -> K)
    requires DistinctBy(s, f)
    requires forall i :: 0 <= i < |s| ==> f(s[i]) != f(x)
    ensures DistinctBy(InsertDesc(x, s, w), f)
  {
    if |s| > 0 && w(s[0]) >= w(x) {
      var rest := InsertDesc(x, s[1..], w);
      InsertDescDistinct(x, s[1..], w, f);
      forall i | 0 <= i < |rest|
        ensures f(rest[i]) != f(s[0])
      {
        assert rest[i] in multiset(s[1..]) + multiset{x};
        if rest[i] != x {
          var j :| 0 <= j < |s[1..]| && s[1..][j] == rest[i];
          assert s[j + 1] == rest[i];
        }
      }
      assert InsertDesc(x, s, w) == [s[0]] + rest;
    }
  }

  /** Sorting keeps elements apart by any f that kept them apart before. */
  lemma {:induction false} SortDescDistinct<T, K>(s: seq<T>, w: T -> int, f: T -> K)
    requires DistinctBy(s, f)
    ensures DistinctBy(SortDesc(s, w), f)
  {
    if |s| > 0 {
      var init, x := s[..|s| - 1], s[|s| - 1];
      SortDescDistinct(init, w, f);
      var sorted := SortDesc(init, w);
      forall i | 0 <= i < |sorted|
        ensures f(sorted[i]) != f(x)
      {
        assert sorted[i] in multiset(init);
        var j :| 0 <= j < |init| && init[j] == sorted[i];
        assert s[j] == init[j];
      }
      InsertDescDistinct(x, sorted, w, f);
    }
  }

  /** Each bucket of the grouping holds the tallies of its key, and its key occurs. */
  lemma GroupMember<T, K(!new)>(s: seq<T>, key: T -> Option<K>, amount: T -> int, b: Bucket<K>)
    requires b in Group(s, key, amount)
    ensures b.total == KeyedSum(s, key, b.key, amount)
    ensures b.count == KeyedCount(s, key, b.key) > 0
  {
    GroupSpec(s, key, amount);
    var g := Group(s, key, amount);
    var i :| 0 <= i < |g| && g[i] == b;
    assert HasBucket(g, b.key);
  }

  /** The grouping has a bucket for exactly the keys that occur, and no key twice. */
  lemma GroupKeys<T, K(!new)>(s: seq<T>, key: T -> Option<K>, amount: T -> int, k: K)
    ensures HasBucket(Group(s, key, amount), k) <==> KeyedCount(s, key, k) > 0
    ensures DistinctKeys(Group(s, key, amount))
  {
    GroupSpec(s, key, amount);
  }
}

=== FILE: customerorders.dfy ===
/**
 * The customer's own order list: search on the service name, the status
 * select, and the amount shown on each card.
 */
module CustomerOrders {
  import opened Wrappers
  import Seqs
  import Strings
  import Js
  import opened Schema
  import UD = UserData
  import OD = OrderDetail

  /** `order.services?.name.toLowerCase().includes(...)`: an order without a service name never matches. */
  predicate SearchMatches(q: string, o: Order) {
    Strings.OptionIncludesIgnoreCase(ServiceName(o), q)
  }

  /** `!statusFilter || order.status === statusFilter`: no selection lets every order through. */
  predicate StatusPasses(f: Option<OrderStatus>, o: Order) {
    f.None? || o.status == f
  }

  predicate Matches(q: string, f: Option<OrderStatus>, o: Order) {
    SearchMatches(q, o) && StatusPasses(f, o)
  }

  /** `filteredOrders`: the matching orders in their original order. */
  function FilteredOrders(os: seq<Order>, q: string, f: Option<OrderStatus>): (r: seq<Order>)
    ensures Seqs.IsSubsequence(r, os)
    ensures forall i :: 0 <= i < |r| ==> Matches(q, f, r[i])
    ensures forall i :: 0 <= i < |os| && Matches(q, f, os[i]) ==> os[i] in r
  {
    Seqs.FilterIsSubsequence(os, o => Matches(q, f, o));
    Seqs.Filter(os, o => Matches(q, f, o))
  }

  predicate HasServiceName(o: Order) {
    ServiceName(o).Some?
  }

  /**
   * An empty search lists exactly the orders that carry a service name, so an
   * order whose service is gone is never listed, whatever is typed.
   */
  lemma EmptySearch(os: seq<Order>)
    ensures FilteredOrders(os, "", None) == Seqs.Filter(os, HasServiceName)
    ensures forall q, f, i :: 0 <= i < |FilteredOrders(os, q, f)| ==> FilteredOrders(os, q, f)[i].service.Some?
  {
    forall i | 0 <= i < |os|
      ensures Matches("", None, os[i]) == HasServiceName(os[i])
    {
      if ServiceName(os[i]).Some? {
        Strings.IncludesIgnoreCaseEmpty(ServiceName(os[i]).value);
      }
    }
    Seqs.FilterSame(os, o => Matches("", None, o), HasServiceName);
  }

  /** The status select in the shape the administrator's pages use. */
  function AsStatusFilter(f: Option<OrderStatus>): (r: StatusFilter)
    ensures forall o :: StatusPasses(f, o) <==> StatusMatches(r, o)
  {
    if f.None? then AnyStatus else Only(f.value)
  }

  /**
   * The customer's list is the administrator's view of the same customer's
   * orders (user-data page) narrowed to orders whose service name matches:
   * the id search of that page is not offered here.
   */
  lemma NarrowerThanUserData(os: seq<Order>, q: string, f: Option<OrderStatus>)
    ensures FilteredOrders(os, q, f) == Seqs.Filter(UD.FilteredOrders(os, q, AsStatusFilter(f)), o => SearchMatches(q, o))
    ensures Seqs.IsSubsequence(FilteredOrders(os, q, f), UD.FilteredOrders(os, q, AsStatusFilter(f)))
  {
    var sf := AsStatusFilter(f);
    Seqs.FilterAnd(os, o => UD.Matches(q, sf, o), o => SearchMatches(q, o), o => Matches(q, f, o));
    Seqs.FilterIsSubsequence(UD.FilteredOrders(os, q, sf), o => SearchMatches(q, o));
  }

  /** `order.total_amount || order.services?.price || 0`: the amount on an order card. */
  function DisplayedAmount(o: Order): (r: int)
    ensures Js.TruthyInt(o.totalAmount) ==> r == o.totalAmount.value
    ensures !Js.TruthyInt(o.totalAmount) && Js.TruthyInt(ServicePrice(o)) ==> r == ServicePrice(o).value
    ensures !Js.TruthyInt(o.totalAmount) && !Js.TruthyInt(ServicePrice(o)) ==> r == 0
  {
    Js.OrInt(o.totalAmount, Js.OrInt(ServicePrice(o), 0))
  }

  /**
   * The card shows what the order page shows, with 0 for a blank; it is the
   * amount revenue counts except for a free order of a priced service, which
   * revenue counts as 0 and the card shows at list price.
   */
  lemma DisplayedAmountAgrees(o: Order)
    ensures DisplayedAmount(o) == Js.OrInt(OD.ShownAmount(o), 0)
    ensures DisplayedAmount(o) == Amount(o) <==> Js.TruthyInt(o.totalAmount) || !Js.TruthyInt(ServicePrice(o))
  {
  }
}

=== FILE: dashboards.dfy ===
/**
 * The two overview pages: the administrator's dashboard and the customer's
 * dashboard, each with a few status counts and a short list of recent orders.
 */
module Dashboards {
  import opened Wrappers
  import Seqs
  import Js
  import opened Schema
  import B = Buckets
  import A = Analytics

  /** The number of orders with exactly this status. */
  function CountWith(os: seq<Order>, s: OrderStatus): nat {
    A.StatusCount(os, s)
  }

  /** Three different statuses never count more orders than there are. */
  lemma ThreeCountsBounded(os: seq<Order>)
    ensures CountWith(os, Pending) + CountWith(os, InProgress) + CountWith(os, Delivered)
            + CountWith(os, Ready) + CountWith(os, Cancelled) == Seqs.Count(os, A.HasSomeStatus)
    ensures CountWith(os, Pending) + CountWith(os, InProgress) + CountWith(os, Delivered) <= |os|
  {
    A.FiveCounts(os);
  }

  /** The administrator's overview figures. */
  datatype AdminStats = AdminStats(totalOrders: nat, pending: nat, inProgress: nat, delivered: nat, revenue: int, customers: int)

  /** The admin dashboard's `stats`: revenue counts delivered orders only; a missing customer count reads 0. */
  function ComputeAdminStats(os: seq<Order>, customersCount: Option<int>): (r: AdminStats)
    ensures r.totalOrders == |os|
    ensures r.pending + r.inProgress + r.delivered <= r.totalOrders
    ensures r.delivered == CountWith(os, Delivered)
    ensures r.pending == CountWith(os, Pending) && r.inProgress == CountWith(os, InProgress)
    ensures r.revenue == A.StatusRevenue(os, Delivered)
    ensures r.customers == (if customersCount.Some? then customersCount.value else 0)
  {
    ThreeCountsBounded(os);
    Seqs.FilterSame(os, A.IsDelivered, x => B.HasKey(A.StatusOf, Delivered, x));
    AdminStats(
      |os|,
      CountWith(os, Pending),
      CountWith(os, InProgress),
      CountWith(os, Delivered),
      A.Revenue(Seqs.Filter(os, A.IsDelivered)),
      Js.OrInt(customersCount, 0))
  }

  /** The dashboard's revenue is the delivered revenue of the analytics page, not the total. */
  lemma AdminRevenueAgrees(os: seq<Order>, count: Option<int>, inThisMonth: Order -> bool, inLastMonth: Order -> bool)
    ensures ComputeAdminStats(os, count).revenue == A.ComputeStats(os, inThisMonth, inLastMonth).deliveredRevenue
    ensures ComputeAdminStats(os, count).delivered == A.ComputeStats(os, inThisMonth, inLastMonth).deliveredOrders
  {
    A.DeliveredSliceAgrees(os, inThisMonth, inLastMonth);
    Seqs.FilterSame(os, A.IsDelivered, x => B.HasKey(A.StatusOf, Delivered, x));
  }

  /** The customer's overview figures. */
  datatype CustomerStats = CustomerStats(total: nat, pending: nat, inProgress: nat, completed: nat)

  /** The customer dashboard's `stats`: "completed" is delivered; ready and cancelled orders count in none. */
  function ComputeCustomerStats(os: seq<Order>): (r: CustomerStats)
    ensures r.total == |os|
    ensures r.completed == CountWith(os, Delivered)
    ensures r.pending == CountWith(os, Pending) && r.inProgress == CountWith(os, InProgress)
    ensures r.pending + r.inProgress + r.completed + CountWith(os, Ready) + CountWith(os, Cancelled) == Seqs.Count(os, A.HasSomeStatus)
    ensures r.pending + r.inProgress + r.completed <= r.total
  {
    ThreeCountsBounded(os);
    CustomerStats(|os|, CountWith(os, Pending), CountWith(os, InProgress), CountWith(os, Delivered))
  }

  /** Both dashboards count the same three statuses the same way. */
  lemma DashboardsAgree(os: seq<Order>, count: Option<int>)
    ensures ComputeCustomerStats(os).pending == ComputeAdminStats(os, count).pending
    ensures ComputeCustomerStats(os).inProgress == ComputeAdminStats(os, count).inProgress
    ensures ComputeCustomerStats(os).completed == ComputeAdminStats(os, count).delivered
  {
  }

  /** `orders.slice(0, 5)`: the first five orders in fetched order, or all of them when fewer. */
  function Recent(os: seq<Order>): (r: seq<Order>)
    ensures |r| == Seqs.Min(5, |os|)
    ensures r == os[..|r|]
  {
    Seqs.Take(os, 5)
  }
}

=== FILE: deletes.dfy ===
/**
 * Cascades of awaited deletes as the administrator pages issue them. The
 * backend does not throw on a failed delete: a page only stops when it looks
 * at the error of a delete and rethrows it.
 */
module Deletes {
  datatype Table = Orders | OrderDocuments | UserDocuments | UserRoles | Profiles

  /** `supabase.from(table).delete().eq(column, value)`. */
  datatype Delete = Delete(table: Table, column: string, value: string)

  /** One awaited delete; `checked` when the page rethrows its error. */
  datatype Step = Step(del: Delete, checked: bool)

  /** The deletes sent, in order, and whether the page reports success. */
  datatype Outcome = Outcome(issued: seq<Delete>, ok: bool)

  /** A step that stops the cascade under the given failures. */
  predicate Stops(st: Step, fails: Delete -> bool) {
    st.checked && fails(st.del)
  }

  /**
   * Runs the steps in order. A failing checked delete ends the run with an
   * error after it was sent; a failing unchecked one is ignored.
   */
  function Run(steps: seq<Step>, fails: Delete -> bool): (r: Outcome)
    ensures |r.issued| <= |steps|
    ensures forall i :: 0 <= i < |r.issued| ==> r.issued[i] == steps[i].del
  {
    if |steps| == 0 then Outcome([], true)
    else if Stops(steps[0], fails) then Outcome([steps[0].del], false)
    else
      var rest := Run(steps[1..], fails);
      assert forall i :: 0 < i < |steps| ==> steps[1..][i - 1] == steps[i];
      Outcome([steps[0].del] + rest.issued, rest.ok)
  }

  /**
   * The run succeeds exactly when no step stops it; then every delete was
   * sent, and otherwise the last one sent is the first that stops.
   */
  lemma {:induction false} RunOutcome(steps: seq<Step>, fails: Delete -> bool)
    ensures Run(steps, fails).ok <==> forall i :: 0 <= i < |steps| ==> !Stops(steps[i], fails)
    ensures Run(steps, fails).ok ==> |Run(steps, fails).issued| == |steps|
    ensures !Run(steps, fails).ok ==> |Run(steps, fails).issued| > 0 && Stops(steps[|Run(steps, fails).issued| - 1], fails)
    ensures forall i :: 0 <= i < |Run(steps, fails).issued| - 1 ==> !Stops(steps[i], fails)
    decreases |steps|
  {
    if |steps| > 0 && !Stops(steps[0], fails) {
      RunOutcome(steps[1..], fails);
      assert forall i :: 0 < i < |steps| ==> steps[1..][i - 1] == steps[i];
    }
  }

  /** Steps none of which is checked are all sent and always succeed, whatever fails. */
  lemma UncheckedAlwaysRun(steps: seq<Step>, fails: Delete -> bool)
    requires forall i :: 0 <= i < |steps| ==> !steps[i].checked
    ensures Run(steps, fails).ok
    ensures |Run(steps, fails).issued| == |steps|
  {
    RunOutcome(steps, fails);
  }
}

=== FILE: documents.dfy ===
/**
 * The customer's document locker: searching by file name, the icon chosen
 * from the file extension, where an upload is stored, and how the storage
 * path is recovered from the public URL when a document is deleted.
 */
module Documents {
  import opened Wrappers
  import Seqs
  import Strings

  /** A `user_documents` row. */
  datatype UserDocument = UserDocument(id: string, userId: string, fileName: string, fileUrl: string, documentType: Option<string>)

  // ---------------------------------------------------------------------------
  // Search

  predicate NameMatches(q: string, d: UserDocument) {
    Strings.IncludesIgnoreCase(d.fileName, q)
  }

  /** `filteredDocs`: the documents whose file name contains the search, ignoring case, in order. */
  function FilteredDocs(docs: seq<UserDocument>, q: string): (r: seq<UserDocument>)
    ensures Seqs.IsSubsequence(r, docs)
    ensures forall i :: 0 <= i < |r| ==> NameMatches(q, r[i])
    ensures forall i :: 0 <= i < |docs| && NameMatches(q, docs[i]) ==> docs[i] in r
  {
    Seqs.FilterIsSubsequence(docs, d => NameMatches(q, d));
    Seqs.Filter(docs, d => NameMatches(q, d))
  }

  /** An empty search keeps every document in order. */
  lemma EmptySearchKeepsAll(docs: seq<UserDocument>)
    ensures FilteredDocs(docs, "") == docs
  {
    forall i | 0 <= i < |docs|
      ensures NameMatches("", docs[i])
    {
      Strings.IncludesIgnoreCaseEmpty(docs[i].fileName);
    }
    Seqs.FilterFull(docs, d => NameMatches("", d));
  }

  // ---------------------------------------------------------------------------
  // Icons

  datatype Icon = ImageIcon | TextIcon | PlainIcon

  const ImageExtensions: seq<string> := ["jpg", "jpeg", "png", "gif", "webp"]
  const TextExtensions: seq<string> := ["pdf", "doc", "docx", "txt"]

  /** `name.split('.').pop()`: the text after the last dot, the whole name when there is none. */
  function Extension(name: string): (r: string)
    ensures '.' !in r && Strings.EndsWith(name, r)
  {
    Strings.AfterLast(name, '.')
  }

  /** The icon for an already lower-cased extension. */
  function IconFor(ext: string): (r: Icon)
    ensures r == ImageIcon <==> ext in ImageExtensions
    ensures r == TextIcon <==> ext !in ImageExtensions && ext in TextExtensions
  {
    if ext in ImageExtensions then ImageIcon
    else if ext in TextExtensions then TextIcon
    else PlainIcon
  }

  /** `getFileIcon`, shared by the locker and the order page. */
  function FileIcon(name: string): (r: Icon)
    ensures r == ImageIcon <==> Strings.Lower(Extension(name)) in ImageExtensions
    ensures r == TextIcon <==> Strings.Lower(Extension(name)) !in ImageExtensions && Strings.Lower(Extension(name)) in TextExtensions
  {
    IconFor(Strings.Lower(Extension(name)))
  }

  /** Only the extension after the last dot decides the icon, whatever the rest of the name. */
  lemma IconOfExtension(base: string, ext: string)
    requires '.' !in ext
    ensures FileIcon(base + "." + ext) == IconFor(Strings.Lower(ext))
  {
    Strings.AfterLastOfSuffix(base, '.', ext);
  }

  /** A `pdf` extension is a text document, not an image. */
  lemma PdfIsText()
    ensures IconFor("pdf") == TextIcon
  {
    assert TextExtensions[0] == "pdf";
    forall i | 0 <= i < |ImageExtensions|
      ensures ImageExtensions[i] != "pdf"
    {
      assert ImageExtensions[i][0] != 'p' || ImageExtensions[i][1] != 'd';
    }
  }

  /** Lower-casing `PDF` gives the text extension `pdf`. */
  lemma UpperPdfIsText()
    ensures IconFor(Strings.Lower("PDF")) == TextIcon
  {
    assert Strings.Lower("PDF") == "pdf";
    PdfIsText();
  }

  lemma PdfSuffix(base: string)
    ensures base + ".PDF" == base + "." + "PDF"
  {
    assert "." + "PDF" == ".PDF";
    Seqs.Assoc(base, ".", "PDF");
  }

  /** Upper-case extensions get the same icon: a scanned `.PDF` is a text document. */
  lemma UpperCasePdf(base: string)
    ensures FileIcon(base + ".PDF") == TextIcon
  {
    PdfSuffix(base);
    IconOfExtension(base, "PDF");
    UpperPdfIsText();
  }

  // ---------------------------------------------------------------------------
  // Storage paths

  /** The storage path of a locker upload: the user's folder, the upload time, the extension, which the path keeps. */
  function UploadPath(userId: string, now: nat, fileName: string): (r: string)
    ensures Strings.StartsWith(r, userId + "/")
    ensures Extension(r) == Extension(fileName)
  {
    var ext := Extension(fileName);
    var head := userId + "/" + Strings.NatToString(now);
    Strings.AfterLastOfSuffix(head, '.', ext);
    assert head + "." + ext == head + ['.'] + ext;
    var r := head + "." + ext;
    assert r[..|userId + "/"|] == userId + "/";
    r
  }

  /** The path `handleDelete` removes: the user's folder and one segment, the URL's last. */
  function DeletePath(userId: string, fileUrl: string): (r: string)
    ensures Strings.StartsWith(r, userId + "/")
    ensures '/' !in r[|userId| + 1..] && Strings.EndsWith(fileUrl, r[|userId| + 1..])
  {
    var r := userId + "/" + Strings.AfterLast(fileUrl, '/');
    assert r[..|userId + "/"|] == userId + "/";
    assert r[|userId| + 1..] == Strings.AfterLast(fileUrl, '/');
    r
  }

  /** The extension of a name without a slash has no slash. */
  lemma ExtensionNoSlash(fileName: string)
    requires '/' !in fileName
    ensures '/' !in Extension(fileName)
  {
    var ext := Extension(fileName);
    forall i | 0 <= i < |ext|
      ensures ext[i] != '/'
    {
      assert ext[i] == fileName[|fileName| - |ext| + i];
    }
  }

  /** A number written out holds digits only. */
  lemma DigitsNoSlash(n: nat)
    ensures '/' !in Strings.NatToString(n)
  {
    var digits := Strings.NatToString(n);
    forall i | 0 <= i < |digits|
      ensures digits[i] != '/'
    {
      assert Strings.IsDigit(digits[i]);
    }
  }

  lemma Regroup<T>(a: seq<T>, b: seq<T>, c: seq<T>, d: seq<T>)
    ensures a + b + c + d == a + (b + c + d)
  {
    Seqs.Assoc(a, b, c);
    Seqs.Assoc(a, b + c, d);
  }

  /**
   * A public URL that ends with the uploaded file's last path segment gives
   * back the upload path, provided the file name has no slash.
   */
  lemma DeleteRecoversUpload(userId: string, now: nat, fileName: string, base: string)
    requires '/' !in fileName
    ensures DeletePath(userId, base + "/" + Strings.NatToString(now) + "." + Extension(fileName)) == UploadPath(userId, now, fileName)
  {
    var ext := Extension(fileName);
    var digits := Strings.NatToString(now);
    ExtensionNoSlash(fileName);
    DigitsNoSlash(now);
    assert '/' !in digits + "." + ext;
    Strings.AfterLastOfSuffix(base, '/', digits + "." + ext);
    Regroup(base + "/", digits, ".", ext);
    Regroup(userId + "/", digits, ".", ext);
  }

  /** The `user_documents` row written after an upload: the file's own name, the public URL, the MIME type. */
  function UploadRecord(id: string, userId: string, fileName: string, publicUrl: string, mime: string): (r: UserDocument)
    ensures r.fileName == fileName && r.fileUrl == publicUrl
    ensures r.documentType == Some(mime) && r.userId == userId
  {
    UserDocument(id, userId, fileName, publicUrl, Some(mime))
  }
}

=== FILE: js.dfy ===
/**
 * JavaScript value conventions the pages rely on: nullable fields, the
 * falsiness of "" and 0, `a || b` fallbacks and template interpolation.
 */
module Js {
  import opened Wrappers

  /** A nullable string is truthy when present and non-empty. */
  predicate TruthyString(s: Option<string>) {
    s.Some? && s.value != []
  }

  /** A nullable number is truthy when present and non-zero. */
  predicate TruthyInt(n: Option<int>) {
    n.Some? && n.value != 0
  }

  /** `s || fallback` for a nullable string. */
  function OrString(s: Option<string>, fallback: string): (r: string)
    ensures TruthyString(s) ==> r == s.value
    ensures !TruthyString(s) ==> r == fallback
  {
    if TruthyString(s) then s.value else fallback
  }

  /** `n || fallback` for a nullable number. */
  function OrInt(n: Option<int>, fallback: int): (r: int)
    ensures TruthyInt(n) ==> r == n.value
    ensures !TruthyInt(n) ==> r == fallback
  {
    if TruthyInt(n) then n.value else fallback
  }

  /** `s || null`: the empty string becomes null. */
  function NullIfEmpty(s: Option<string>): (r: Option<string>)
    ensures r.Some? <==> TruthyString(s)
    ensures r.Some? ==> r == s
  {
    if TruthyString(s) then s else None
  }

  /** `n || null`: zero becomes null. */
  function NullIfZero(n: Option<int>): (r: Option<int>)
    ensures r.Some? <==> TruthyInt(n)
    ensures r.Some? ==> r == n
  {
    if TruthyInt(n) then n else None
  }

  /** `${s}` for a possibly undefined string. */
  function Interpolate(s: Option<string>): string {
    if s.Some? then s.value else "undefined"
  }

  /** `b !== false` for a nullable boolean: only an explicit false fails. */
  predicate NotFalse(b: Option<bool>) {
    b != Some(false)
  }

  /** `b || false` / `b ?? false` read as a boolean: only an explicit true holds. */
  predicate IsTrue(b: Option<bool>) {
    b == Some(true)
  }

  /** `b ?? fallback` for a nullable boolean. */
  function OrBool(b: Option<bool>, fallback: bool): (r: bool)
    ensures fallback ==> (r <==> NotFalse(b))
    ensures !fallback ==> (r <==> IsTrue(b))
  {
    if b.Some? then b.value else fallback
  }
}

=== FILE: notifications.dfy ===
/**
 * The in-app notification store: a list of notifications (newest first) with
 * an unread counter, pruned when a user's saved list is loaded, persisted per
 * user, and fed by order events.
 */
module Notifications {
  import opened Wrappers
  import Seqs
  import Js
  import Strings
  import opened Schema
  import A = Analytics

  datatype Kind = OrderKind | SystemKind | InfoKind

  /**
   * One notification. `createdAt` is the creation time in milliseconds, or
   * None when the stored timestamp does not parse (its time is then NaN).
   */
  datatype Notification = Notification(
    id: string,
    title: string,
    message: string,
    kind: Kind,
    read: bool,
    createdAt: Option<int>,
    orderId: Option<string>)

  /** What an event handler passes to `addNotification`: everything but id, time and read flag. */
  datatype Draft = Draft(title: string, message: string, kind: Kind, orderId: Option<string>)

  /** The hook's two pieces of state. */
  datatype Store = Store(items: seq<Notification>, unread: int)

  /** Saved lists, keyed by storage key. */
  type Storage = map<string, seq<Notification>>

  /** The hook state together with what is saved in the browser. */
  datatype Session = Session(store: Store, storage: Storage)

  const StoragePrefix: string := "app_notifications"

  /** 24 hours in milliseconds. */
  const DayMs: int := 24 * 60 * 60 * 1000

  predicate IsUnread(n: Notification) {
    !n.read
  }

  function CountUnread(ns: seq<Notification>): nat {
    Seqs.Count(ns, IsUnread)
  }

  /** The counter agrees with the list. */
  predicate Consistent(st: Store) {
    st.unread == CountUnread(st.items)
  }

  /** The store before any user is loaded. */
  const Empty: Store := Store([], 0)

  // ---------------------------------------------------------------------------
  // Pruning

  /** Created less than 24 hours before now; false when the timestamp is NaN. */
  predicate Recent(now: int, n: Notification) {
    n.createdAt.Some? && now - n.createdAt.value < DayMs
  }

  /** Unread notifications always stay; read ones stay while recent. */
  predicate Keep(now: int, n: Notification) {
    IsUnread(n) || Recent(now, n)
  }

  /** `cleanOldNotifications`, with the clock reading passed in. */
  function Prune(now: int, ns: seq<Notification>): (r: seq<Notification>)
    ensures |r| <= |ns|
    ensures forall i :: 0 <= i < |r| ==> r[i] in ns && (IsUnread(r[i]) || Recent(now, r[i]))
    ensures forall i :: 0 <= i < |ns| && IsUnread(ns[i]) ==> ns[i] in r
    ensures forall i :: 0 <= i < |ns| && ns[i].read ==> (ns[i] in r <==> Recent(now, ns[i]))
  {
    Seqs.Filter(ns, n => Keep(now, n))
  }

  /**
   * Pruning keeps the survivors in order, removes something exactly when
   * some notification fails `Keep`, and a second pruning at the same time
   * removes nothing more.
   */
  lemma PruneShape(now: int, ns: seq<Notification>)
    ensures Seqs.IsSubsequence(Prune(now, ns), ns)
    ensures |Prune(now, ns)| == |ns| <==> forall i :: 0 <= i < |ns| ==> Keep(now, ns[i])
    ensures (forall i :: 0 <= i < |ns| ==> Keep(now, ns[i])) ==> Prune(now, ns) == ns
    ensures Prune(now, Prune(now, ns)) == Prune(now, ns)
  {
    Seqs.FilterIsSubsequence(ns, n => Keep(now, n));
    Seqs.FilterFull(ns, n => Keep(now, n));
    Seqs.FilterTwice(ns, n => Keep(now, n));
  }

  // ---------------------------------------------------------------------------
  // Persistence

  function StorageKey(userId: string): string {
    StoragePrefix + "_" + userId
  }

  /** Distinct users have distinct storage keys. */
  lemma StorageKeyInjective(a: string, b: string)
    requires StorageKey(a) == StorageKey(b)
    ensures a == b
  {
    var n := |StoragePrefix| + 1;
    assert a == StorageKey(a)[n..];
    assert b == StorageKey(b)[n..];
  }

  /** `loadNotifications`: nothing without a user id or a saved list. */
  function ReadSaved(storage: Storage, user: Option<string>): (r: seq<Notification>)
    ensures !Js.TruthyString(user) ==> r == []
    ensures Js.TruthyString(user) && StorageKey(user.value) !in storage ==> r == []
  {
    if !Js.TruthyString(user) then []
    else if StorageKey(user.value) in storage then storage[StorageKey(user.value)]
    else []
  }

  /** `saveNotifications`: does nothing without a user id. */
  function Save(storage: Storage, user: Option<string>, ns: seq<Notification>): (r: Storage)
    ensures !Js.TruthyString(user) ==> r == storage
    ensures Js.TruthyString(user) ==> ReadSaved(r, user) == ns
    ensures forall k :: k in storage && (!Js.TruthyString(user) || k != StorageKey(user.value)) ==> k in r && r[k] == storage[k]
  {
    if !Js.TruthyString(user) then storage else storage[StorageKey(user.value) := ns]
  }

  /** Saving for one user leaves what another user reads unchanged. */
  lemma SaveIsolated(storage: Storage, user: Option<string>, other: Option<string>, ns: seq<Notification>)
    requires Js.TruthyString(other) && (!Js.TruthyString(user) || user.value != other.value)
    ensures ReadSaved(Save(storage, user, ns), other) == ReadSaved(storage, other)
  {
    if Js.TruthyString(user) && StorageKey(user.value) == StorageKey(other.value) {
      StorageKeyInjective(user.value, other.value);
    }
  }

  /**
   * The load effect that runs when the user id changes: read the saved list,
   * prune it, recount the unread ones, and write the pruned list back only
   * when pruning removed something.
   */
  function OnUserChange(s: Session, user: Option<string>, now: int): (r: Session)
    ensures !Js.TruthyString(user) ==> r == s
    ensures Js.TruthyString(user) ==> r.store.items == Prune(now, ReadSaved(s.storage, user))
    ensures Js.TruthyString(user) ==> Consistent(r.store)
    ensures Js.TruthyString(user) && (forall i :: 0 <= i < |ReadSaved(s.storage, user)| ==> Keep(now, ReadSaved(s.storage, user)[i]))
            ==> r.storage == s.storage
    ensures Js.TruthyString(user) && (exists i :: 0 <= i < |ReadSaved(s.storage, user)| && !Keep(now, ReadSaved(s.storage, user)[i]))
            ==> ReadSaved(r.storage, user) == r.store.items
  {
    if !Js.TruthyString(user) then s
    else
      var stored := ReadSaved(s.storage, user);
      var cleaned := Prune(now, stored);
      PruneShape(now, stored);
      var storage := if |cleaned| != |stored| then Save(s.storage, user, cleaned) else s.storage;
      Session(Store(cleaned, CountUnread(cleaned)), storage)
  }

  /**
   * The save effect that runs when the list changes: it writes only with a
   * user id and a non-empty list.
   */
  function OnItemsChange(s: Session, user: Option<string>): (r: Session)
    ensures r.store == s.store
    ensures Js.TruthyString(user) && |s.store.items| > 0 ==> ReadSaved(r.storage, user) == s.store.items
    ensures !Js.TruthyString(user) || |s.store.items| == 0 ==> r.storage == s.storage
  {
    if Js.TruthyString(user) && |s.store.items| > 0 then Session(s.store, Save(s.storage, user, s.store.items))
    else s
  }

  // ---------------------------------------------------------------------------
  // State updates

  /** `addNotification`, with the generated id and the clock reading passed in. */
  function Add(st: Store, d: Draft, id: string, now: int): (r: Store)
    ensures |r.items| == |st.items| + 1 && r.items[1..] == st.items
    ensures r.items[0] == Notification(id, d.title, d.message, d.kind, false, Some(now), d.orderId)
    ensures r.unread == st.unread + 1
  {
    Store([Notification(id, d.title, d.message, d.kind, false, Some(now), d.orderId)] + st.items, st.unread + 1)
  }

  lemma AddConsistent(st: Store, d: Draft, id: string, now: int)
    requires Consistent(st)
    ensures Consistent(Add(st, d, id, now))
  {
    Seqs.FilterCons(Add(st, d, id, now).items[0], st.items, IsUnread);
    assert Add(st, d, id, now).items == [Add(st, d, id, now).items[0]] + st.items;
  }

  function MarkOne(n: Notification, id: string): Notification {
    if n.id == id then n.(read := true) else n
  }

  /** `markAsRead` as written: the counter drops by one (not below zero) whatever the target was. */
  function MarkAsRead(st: Store, id: string): (r: Store)
    ensures |r.items| == |st.items|
    ensures forall i :: 0 <= i < |st.items| && st.items[i].id != id ==> r.items[i] == st.items[i]
    ensures forall i :: 0 <= i < |st.items| && st.items[i].id == id ==> r.items[i] == st.items[i].(read := true)
    ensures r.unread == if st.unread > 0 then st.unread - 1 else 0
  {
    Store(Seqs.Map(st.items, n => MarkOne(n, id)), if st.unread > 0 then st.unread - 1 else 0)
  }

  /** How many unread notifications carry the id. */
  function UnreadWithId(ns: seq<Notification>, id: string): nat {
    Seqs.Count(ns, n => IsUnread(n) && n.id == id)
  }

  /** Marking an id read removes exactly its unread notifications from the unread count. */
  lemma MarkItemsUnread(ns: seq<Notification>, id: string)
    ensures CountUnread(Seqs.Map(ns, n => MarkOne(n, id))) + UnreadWithId(ns, id) == CountUnread(ns)
  {
    Seqs.CountMap(ns, n => MarkOne(n, id), IsUnread, n => IsUnread(n) && n.id != id);
    Seqs.CountOr(ns, n => IsUnread(n) && n.id != id, n => IsUnread(n) && n.id == id, IsUnread);
  }

  /**
   * From a consistent store, `markAsRead` keeps the counter right exactly
   * when the id marks one unread notification (none when nothing is unread).
   */
  lemma MarkAsReadConsistentIff(st: Store, id: string)
    requires Consistent(st)
    ensures Consistent(MarkAsRead(st, id)) <==> UnreadWithId(st.items, id) == Seqs.Min(1, st.unread)
  {
    MarkItemsUnread(st.items, id);
  }

  /** Clicking an already-read notification while another is unread leaves the counter one short. */
  lemma MarkAsReadDrift()
    ensures var st := Store([Notification("a", "", "", InfoKind, true, None, None),
                             Notification("b", "", "", InfoKind, false, None, None)], 1);
            Consistent(st) && !Consistent(MarkAsRead(st, "a"))
  {
    var st := Store([Notification("a", "", "", InfoKind, true, None, None),
                     Notification("b", "", "", InfoKind, false, None, None)], 1);
    assert UnreadWithId(st.items, "a") == 0 by {
      var p := (n: Notification) => IsUnread(n) && n.id == "a";
      assert st.items == [st.items[0]] + [st.items[1]];
      Seqs.FilterCons(st.items[0], [st.items[1]], p);
      Seqs.FilterCons(st.items[1], [], p);
      assert [st.items[1]] == [st.items[1]] + [];
    }
    assert CountUnread(st.items) == 1 by {
      assert st.items == [st.items[0]] + [st.items[1]];
      Seqs.FilterCons(st.items[0], [st.items[1]], IsUnread);
      Seqs.FilterCons(st.items[1], [], IsUnread);
      assert [st.items[1]] == [st.items[1]] + [];
    }
    MarkAsReadConsistentIff(st, "a");
  }

  /** `markAsRead` with the counter dropped only by the unread notifications it marks. */
  function MarkAsReadCounted(st: Store, id: string): (r: Store)
    ensures r.items == MarkAsRead(st, id).items
    ensures r.unread <= st.unread
  {
    Store(Seqs.Map(st.items, n => MarkOne(n, id)), st.unread - UnreadWithId(st.items, id))
  }

  /** The corrected update keeps any consistent store consistent, and agrees with the original on a single unread target. */
  lemma MarkAsReadCountedConsistent(st: Store, id: string)
    requires Consistent(st)
    ensures Consistent(MarkAsReadCounted(st, id))
    ensures UnreadWithId(st.items, id) == 1 ==> MarkAsReadCounted(st, id) == MarkAsRead(st, id)
  {
    MarkItemsUnread(st.items, id);
  }

  /** `markAllAsRead`. */
  function MarkAllAsRead(st: Store): (r: Store)
    ensures |r.items| == |st.items|
    ensures forall i :: 0 <= i < |r.items| ==> r.items[i] == st.items[i].(read := true)
    ensures r.unread == 0
  {
    Store(Seqs.Map(st.items, (n: Notification) => n.(read := true)), 0)
  }

  /** After marking all read, nothing is unread and the counter is right whatever it was before. */
  lemma MarkAllAsReadConsistent(st: Store)
    ensures CountUnread(MarkAllAsRead(st).items) == 0
    ensures Consistent(MarkAllAsRead(st))
  {
    var items := st.items;
    Seqs.CountMap(items, (n: Notification) => n.(read := true), IsUnread, (n: Notification) => false);
    Seqs.FilterNone(items, (n: Notification) => false);
  }

  /** `clearAll`: only read notifications are removed; the counter is left alone. */
  function ClearAll(st: Store): (r: Store)
    ensures forall i :: 0 <= i < |r.items| ==> IsUnread(r.items[i]) && r.items[i] in st.items
    ensures forall i :: 0 <= i < |st.items| && IsUnread(st.items[i]) ==> st.items[i] in r.items
    ensures r.unread == st.unread
  {
    Store(Seqs.Filter(st.items, IsUnread), st.unread)
  }

  /** Clearing keeps the unread notifications in order and keeps a consistent counter right. */
  lemma ClearAllShape(st: Store)
    ensures Seqs.IsSubsequence(ClearAll(st).items, st.items)
    ensures |ClearAll(st).items| == CountUnread(st.items)
    ensures Consistent(st) ==> Consistent(ClearAll(st))
  {
    Seqs.FilterIsSubsequence(st.items, IsUnread);
    Seqs.FilterTwice(st.items, IsUnread);
  }

  /**
   * Clearing a list of read notifications empties it, the save effect then
   * skips the write, and the next load brings back whichever of them are
   * still recent.
   */
  lemma ClearedListReturns(s: Session, user: Option<string>, now: int)
    requires Js.TruthyString(user)
    requires ReadSaved(s.storage, user) == s.store.items
    requires forall i :: 0 <= i < |s.store.items| ==> s.store.items[i].read
    ensures ClearAll(s.store).items == []
    ensures OnUserChange(OnItemsChange(Session(ClearAll(s.store), s.storage), user), user, now).store.items
            == Prune(now, s.store.items)
  {
    Seqs.FilterNone(s.store.items, IsUnread);
  }

  // ---------------------------------------------------------------------------
  // Order events

  /** The customer's wording for a status; a status outside the table is shown as stored. */
  function CustomerStatusLabel(s: Option<OrderStatus>): (r: string)
    ensures s.None? ==> r == "null"
    ensures s == Some(Ready) ==> r == "Ready for Pickup"
    ensures s.Some? && s.value != Ready ==> r == A.SliceName(s.value)
  {
    match s
    case None => "null"
    case Some(Pending) => "Pending"
    case Some(InProgress) => "In Progress"
    case Some(Ready) => "Ready for Pickup"
    case Some(Delivered) => "Delivered"
    case Some(Cancelled) => "Cancelled"
  }

  /** The administrator's wording for a status. */
  function AdminStatusLabel(s: Option<OrderStatus>): (r: string)
    ensures s.None? ==> r == "null"
    ensures s.Some? ==> r == A.SliceName(s.value)
  {
    match s
    case None => "null"
    case Some(Ready) => "Ready"
    case Some(st) => CustomerStatusLabel(s)
  }

  /** `full_name || email || fallback` for a profile that may be missing. */
  function ProfileName(p: Option<ProfileRef>, fallback: string): string {
    if p.None? then fallback
    else Js.OrString(p.value.fullName, Js.OrString(p.value.email, fallback))
  }

  /** A new order seen by an administrator. */
  function NewOrderEvent(orderId: string, customer: Option<ProfileRef>, serviceName: Option<string>): (r: Draft)
    ensures r.kind == OrderKind && r.orderId == Some(orderId)
    ensures Strings.EndsWith(r.message, Js.OrString(serviceName, "a service"))
    ensures Strings.StartsWith(r.message, ProfileName(customer, "A customer"))
  {
    var who := ProfileName(customer, "A customer");
    var what := Js.OrString(serviceName, "a service");
    var msg := who + " ordered " + what;
    assert msg[..|who|] == who && msg[|msg| - |what|..] == what;
    Draft("\U{1F195} New Order Received!", msg, OrderKind, Some(orderId))
  }

  /** A status update on one of the customer's own orders; none unless the status changed. */
  function CustomerStatusEvent(orderId: string, oldStatus: Option<OrderStatus>, newStatus: Option<OrderStatus>,
                               serviceName: Option<string>): (r: Option<Draft>)
    ensures r.Some? <==> oldStatus != newStatus
    ensures r.Some? ==> r.value.kind == OrderKind && r.value.orderId == Some(orderId)
    ensures r.Some? ==> Strings.EndsWith(r.value.message, CustomerStatusLabel(newStatus))
  {
    if oldStatus == newStatus then None
    else
      var shown := CustomerStatusLabel(newStatus);
      var msg := "Your order \"" + Js.Interpolate(serviceName) + "\" is now " + shown;
      assert msg[|msg| - |shown|..] == shown;
      Some(Draft("\U{1F4E6} Order Status Updated", msg, OrderKind, Some(orderId)))
  }

  /** A status update on any order, seen by an administrator; none unless the status changed. */
  function AdminStatusEvent(orderId: string, oldStatus: Option<OrderStatus>, newStatus: Option<OrderStatus>,
                            customer: Option<ProfileRef>, serviceName: Option<string>): (r: Option<Draft>)
    ensures r.Some? <==> oldStatus != newStatus
    ensures r.Some? ==> r.value.kind == OrderKind && r.value.orderId == Some(orderId)
    ensures r.Some? ==> Strings.EndsWith(r.value.message, AdminStatusLabel(newStatus))
  {
    if oldStatus == newStatus then None
    else
      var shown := AdminStatusLabel(newStatus);
      var msg := "Order by " + ProfileName(customer, "customer") + " (" + Js.Interpolate(serviceName) + ") \U{2192} " + shown;
      assert msg[|msg| - |shown|..] == shown;
      Some(Draft("\U{1F4CB} Order Status Changed", msg, OrderKind, Some(orderId)))
  }

  /** A document attached to an order, seen by an administrator. */
  function DocumentEvent(orderId: string, fileName: string): (r: Draft)
    ensures r.kind == OrderKind && r.orderId == Some(orderId)
    ensures Strings.EndsWith(r.message, fileName)
  {
    var msg := "A customer uploaded a new document: " + fileName;
    assert msg[|msg| - |fileName|..] == fileName;
    Draft("\U{1F4C4} New Document Uploaded", msg, OrderKind, Some(orderId))
  }

  /** Only the ready status is worded differently for the two audiences. */
  lemma LabelsDifferOnlyForReady(s: Option<OrderStatus>)
    ensures CustomerStatusLabel(s) != AdminStatusLabel(s) <==> s == Some(Ready)
  {
  }
}

=== FILE: orderdetail.dfy ===
/**
 * The order page shared by customers and administrators: the two document
 * lists, uploading and deleting order documents, which sections are shown,
 * and how the order's id, amount and delivery date are displayed or sent.
 */
module OrderDetail {
  import opened Wrappers
  import Seqs
  import Strings
  import Js
  import Uri
  import opened Schema
  import Services
  import Docs = Documents
  import W = Wizard

  /** An `order_documents` row, as the wizard and this page write it. */
  type OrderDocument = W.DocumentRow

  // ---------------------------------------------------------------------------
  // Document lists

  predicate IsUploaded(d: OrderDocument) {
    d.documentType == "uploaded"
  }

  predicate IsCompleted(d: OrderDocument) {
    d.documentType == "completed"
  }

  predicate IsListed(d: OrderDocument) {
    IsUploaded(d) || IsCompleted(d)
  }

  /** `uploadedDocs`: the customer's documents, matched exactly on the stored type. */
  function UploadedDocs(docs: seq<OrderDocument>): (r: seq<OrderDocument>)
    ensures Seqs.IsSubsequence(r, docs)
    ensures forall d :: d in r <==> d in docs && IsUploaded(d)
  {
    Seqs.FilterIsSubsequence(docs, IsUploaded);
    MembersOfFilter(docs, IsUploaded);
    Seqs.Filter(docs, IsUploaded)
  }

  /** `completedDocs`: the documents the administrator delivered. */
  function CompletedDocs(docs: seq<OrderDocument>): (r: seq<OrderDocument>)
    ensures Seqs.IsSubsequence(r, docs)
    ensures forall d :: d in r <==> d in docs && IsCompleted(d)
  {
    Seqs.FilterIsSubsequence(docs, IsCompleted);
    MembersOfFilter(docs, IsCompleted);
    Seqs.Filter(docs, IsCompleted)
  }

  lemma MembersOfFilter(docs: seq<OrderDocument>, p: OrderDocument -> bool)
    ensures forall d :: d in Seqs.Filter(docs, p) <==> d in docs && p(d)
  {
    forall d {
      Seqs.FilterMember(docs, p, d);
    }
  }

  /** The two lists never share a document, and together they show only the documents of those two types. */
  lemma ListsDisjoint(docs: seq<OrderDocument>)
    ensures |UploadedDocs(docs)| + |CompletedDocs(docs)| == Seqs.Count(docs, IsListed)
    ensures |UploadedDocs(docs)| + |CompletedDocs(docs)| <= |docs|
  {
    Seqs.CountOr(docs, IsUploaded, IsCompleted, IsListed);
  }

  /**
   * A file attached in the order wizard is stored as a photo or a document,
   * so it shows in neither list of the order page.
   */
  lemma WizardUploadsHidden(docs: seq<OrderDocument>, orderId: string, publicUrl: string, f: W.StagedFile)
    ensures var row := W.AttachmentRow(orderId, publicUrl, f);
      && row !in UploadedDocs(docs)
      && row !in CompletedDocs(docs)
  {
  }

  /** The row this page writes for an upload of the given section. */
  function DetailUploadRow(orderId: string, fileName: string, publicUrl: string, completed: bool): (r: OrderDocument)
    ensures IsCompleted(r) <==> completed
    ensures IsUploaded(r) <==> !completed
  {
    W.DocumentRow(orderId, fileName, publicUrl, if completed then "completed" else "uploaded")
  }

  /** An upload made on this page lands in the list of its own section. */
  lemma DetailUploadListed(docs: seq<OrderDocument>, orderId: string, fileName: string, publicUrl: string, completed: bool)
    ensures var row := DetailUploadRow(orderId, fileName, publicUrl, completed);
      && (completed ==> row in CompletedDocs(docs + [row]) && row !in UploadedDocs(docs + [row]))
      && (!completed ==> row in UploadedDocs(docs + [row]) && row !in CompletedDocs(docs + [row]))
  {
    var row := DetailUploadRow(orderId, fileName, publicUrl, completed);
    assert row in docs + [row];
  }

  /** The storage path of a document uploaded here: the uploader, the order, the upload time, the extension. */
  function DetailUploadPath(userId: string, orderId: string, now: nat, fileName: string): (r: string)
    ensures Strings.StartsWith(r, userId + "/" + orderId + "/")
    ensures Strings.EndsWith(r, "." + Docs.Extension(fileName))
  {
    var prefix := userId + "/" + orderId + "/";
    var suffix := "." + Docs.Extension(fileName);
    var r := prefix + Strings.NatToString(now) + suffix;
    assert r[..|prefix|] == prefix;
    assert r[|r| - |suffix|..] == suffix;
    r
  }

  // ---------------------------------------------------------------------------
  // Deleting a document

  const Marker: string := "/documents/"

  /**
   * `fileUrl.split('/documents/')[1]`: the text between the first and the
   * second marker, or to the end; None when the marker does not occur.
   */
  function SecondPart(url: string): (r: Option<string>)
    ensures r.None? <==> Strings.IndexOf(url, Marker).None?
    ensures r.Some? ==> Strings.StartsWith(url[Strings.IndexOf(url, Marker).value + |Marker|..], r.value)
    ensures r.Some? ==> forall j :: !Strings.OccursAt(r.value, Marker, j)
  {
    match Strings.IndexOf(url, Marker)
    case None => None
    case Some(i) =>
      var rest := url[i + |Marker|..];
      match Strings.IndexOf(rest, Marker)
      case None => Some(rest)
      case Some(j) =>
        BeforeFirstMarker(rest, j);
        Some(rest[..j])
  }

  /** The text before the first marker holds no marker. */
  lemma BeforeFirstMarker(s: string, j: nat)
    requires j <= |s| && forall m :: 0 <= m < j ==> !Strings.OccursAt(s, Marker, m)
    ensures forall m :: !Strings.OccursAt(s[..j], Marker, m)
  {
    forall m
      ensures !Strings.OccursAt(s[..j], Marker, m)
    {
      if 0 <= m && m + |Marker| <= j {
        assert |Marker| == 11 && m < j;
        assert !Strings.OccursAt(s, Marker, m);
        assert s[..j][m..m + |Marker|] == s[m..m + |Marker|];
      }
    }
  }

  /** The storage key removed, whether the row delete was sent, and whether the page reports success. */
  datatype DocDelete = DocDelete(removed: Option<string>, rowDeleted: bool, ok: bool)

  /**
   * `handleDelete`: with no text after the marker the storage removal is
   * skipped and the row is still deleted; a malformed escape makes
   * `decodeURIComponent` throw before either delete; the removal's own error
   * is not looked at.
   */
  function DeleteDocument(url: string, rowFails: bool): (r: DocDelete)
    ensures !Js.TruthyString(SecondPart(url)) ==> r == DocDelete(None, true, !rowFails)
    ensures Js.TruthyString(SecondPart(url)) && Uri.Decode(SecondPart(url).value).None? ==> r == DocDelete(None, false, false)
    ensures Js.TruthyString(SecondPart(url)) && Uri.Decode(SecondPart(url).value).Some? ==>
      r == DocDelete(Uri.Decode(SecondPart(url).value), true, !rowFails)
  {
    var part := SecondPart(url);
    if !Js.TruthyString(part) then DocDelete(None, true, !rowFails)
    else
      match Uri.Decode(part.value)
      case None => DocDelete(None, false, false)
      case Some(key) => DocDelete(Some(key), true, !rowFails)
  }

  lemma EncodeNonEmpty(key: string)
    requires key != []
    ensures Uri.Encode(key) != []
  {
    assert |Uri.EncodeChar(key[0])| > 0 by {
      if !Uri.IsUnreserved(key[0]) {
        assert |Uri.EscapeAll(Uri.Utf8(key[0]))| == 3 * |Uri.Utf8(key[0])|;
      }
    }
  }

  /** An encoded key has no slash, so the marker cannot occur in it. */
  lemma NoMarkerInEncoded(key: string)
    ensures Strings.IndexOf(Uri.Encode(key), Marker).None?
  {
    var e := Uri.Encode(key);
    forall i | 0 <= i < |e|
      ensures e[i] != '/'
    {
      assert Uri.IsUnreserved(e[i]) || e[i] == '%';
    }
    assert Marker[0] == '/';
    Strings.NoIndexWithoutHead(e, Marker);
  }

  /** The first marker of a URL whose base names the marker only at its end is that end. */
  lemma FirstMarker(base: string, tail: string)
    requires Strings.IndexOf(base + Marker, Marker) == Some(|base|)
    ensures Strings.IndexOf(base + Marker + tail, Marker) == Some(|base|)
  {
    Strings.IndexOfExtended(base, Marker, tail);
  }

  /**
   * Deleting a document whose public URL is a base followed by the marker
   * and the storage key written out as it is (slashes included) removes
   * exactly that key, provided the key holds no escape and no second marker.
   */
  lemma DeleteFindsKey(base: string, key: string, rowFails: bool)
    requires Strings.IndexOf(base + Marker, Marker) == Some(|base|)
    requires key != [] && '%' !in key && Strings.IndexOf(key, Marker).None?
    ensures DeleteDocument(base + Marker + key, rowFails) == DocDelete(Some(key), true, !rowFails)
  {
    var url := base + Marker + key;
    FirstMarker(base, key);
    assert url[|base| + |Marker|..] == key;
    Uri.DecodeNoEscapes(key);
  }

  /** The same holds when the key follows the marker in its `encodeURIComponent` form. */
  lemma DeleteFindsEncodedKey(base: string, key: string, rowFails: bool)
    requires Strings.IndexOf(base + Marker, Marker) == Some(|base|)
    requires key != []
    ensures DeleteDocument(base + Marker + Uri.Encode(key), rowFails) == DocDelete(Some(key), true, !rowFails)
  {
    var e := Uri.Encode(key);
    var url := base + Marker + e;
    FirstMarker(base, e);
    assert url[|base| + |Marker|..] == e;
    NoMarkerInEncoded(key);
    EncodeNonEmpty(key);
    Uri.DecodeEncode(key);
  }

  /** A folder name: one path segment, with no slash and no escape. */
  predicate IsSegment(s: string) {
    '/' !in s && '%' !in s
  }

  /**
   * Each character of an upload key: the user's folder, a slash, the order's
   * folder, a slash, then digits, a dot and the extension.
   */
  lemma UploadPathChars(userId: string, orderId: string, now: nat, fileName: string)
    ensures var key := DetailUploadPath(userId, orderId, now, fileName);
      && |key| > |userId| + 1 + |orderId|
      && key[|userId|] == '/' && key[|userId| + 1 + |orderId|] == '/'
      && key[|userId| + 1..|userId| + 1 + |orderId|] == orderId
      && (forall i :: 0 <= i < |userId| ==> key[i] == userId[i])
      && (forall i :: |userId| < i < |userId| + 1 + |orderId| ==> key[i] == orderId[i - |userId| - 1])
      && (forall i :: |userId| + 1 + |orderId| < i < |key| ==>
            key[i] == '.' || Strings.IsDigit(key[i]) || key[i] in Docs.Extension(fileName))
  {
    var prefix := userId + "/" + orderId + "/";
    var digits := Strings.NatToString(now);
    var ext := Docs.Extension(fileName);
    var suffix := "." + ext;
    var key := prefix + digits + suffix;
    assert DetailUploadPath(userId, orderId, now, fileName) == key;
    assert key[..|prefix|] == prefix;
    forall i | |prefix| <= i < |key|
      ensures key[i] == '.' || Strings.IsDigit(key[i]) || key[i] in ext
    {
      if i < |prefix| + |digits| {
        assert key[i] == digits[i - |prefix|];
      } else {
        var k := i - |prefix| - |digits|;
        assert key[i] == suffix[k];
        if k > 0 {
          assert suffix[k] == ext[k - 1];
        }
      }
    }
    assert key[|userId| + 1..|userId| + 1 + |orderId|] == prefix[|userId| + 1..|userId| + 1 + |orderId|];
  }

  /** Where the slashes of an upload key are: only after the two folders. */
  lemma UploadPathSlashes(userId: string, orderId: string, now: nat, fileName: string, i: int)
    requires IsSegment(userId) && IsSegment(orderId) && IsSegment(Docs.Extension(fileName))
    requires 0 <= i < |DetailUploadPath(userId, orderId, now, fileName)|
    ensures DetailUploadPath(userId, orderId, now, fileName)[i] != '%'
    ensures DetailUploadPath(userId, orderId, now, fileName)[i] == '/' ==> i == |userId| || i == |userId| + 1 + |orderId|
  {
    UploadPathChars(userId, orderId, now, fileName);
    var key := DetailUploadPath(userId, orderId, now, fileName);
    if i < |userId| {
      assert key[i] in userId;
    } else if |userId| < i < |userId| + 1 + |orderId| {
      assert key[i] in orderId;
    }
  }

  /** The marker is not in an upload key, unless the order's folder is itself named `documents`. */
  lemma NoMarkerInUploadPath(userId: string, orderId: string, now: nat, fileName: string)
    requires IsSegment(userId) && IsSegment(orderId) && IsSegment(Docs.Extension(fileName))
    requires orderId != "documents"
    ensures '%' !in DetailUploadPath(userId, orderId, now, fileName)
    ensures Strings.IndexOf(DetailUploadPath(userId, orderId, now, fileName), Marker).None?
  {
    var key := DetailUploadPath(userId, orderId, now, fileName);
    UploadPathChars(userId, orderId, now, fileName);
    forall i | 0 <= i < |key|
      ensures key[i] != '%'
    {
      UploadPathSlashes(userId, orderId, now, fileName, i);
    }
    forall p
      ensures !Strings.OccursAt(key, Marker, p)
    {
      if Strings.OccursAt(key, Marker, p) {
        MarkerAtFolders(userId, orderId, now, fileName, p);
        assert false;
      }
    }
  }

  /** A marker in an upload key can only span the order's folder, which is then `documents`. */
  lemma MarkerAtFolders(userId: string, orderId: string, now: nat, fileName: string, p: int)
    requires IsSegment(userId) && IsSegment(orderId) && IsSegment(Docs.Extension(fileName))
    requires Strings.OccursAt(DetailUploadPath(userId, orderId, now, fileName), Marker, p)
    ensures orderId == "documents"
  {
    var key := DetailUploadPath(userId, orderId, now, fileName);
    UploadPathChars(userId, orderId, now, fileName);
    var m := key[p..p + |Marker|];
    assert key[p] == m[0] == '/' && key[p + 10] == m[10] == '/';
    UploadPathSlashes(userId, orderId, now, fileName, p);
    UploadPathSlashes(userId, orderId, now, fileName, p + 10);
    assert p == |userId| && |orderId| == 9;
    assert m == Marker;
    forall k | 0 <= k < 9
      ensures orderId[k] == Marker[k + 1]
    {
      assert key[p + 1 + k] == orderId[k];
      assert key[p + 1 + k] == m[k + 1];
    }
    assert Marker[1..10] == "documents";
  }

  /**
   * A document uploaded on this page, whose public URL carries its key after
   * the marker, is deleted by removing exactly the key it was uploaded under.
   */
  lemma DeleteFindsUpload(base: string, userId: string, orderId: string, now: nat, fileName: string, rowFails: bool)
    requires Strings.IndexOf(base + Marker, Marker) == Some(|base|)
    requires IsSegment(userId) && IsSegment(orderId) && IsSegment(Docs.Extension(fileName))
    requires orderId != "documents"
    ensures var key := DetailUploadPath(userId, orderId, now, fileName);
      DeleteDocument(base + Marker + key, rowFails) == DocDelete(Some(key), true, !rowFails)
  {
    UploadPathChars(userId, orderId, now, fileName);
    NoMarkerInUploadPath(userId, orderId, now, fileName);
    DeleteFindsKey(base, DetailUploadPath(userId, orderId, now, fileName), rowFails);
  }

  // ---------------------------------------------------------------------------
  // Sections, header, amount

  /** Which parts of the documents area are drawn. */
  datatype Sections = Sections(area: bool, uploaded: bool, completed: bool)

  /** `service?.show_upload_section`, undefined without a service. */
  function ShowUploadFlag(s: Option<Services.Service>): Option<bool> {
    if s.Some? then s.value.showUploadSection else None
  }

  function ShowCompletedFlag(s: Option<Services.Service>): Option<bool> {
    if s.Some? then s.value.showCompletedSection else None
  }

  /** Administrators see both sections; a customer sees each one unless the service turns it off explicitly. */
  function Visible(isAdmin: bool, s: Option<Services.Service>): (r: Sections)
    ensures isAdmin ==> r.uploaded && r.completed
    ensures !isAdmin ==> (r.uploaded <==> Js.NotFalse(ShowUploadFlag(s)))
    ensures !isAdmin ==> (r.completed <==> Js.NotFalse(ShowCompletedFlag(s)))
    ensures r.area <==> r.uploaded || r.completed
  {
    Sections(
      isAdmin || Js.NotFalse(ShowUploadFlag(s)) || Js.NotFalse(ShowCompletedFlag(s)),
      isAdmin || Js.NotFalse(ShowUploadFlag(s)),
      isAdmin || Js.NotFalse(ShowCompletedFlag(s)))
  }

  /** A service whose flags were never set shows both sections to the customer; the area is empty only when both are off. */
  lemma UnsetFlagsShowBoth(s: Option<Services.Service>)
    requires s.None? || (s.value.showUploadSection.None? && s.value.showCompletedSection.None?)
    ensures Visible(false, s) == Sections(true, true, true)
  {
  }

  /** `order.id.slice(0, 8).toUpperCase()`. */
  function Header(id: string): (r: string)
    ensures |r| == Seqs.Min(8, |id|)
    ensures forall i :: 0 <= i < |r| ==> r[i] == Strings.UpperChar(id[i])
  {
    Strings.Upper(Seqs.Take(id, 8))
  }

  /** `order.total_amount || order.services?.price`: the stored total, else the service price, which may itself be missing. */
  function ShownAmount(o: Order): (r: Option<int>)
    ensures Js.TruthyInt(o.totalAmount) ==> r == o.totalAmount
    ensures !Js.TruthyInt(o.totalAmount) ==> r == ServicePrice(o)
  {
    if Js.TruthyInt(o.totalAmount) then o.totalAmount else ServicePrice(o)
  }

  /** A free order, whose total is stored as null, shows the service's list price instead. */
  lemma FreeOrderShowsListPrice(o: Order, price: int)
    requires o.totalAmount.None? && o.service.Some? && o.service.value.price == Some(price)
    ensures ShownAmount(o) == Some(price)
    ensures Amount(o) == 0
  {
  }

  // ---------------------------------------------------------------------------
  // Delivery date

  /** A calendar day as picked in the date control. */
  datatype Day = Day(year: nat, month: nat, day: nat)

  /** `format(date, 'yyyy-MM-dd')`: zero-padded year, month and day joined by dashes. */
  function FormatDay(d: Day): (r: string)
    ensures |r| >= 10
    ensures forall i :: 0 <= i < |r| ==> Strings.IsDigit(r[i]) || r[i] == '-'
  {
    var y, m, dd := Strings.PadNat(d.year, 4), Strings.PadNat(d.month, 2), Strings.PadNat(d.day, 2);
    var r := y + "-" + m + "-" + dd;
    assert forall i :: 0 <= i < |r| ==>
      r[i] == (if i < |y| then y[i] else if i == |y| then '-' else if i < |y| + 1 + |m| then m[i - |y| - 1]
               else if i == |y| + 1 + |m| then '-' else dd[i - |y| - |m| - 2]);
    r
  }

  /** A day the date picker can produce: a four-digit year, a month and a day of month. */
  predicate Pickable(d: Day) {
    d.year < 10000 && 1 <= d.month <= 12 && 1 <= d.day <= 31
  }

  /** The value sent for the delivery date: the formatted day, or null when the date is cleared. */
  function DeliveryDateValue(picked: Option<Day>): (r: Option<string>)
    ensures r.None? <==> picked.None?
  {
    if picked.Some? then Some(FormatDay(picked.value)) else None
  }

  /** The stored date reads back as the picked day, and a cleared date stores null. */
  lemma DeliveryDateReadsBack(picked: Option<Day>)
    requires picked.Some? ==> Pickable(picked.value)
    ensures picked.None? ==> DeliveryDateValue(picked) == None
    ensures picked.Some? ==> DeliveryDateValue(picked).Some? && ParseDay(DeliveryDateValue(picked).value) == picked
  {
    if picked.Some? {
      FormatRoundTrip(picked.value);
    }
  }

  predicate AllDigits(s: string) {
    forall i :: 0 <= i < |s| ==> Strings.IsDigit(s[i])
  }

  /** Reads a `yyyy-MM-dd` string back into its three numbers; anything else is None. */
  function ParseDay(s: string): (r: Option<Day>)
    ensures r.Some? <==> |s| == 10 && s[4] == '-' && s[7] == '-' && AllDigits(s[..4]) && AllDigits(s[5..7]) && AllDigits(s[8..])
  {
    if |s| == 10 && s[4] == '-' && s[7] == '-' && AllDigits(s[..4]) && AllDigits(s[5..7]) && AllDigits(s[8..]) then
      Some(Day(Strings.DigitsValue(s[..4]), Strings.DigitsValue(s[5..7]), Strings.DigitsValue(s[8..])))
    else None
  }

  /** Every day with a four-digit year and two-digit month and day is sent as ten characters that read back as the same day. */
  lemma FormatRoundTrip(d: Day)
    requires d.year < 10000 && d.month < 100 && d.day < 100
    ensures |FormatDay(d)| == 10
    ensures ParseDay(FormatDay(d)) == Some(d)
  {
    var y, m, dd := Strings.PadNat(d.year, 4), Strings.PadNat(d.month, 2), Strings.PadNat(d.day, 2);
    Strings.PadNatValue(d.year, 4);
    Strings.PadNatValue(d.month, 2);
    Strings.PadNatValue(d.day, 2);
    assert Strings.Pow10(4) == 10000 && Strings.Pow10(2) == 100;
    var s := y + "-" + m + "-" + dd;
    assert s[..4] == y && s[5..7] == m && s[8..] == dd;
  }
}

=== FILE: orders.dfy ===
/**
 * The order queries and the create-order mutation: how a new order row is
 * normalised before insertion, and how the administrator's order list is
 * joined with customer profiles.
 */
module OrderQueries {
  import opened Wrappers
  import Seqs
  import Js
  import opened Schema

  /** Form details, field id to entered text. */
  type Details = map<string, string>

  /** What a page passes to the create-order mutation; every field but the service may be undefined. */
  datatype OrderRequest = OrderRequest(serviceId: string, details: Option<Details>, notes: Option<string>, totalAmount: Option<int>)

  /** The row inserted into `orders`. */
  datatype OrderRow = OrderRow(serviceId: string, details: Option<Details>, notes: Option<string>, totalAmount: Option<int>, userId: string)

  /** `useCreateOrder`'s insert: an error without a signed-in user, else the request with falsy values turned into null. */
  function CreateOrderRow(req: OrderRequest, user: Option<string>): (r: Result<OrderRow, string>)
    ensures user.None? <==> r.Err?
    ensures r.Err? ==> r.error == "User not authenticated"
    ensures r.Ok? ==> r.value.userId == user.value && r.value.serviceId == req.serviceId
    ensures r.Ok? ==> r.value.details == req.details
    ensures r.Ok? ==> (r.value.notes.None? <==> !Js.TruthyString(req.notes))
    ensures r.Ok? ==> (r.value.totalAmount.None? <==> !Js.TruthyInt(req.totalAmount))
    ensures r.Ok? && r.value.notes.Some? ==> r.value.notes == req.notes
    ensures r.Ok? && r.value.totalAmount.Some? ==> r.value.totalAmount == req.totalAmount
  {
    if user.None? then Err("User not authenticated")
    else Ok(OrderRow(req.serviceId, req.details, Js.NullIfEmpty(req.notes), Js.NullIfZero(req.totalAmount), user.value))
  }

  /** A free order is stored with no amount at all. */
  lemma ZeroTotalStoredAsNull(serviceId: string, user: string)
    ensures CreateOrderRow(OrderRequest(serviceId, None, None, Some(0)), Some(user)).value.totalAmount == None
  {
  }

  /** A `profiles` row as fetched for the administrator's order list. */
  datatype Profile = Profile(id: string, fullName: Option<string>, email: Option<string>, phone: Option<string>)

  /** `profiles.find(p => p.id === userId)`: the first profile with the id. */
  function FindProfile(profiles: seq<Profile>, userId: string): (r: Option<nat>)
    ensures r.Some? ==> r.value < |profiles| && profiles[r.value].id == userId
    ensures r.Some? ==> forall j :: 0 <= j < r.value ==> profiles[j].id != userId
    ensures r.None? ==> forall j :: 0 <= j < |profiles| ==> profiles[j].id != userId
  {
    if |profiles| == 0 then None
    else if profiles[0].id == userId then Some(0)
    else
      match FindProfile(profiles[1..], userId)
      case None => None
      case Some(k) => Some(k + 1)
  }

  function AsRef(p: Profile): ProfileRef {
    ProfileRef(p.fullName, p.email, p.phone)
  }

  /** One order with its customer's profile, or null when none has its user id. */
  function Attach(o: Order, profiles: seq<Profile>): Order {
    match FindProfile(profiles, o.userId)
    case None => o.(profile := None)
    case Some(k) => o.(profile := Some(AsRef(profiles[k])))
  }

  /** The merge in `useAllOrders`: the orders in fetched order, each with its profile attached. */
  function MergeProfiles(orders: seq<Order>, profiles: seq<Profile>): (r: seq<Order>)
    ensures |r| == |orders|
    ensures forall i :: 0 <= i < |r| ==> r[i].(profile := orders[i].profile) == orders[i]
    ensures forall i :: 0 <= i < |r| ==>
      (r[i].profile.None? <==> forall j :: 0 <= j < |profiles| ==> profiles[j].id != orders[i].userId)
  {
    Seqs.Map(orders, o => Attach(o, profiles))
  }

  /** The attached profile is the first matching one, whatever other profiles share its id. */
  lemma MergeTakesFirst(orders: seq<Order>, profiles: seq<Profile>, i: nat, j: nat)
    requires i < |orders| && j < |profiles| && profiles[j].id == orders[i].userId
    requires forall k :: 0 <= k < j ==> profiles[k].id != orders[i].userId
    ensures MergeProfiles(orders, profiles)[i].profile == Some(AsRef(profiles[j]))
  {
    var found := FindProfile(profiles, orders[i].userId);
    assert found == Some(j);
  }

  function UserIdsOf(orders: seq<Order>): seq<string> {
    Seqs.Map(orders, (o: Order) => o.userId)
  }

  /** `[...new Set(ids)]`: the ids without repeats, in order of first occurrence. */
  function Dedup(ids: seq<string>): (r: seq<string>)
    ensures forall i, j :: 0 <= i < j < |r| ==> r[i] != r[j]
    ensures forall x :: x in r <==> x in ids
    ensures |r| <= |ids|
  {
    if |ids| == 0 then []
    else
      var init := Dedup(ids[..|ids| - 1]);
      var x := ids[|ids| - 1];
      assert ids == ids[..|ids| - 1] + [x];
      if x in init then init else init + [x]
  }

  /** Ids already free of repeats come back unchanged. */
  lemma {:induction false} DedupDistinct(ids: seq<string>)
    requires forall i, j :: 0 <= i < j < |ids| ==> ids[i] != ids[j]
    ensures Dedup(ids) == ids
  {
    if |ids| > 0 {
      var init := ids[..|ids| - 1];
      DedupDistinct(init);
      assert ids[|ids| - 1] !in init;
      assert ids == init + [ids[|ids| - 1]];
    }
  }

  /** The profile lookup asks for each customer of the listed orders exactly once. */
  lemma ProfileLookupIds(orders: seq<Order>)
    ensures forall u :: u in Dedup(UserIdsOf(orders)) <==> exists i :: 0 <= i < |orders| && orders[i].userId == u
  {
    var ids := UserIdsOf(orders);
    forall u
      ensures u in ids <==> exists i :: 0 <= i < |orders| && orders[i].userId == u
    {
      if u in ids {
        var k :| 0 <= k < |ids| && ids[k] == u;
        assert orders[k].userId == u;
      }
    }
  }
}

=== FILE: profile.dfy ===
/**
 * The customer's profile page: the editable fields and what a save writes,
 * the password form's validation, and the checks, storage path and stored
 * URL of an avatar upload.
 */
module Profile {
  import opened Wrappers
  import Strings
  import Js
  import W = Wizard
  import Docs = Documents

  // ---------------------------------------------------------------------------
  // Profile form

  /** A `profiles` row as the page reads it. */
  datatype ProfileRow = ProfileRow(
    id: string,
    fullName: Option<string>,
    email: Option<string>,
    phone: Option<string>,
    address: Option<string>,
    avatarUrl: Option<string>)

  /** The page's form: every field a string, a null shown as empty. */
  datatype ProfileForm = ProfileForm(fullName: string, phone: string, address: string, avatarUrl: string)

  /** The form before the row arrives. */
  const EmptyForm: ProfileForm := ProfileForm("", "", "", "")

  /** The form filled from the fetched row, `|| ''` on each field. */
  function LoadForm(p: ProfileRow): (r: ProfileForm)
    ensures r.fullName == Js.OrString(p.fullName, "") && r.phone == Js.OrString(p.phone, "")
    ensures r.address == Js.OrString(p.address, "") && r.avatarUrl == Js.OrString(p.avatarUrl, "")
  {
    ProfileForm(Js.OrString(p.fullName, ""), Js.OrString(p.phone, ""), Js.OrString(p.address, ""), Js.OrString(p.avatarUrl, ""))
  }

  /** The columns an update writes; None leaves a column as it is. */
  datatype ProfileUpdate = ProfileUpdate(
    fullName: Option<string>,
    phone: Option<string>,
    address: Option<string>,
    avatarUrl: Option<string>)

  /** The row after an update. */
  function Apply(p: ProfileRow, u: ProfileUpdate): (r: ProfileRow)
    ensures r.id == p.id && r.email == p.email
    ensures u.fullName.None? ==> r.fullName == p.fullName
    ensures u.phone.None? ==> r.phone == p.phone
    ensures u.address.None? ==> r.address == p.address
    ensures u.avatarUrl.None? ==> r.avatarUrl == p.avatarUrl
  {
    ProfileRow(
      p.id,
      if u.fullName.Some? then u.fullName else p.fullName,
      p.email,
      if u.phone.Some? then u.phone else p.phone,
      if u.address.Some? then u.address else p.address,
      if u.avatarUrl.Some? then u.avatarUrl else p.avatarUrl)
  }

  /** `handleSave`: without a signed-in user nothing is sent; otherwise name, phone and address, and nothing else. */
  function SaveUpdate(user: Option<string>, f: ProfileForm): (r: Option<ProfileUpdate>)
    ensures r.None? <==> user.None?
    ensures r.Some? ==> r.value.fullName == Some(f.fullName) && r.value.phone == Some(f.phone) && r.value.address == Some(f.address)
    ensures r.Some? ==> r.value.avatarUrl.None?
  {
    if user.None? then None else Some(ProfileUpdate(Some(f.fullName), Some(f.phone), Some(f.address), None))
  }

  /**
   * Saving the form as loaded writes the same values back, except that a null
   * or empty name, phone or address becomes the empty string; the email and
   * the avatar are never touched.
   */
  lemma SaveLoadedForm(p: ProfileRow, user: string)
    ensures var row := Apply(p, SaveUpdate(Some(user), LoadForm(p)).value);
      && row.email == p.email && row.avatarUrl == p.avatarUrl
      && row.fullName == Some(Js.OrString(p.fullName, ""))
      && row.phone == Some(Js.OrString(p.phone, ""))
      && row.address == Some(Js.OrString(p.address, ""))
      && LoadForm(row).(avatarUrl := "") == LoadForm(p).(avatarUrl := "")
  {
  }

  // ---------------------------------------------------------------------------
  // Password form

  const MinPasswordLength: nat := 6
  const TooShortMessage: string := "Password must be at least 6 characters"
  const MismatchMessage: string := "Passwords do not match"

  /** The messages shown under the two password boxes. */
  datatype PasswordErrors = PasswordErrors(newPassword: Option<string>, confirmPassword: Option<string>)

  /** `validatePasswordForm`: a length check in UTF-16 code units, then an exact comparison. */
  function ValidatePassword(newPassword: string, confirmPassword: string): (r: PasswordErrors)
    ensures r.newPassword.Some? <==> Strings.Utf16Length(newPassword) < MinPasswordLength
    ensures r.newPassword.Some? ==> r.newPassword.value == TooShortMessage
    ensures r.confirmPassword.Some? <==> newPassword != confirmPassword
    ensures r.confirmPassword.Some? ==> r.confirmPassword.value == MismatchMessage
  {
    PasswordErrors(
      if Strings.Utf16Length(newPassword) < MinPasswordLength then Some(TooShortMessage) else None,
      if newPassword != confirmPassword then Some(MismatchMessage) else None)
  }

  predicate NoErrors(e: PasswordErrors) {
    e.newPassword.None? && e.confirmPassword.None?
  }

  /** The form is accepted exactly when the new password is long enough and typed the same twice. */
  lemma PasswordAccepted(newPassword: string, confirmPassword: string)
    ensures NoErrors(ValidatePassword(newPassword, confirmPassword))
      <==> Strings.Utf16Length(newPassword) >= 6 && newPassword == confirmPassword
    ensures |newPassword| >= 6 ==> ValidatePassword(newPassword, confirmPassword).newPassword.None?
    ensures |newPassword| < 3 ==> ValidatePassword(newPassword, confirmPassword).newPassword.Some?
  {
  }

  /** The two password boxes. */
  datatype PasswordForm = PasswordForm(newPassword: string, confirmPassword: string)

  /** What a change attempt sends and leaves in the form. */
  datatype PasswordChange = PasswordChange(sent: Option<string>, form: PasswordForm, errors: PasswordErrors)

  /** `handleChangePassword`: nothing is sent for an invalid form; after a successful change both boxes are cleared. */
  function ChangePassword(f: PasswordForm, rejected: bool): (r: PasswordChange)
    ensures r.sent.Some? <==> NoErrors(ValidatePassword(f.newPassword, f.confirmPassword))
    ensures r.sent.Some? ==> r.sent.value == f.newPassword
    ensures r.sent.Some? && !rejected ==> r.form == PasswordForm("", "")
    ensures r.sent.None? || rejected ==> r.form == f
  {
    var e := ValidatePassword(f.newPassword, f.confirmPassword);
    if !NoErrors(e) then PasswordChange(None, f, e)
    else if rejected then PasswordChange(Some(f.newPassword), f, e)
    else PasswordChange(Some(f.newPassword), PasswordForm("", ""), PasswordErrors(None, None))
  }

  /** After a successful change the cleared form is refused, so the same change cannot be sent twice by accident. */
  lemma ClearedFormRefused(f: PasswordForm)
    ensures ChangePassword(f, false).sent.Some? ==> ChangePassword(ChangePassword(f, false).form, false).sent.None?
  {
    assert Strings.Utf16Length("") == 0;
  }

  // ---------------------------------------------------------------------------
  // Avatar

  const MaxAvatarBytes: nat := 2 * 1024 * 1024

  /** The outcome of picking an avatar file. */
  datatype AvatarCheck = Ignored | NotAnImage | TooLarge | Upload(path: string)

  /** `user.id/avatar.ext`: one key per user and extension, overwritten on every upload. */
  function AvatarPath(userId: string, fileName: string): (r: string)
    ensures Strings.StartsWith(r, userId + "/avatar.")
  {
    var prefix := userId + "/avatar.";
    var r := prefix + Docs.Extension(fileName);
    assert r[..|prefix|] == prefix;
    r
  }

  /** `handleAvatarUpload` before any upload: the type is checked first, then the 2 MiB limit. */
  function CheckAvatar(file: Option<W.PickedFile>, user: Option<string>): (r: AvatarCheck)
    ensures file.None? || user.None? ==> r == Ignored
    ensures file.Some? && user.Some? && !W.IsImage(file.value) ==> r == NotAnImage
    ensures file.Some? && user.Some? && W.IsImage(file.value) && file.value.size > MaxAvatarBytes ==> r == TooLarge
    ensures r.Upload? <==> file.Some? && user.Some? && W.IsImage(file.value) && file.value.size <= MaxAvatarBytes
    ensures r.Upload? ==> r.path == AvatarPath(user.value, file.value.name)
  {
    if file.None? || user.None? then Ignored
    else if !W.IsImage(file.value) then NotAnImage
    else if file.value.size > MaxAvatarBytes then TooLarge
    else Upload(AvatarPath(user.value, file.value.name))
  }

  /** Every avatar the profile page accepts would also be accepted by the order wizard's 10 MiB limit. */
  lemma AvatarFitsWizard(f: W.PickedFile, user: string)
    requires CheckAvatar(Some(f), Some(user)).Upload?
    ensures W.Fits(f)
  {
  }

  /** The stored path keeps the picked file's extension, so its icon is the file's own. */
  lemma AvatarKeepsExtension(userId: string, fileName: string)
    ensures Docs.Extension(AvatarPath(userId, fileName)) == Docs.Extension(fileName)
    ensures Docs.FileIcon(AvatarPath(userId, fileName)) == Docs.FileIcon(fileName)
  {
    var ext := Docs.Extension(fileName);
    assert AvatarPath(userId, fileName) == (userId + "/avatar") + ['.'] + ext;
    Strings.AfterLastOfSuffix(userId + "/avatar", '.', ext);
  }

  /** The cache-busting URL stored in the profile: the public URL and `?t=` with the upload time. */
  function AvatarUrl(publicUrl: string, now: nat): (r: string)
    ensures Strings.StartsWith(r, publicUrl + "?t=")
  {
    var prefix := publicUrl + "?t=";
    var r := prefix + Strings.NatToString(now);
    assert r[..|prefix|] == prefix;
    r
  }

  /** The upload time is read back from the stored URL's last parameter. */
  lemma AvatarUrlTime(publicUrl: string, now: nat)
    ensures var t := Strings.AfterLast(AvatarUrl(publicUrl, now), '=');
      (forall i :: 0 <= i < |t| ==> Strings.IsDigit(t[i])) && Strings.DigitsValue(t) == now
  {
    var d := Strings.NatToString(now);
    forall i | 0 <= i < |d|
      ensures d[i] != '='
    {
      assert Strings.IsDigit(d[i]);
    }
    assert AvatarUrl(publicUrl, now) == (publicUrl + "?t") + ['='] + d;
    Strings.AfterLastOfSuffix(publicUrl + "?t", '=', d);
    Strings.NatToStringValue(now);
  }

  /** The profile update written after the upload: the avatar URL only. */
  function AvatarUpdate(url: string): (r: ProfileUpdate)
    ensures r.avatarUrl == Some(url) && r.fullName.None? && r.phone.None? && r.address.None?
  {
    ProfileUpdate(None, None, None, Some(url))
  }
}

=== FILE: schema.dfy ===
/**
 * The database enums and the order, service and profile records the pages
 * read, with the stored spelling of each enum value.
 */
module Schema {
  import opened Wrappers

  /** `app_role`. */
  datatype AppRole = Admin | User

  /** `order_status`. */
  datatype OrderStatus = Pending | InProgress | Ready | Delivered | Cancelled

  /** `service_category`. */
  datatype ServiceCategory = Printing | Certificates | Bills | MpOnline

  function RoleKey(r: AppRole): string {
    match r
    case Admin => "admin"
    case User => "user"
  }

  function StatusKey(s: OrderStatus): string {
    match s
    case Pending => "pending"
    case InProgress => "in_progress"
    case Ready => "ready"
    case Delivered => "delivered"
    case Cancelled => "cancelled"
  }

  function CategoryKey(c: ServiceCategory): string {
    match c
    case Printing => "printing"
    case Certificates => "certificates"
    case Bills => "bills"
    case MpOnline => "mp_online"
  }

  /** Reads a stored status; None for any text that is not one of the five values. */
  function ParseStatus(k: string): (r: Option<OrderStatus>)
    ensures r.Some? ==> StatusKey(r.value) == k
  {
    if k == "pending" then Some(Pending)
    else if k == "in_progress" then Some(InProgress)
    else if k == "ready" then Some(Ready)
    else if k == "delivered" then Some(Delivered)
    else if k == "cancelled" then Some(Cancelled)
    else None
  }

  /** Reads a stored category; None for any other text. */
  function ParseCategory(k: string): (r: Option<ServiceCategory>)
    ensures r.Some? ==> CategoryKey(r.value) == k
  {
    if k == "printing" then Some(Printing)
    else if k == "certificates" then Some(Certificates)
    else if k == "bills" then Some(Bills)
    else if k == "mp_online" then Some(MpOnline)
    else None
  }

  /** Every status survives a write and a read back. */
  lemma StatusRoundTrip(s: OrderStatus)
    ensures ParseStatus(StatusKey(s)) == Some(s)
  {
  }

  /** Every category survives a write and a read back. */
  lemma CategoryRoundTrip(c: ServiceCategory)
    ensures ParseCategory(CategoryKey(c)) == Some(c)
  {
  }

  /** The joined `services(name, category, price)` columns of an order row. */
  datatype ServiceRef = ServiceRef(name: Option<string>, category: Option<ServiceCategory>, price: Option<int>)

  /** The joined `profiles(full_name, email, phone)` columns of an order row. */
  datatype ProfileRef = ProfileRef(fullName: Option<string>, email: Option<string>, phone: Option<string>)

  /** An `orders` row with the joins the pages select; timestamps are milliseconds, and the nullable columns are options. */
  datatype Order = Order(
    id: string,
    userId: string,
    serviceId: Option<string>,
    status: Option<OrderStatus>,
    totalAmount: Option<int>,
    createdAt: Option<int>,
    service: Option<ServiceRef>,
    profile: Option<ProfileRef>)

  /** `order.total_amount || 0`, the amount every revenue sum adds. */
  function Amount(o: Order): int {
    if o.totalAmount.Some? then o.totalAmount.value else 0
  }

  /** `order.services?.name`. */
  function ServiceName(o: Order): Option<string> {
    if o.service.Some? then o.service.value.name else None
  }

  /** `order.services?.category`. */
  function Category(o: Order): Option<ServiceCategory> {
    if o.service.Some? then o.service.value.category else None
  }

  /** `order.services?.price`. */
  function ServicePrice(o: Order): Option<int> {
    if o.service.Some? then o.service.value.price else None
  }

  predicate HasStatus(o: Order, s: OrderStatus) {
    o.status == Some(s)
  }

  /** A status select: "all", or one status that must match exactly. */
  datatype StatusFilter = AnyStatus | Only(status: OrderStatus)

  predicate StatusMatches(f: StatusFilter, o: Order) {
    f.AnyStatus? || o.status == Some(f.status)
  }
}

=== FILE: seo.dfy ===
/**
 * The search-engine helpers: which meta tags a page writes and with which
 * attribute, and the schema.org records built for services, FAQs,
 * breadcrumbs and articles.
 */
module Seo {
  import opened Wrappers
  import Seqs
  import Strings
  import Js

  // ---------------------------------------------------------------------------
  // Meta tags

  /** The attribute a meta element is keyed by. */
  datatype Attr = NameAttr | PropertyAttr

  /** Open Graph and article tags are `property` tags; all others are `name` tags. */
  function AttributeFor(name: string): (r: Attr)
    ensures r == PropertyAttr <==> Strings.StartsWith(name, "og:") || Strings.StartsWith(name, "article:")
  {
    if Strings.StartsWith(name, "og:") || Strings.StartsWith(name, "article:") then PropertyAttr else NameAttr
  }

  datatype MetaElement = MetaElement(attr: Attr, content: string)

  /** The page's meta elements, found by the name or property they carry. */
  type Head = map<string, MetaElement>

  /** `updateMetaTag`: an existing element keeps its attribute and takes the content; a missing one is created. */
  function UpdateMetaTag(h: Head, name: string, content: string): (r: Head)
    ensures name in r && r[name].content == content
    ensures name in h ==> r[name].attr == h[name].attr
    ensures name !in h ==> r[name].attr == AttributeFor(name)
    ensures forall k :: k in h && k != name ==> k in r && r[k] == h[k]
    ensures r.Keys == h.Keys + {name}
  {
    if name in h then h[name := h[name].(content := content)]
    else h[name := MetaElement(AttributeFor(name), content)]
  }

  /** The tags `updateMetaTags` may write. */
  datatype MetaTag =
    | OgTitle | TwitterTitle | Description | OgDescription | TwitterDescription | Keywords
    | OgImage | TwitterImage | OgUrl | OgType | Author | PublishedTime | ModifiedTime

  function TagName(t: MetaTag): string {
    match t
    case OgTitle => "og:title"
    case TwitterTitle => "twitter:title"
    case Description => "description"
    case OgDescription => "og:description"
    case TwitterDescription => "twitter:description"
    case Keywords => "keywords"
    case OgImage => "og:image"
    case TwitterImage => "twitter:image"
    case OgUrl => "og:url"
    case OgType => "og:type"
    case Author => "author"
    case PublishedTime => "article:published_time"
    case ModifiedTime => "article:modified_time"
  }

  /** Different tags have different names. */
  lemma TagNameInjective(t1: MetaTag, t2: MetaTag)
    requires TagName(t1) == TagName(t2)
    ensures t1 == t2
  {
    var n := TagName(t1);
    assert |n| == |TagName(t2)| && n[0] == TagName(t2)[0];
    if |n| >= 5 {
      assert n[3] == TagName(t2)[3] && n[4] == TagName(t2)[4];
    }
    if |n| >= 9 {
      assert n[8] == TagName(t2)[8];
    }
  }

  /** One planned tag write: always made, or made only for a non-empty value. */
  datatype Planned = Planned(tag: MetaTag, value: Option<string>, always: bool)

  function Content(p: Planned): string {
    if p.value.Some? then p.value.value else ""
  }

  predicate Goes(p: Planned) {
    p.always || Js.TruthyString(p.value)
  }

  /** The page settings `updateMetaTags` takes; the optional ones are written only when non-empty. */
  datatype SeoConfig = SeoConfig(
    title: string,
    description: string,
    keywords: Option<string>,
    image: Option<string>,
    url: Option<string>,
    pageType: Option<string>,
    author: Option<string>,
    publishedDate: Option<string>,
    modifiedDate: Option<string>)

  /** The five calls `updateMetaTags` always makes: the title and the description tags. */
  function Fixed(c: SeoConfig): seq<Planned> {
    [ Planned(OgTitle, Some(c.title), true), Planned(TwitterTitle, Some(c.title), true),
      Planned(Description, Some(c.description), true), Planned(OgDescription, Some(c.description), true),
      Planned(TwitterDescription, Some(c.description), true) ]
  }

  /** The eight calls made only for a non-empty setting. */
  function Optional(c: SeoConfig): seq<Planned> {
    [ Planned(Keywords, c.keywords, false), Planned(OgImage, c.image, false), Planned(TwitterImage, c.image, false),
      Planned(OgUrl, c.url, false), Planned(OgType, c.pageType, false), Planned(Author, c.author, false),
      Planned(PublishedTime, c.publishedDate, false), Planned(ModifiedTime, c.modifiedDate, false) ]
  }

  /** Every call of `updateMetaTags`, in order, with its guard. */
  function Plan(c: SeoConfig): seq<Planned> {
    Fixed(c) + Optional(c)
  }

  /** The planned writes `updateMetaTags` carries out, in order. */
  function Performed(c: SeoConfig): (r: seq<Planned>)
    ensures forall p :: p in r <==> p in Plan(c) && Goes(p)
  {
    forall p
      ensures p in Seqs.Filter(Plan(c), Goes) <==> p in Plan(c) && Goes(p)
    {
      Seqs.FilterMember(Plan(c), Goes, p);
    }
    Seqs.Filter(Plan(c), Goes)
  }

  /** One `updateMetaTag` call: a tag name and the content written to it. */
  datatype Write = Write(name: string, content: string)

  function ToWrite(p: Planned): Write {
    Write(TagName(p.tag), Content(p))
  }

  /** The `updateMetaTag` calls of `updateMetaTags`, in order. */
  function MetaWrites(c: SeoConfig): seq<Write> {
    Seqs.Map(Performed(c), ToWrite)
  }

  /** The writes applied one after the other. */
  function ApplyAll(h: Head, ws: seq<Write>): Head
    decreases |ws|
  {
    if |ws| == 0 then h else UpdateMetaTag(ApplyAll(h, ws[..|ws| - 1]), ws[|ws| - 1].name, ws[|ws| - 1].content)
  }

  predicate Written(ws: seq<Write>, name: string) {
    exists i :: 0 <= i < |ws| && ws[i].name == name
  }

  predicate DistinctNames(ws: seq<Write>) {
    forall i, j :: 0 <= i < j < |ws| ==> ws[i].name != ws[j].name
  }

  /** The writes add exactly the written names to the head. */
  lemma {:induction false} ApplyAllKeys(h: Head, ws: seq<Write>)
    ensures forall k :: k in ApplyAll(h, ws) <==> k in h || Written(ws, k)
    decreases |ws|
  {
    if |ws| > 0 {
      var init := ws[..|ws| - 1];
      ApplyAllKeys(h, init);
      forall k
        ensures Written(ws, k) <==> Written(init, k) || k == ws[|ws| - 1].name
      {
        if Written(init, k) {
          var i :| 0 <= i < |init| && init[i].name == k;
          assert ws[i] == init[i];
        }
        if Written(ws, k) {
          var i :| 0 <= i < |ws| && ws[i].name == k;
          if i < |init| {
            assert ws[i] == init[i];
          }
        }
      }
    }
  }

  /** An element no write names keeps its old value. */
  lemma {:induction false} ApplyAllUntouched(h: Head, ws: seq<Write>, k: string)
    requires k in h && !Written(ws, k)
    ensures k in ApplyAll(h, ws) && ApplyAll(h, ws)[k] == h[k]
    decreases |ws|
  {
    if |ws| > 0 {
      var init := ws[..|ws| - 1];
      assert !Written(init, k) by {
        forall i | 0 <= i < |init|
          ensures init[i].name != k
        {
          assert init[i] == ws[i];
        }
      }
      ApplyAllUntouched(h, init, k);
      assert ws[|ws| - 1].name != k;
    }
  }

  /** An element already in the head keeps its attribute, whatever is written to it. */
  lemma {:induction false} ApplyAllKeepsAttr(h: Head, ws: seq<Write>, k: string)
    requires k in h
    ensures k in ApplyAll(h, ws) && ApplyAll(h, ws)[k].attr == h[k].attr
    decreases |ws|
  {
    if |ws| > 0 {
      ApplyAllKeepsAttr(h, ws[..|ws| - 1], k);
    }
  }

  /** The names written after position i are not its name. */
  lemma DistinctTail(ws: seq<Write>, i: int)
    requires DistinctNames(ws) && 0 <= i < |ws|
    ensures !Written(ws[i + 1..], ws[i].name)
  {
  }

  /** Applying one more write is one more `updateMetaTag` call. */
  lemma ApplyAllSnoc(h: Head, init: seq<Write>, w: Write)
    ensures ApplyAll(h, init + [w]) == UpdateMetaTag(ApplyAll(h, init), w.name, w.content)
  {
    assert (init + [w])[..|init|] == init;
  }

  /** Applying a sequence of writes is applying its two halves in turn. */
  lemma {:induction false} ApplyAllSplit(h: Head, ws: seq<Write>, n: nat)
    requires n <= |ws|
    ensures ApplyAll(h, ws) == ApplyAll(ApplyAll(h, ws[..n]), ws[n..])
    decreases |ws|
  {
    if |ws| > n {
      var init, w := ws[..|ws| - 1], ws[|ws| - 1];
      Seqs.Snoc(ws);
      Seqs.CutSnoc(ws, n);
      ApplyAllSplit(h, init, n);
      ApplyAllSnoc(h, init, w);
      ApplyAllSnoc(ApplyAll(h, ws[..n]), init[n..], w);
    } else {
      assert ws[..n] == ws;
    }
  }

  /** With distinct names, every written element ends with its content; one created has the attribute its name calls for. */
  lemma ApplyAllWritten(h: Head, ws: seq<Write>, i: int)
    requires DistinctNames(ws) && 0 <= i < |ws|
    ensures ws[i].name in ApplyAll(h, ws) && ApplyAll(h, ws)[ws[i].name].content == ws[i].content
    ensures ws[i].name in h ==> ApplyAll(h, ws)[ws[i].name].attr == h[ws[i].name].attr
    ensures ws[i].name !in h ==> ApplyAll(h, ws)[ws[i].name].attr == AttributeFor(ws[i].name)
  {
    var name := ws[i].name;
    ApplyAllSplit(h, ws, i + 1);
    var mid := ApplyAll(h, ws[..i + 1]);
    assert ws[..i + 1][..i] == ws[..i];
    if name in h {
      ApplyAllKeepsAttr(h, ws[..i], name);
    } else {
      assert !Written(ws[..i], name) by {
        forall j | 0 <= j < i
          ensures ws[..i][j].name != name
        {
          assert ws[..i][j] == ws[j];
        }
      }
      ApplyAllKeys(h, ws[..i]);
    }
    DistinctTail(ws, i);
    ApplyAllUntouched(mid, ws[i + 1..], name);
  }

  /** The page title and the head after `updateMetaTags`. */
  function UpdateMetaTags(h: Head, c: SeoConfig): (r: (string, Head))
    ensures r.0 == c.title
  {
    (c.title, ApplyAll(h, MetaWrites(c)))
  }

  predicate DistinctTags(ps: seq<Planned>) {
    forall i, j :: 0 <= i < j < |ps| ==> ps[i].tag != ps[j].tag
  }

  lemma PlanDistinct(c: SeoConfig)
    ensures DistinctTags(Plan(c))
  {
  }

  /** Dropping writes from a plan keeps its tags distinct. */
  lemma FilterDistinct(ps: seq<Planned>, keep: Planned -> bool)
    requires DistinctTags(ps)
    ensures DistinctTags(Seqs.Filter(ps, keep))
  {
    var r := Seqs.Filter(ps, keep);
    Seqs.FilterEmbeds(ps, keep);
    var idx := Seqs.KeptIndices(ps, keep);
    forall i, j | 0 <= i < j < |r|
      ensures r[i].tag != r[j].tag
    {
      assert r[i] == ps[idx[i]] && r[j] == ps[idx[j]] && idx[i] < idx[j];
    }
  }

  /** Distinct tags make calls with distinct names. */
  lemma MapDistinct(ps: seq<Planned>)
    requires DistinctTags(ps)
    ensures DistinctNames(Seqs.Map(ps, ToWrite))
  {
    var ws := Seqs.Map(ps, ToWrite);
    forall i, j | 0 <= i < j < |ws|
      ensures ws[i].name != ws[j].name
    {
      if ws[i].name == ws[j].name {
        TagNameInjective(ps[i].tag, ps[j].tag);
      }
    }
  }

  /** The calls of `updateMetaTags` name distinct tags. */
  lemma WritesDistinct(c: SeoConfig)
    ensures DistinctNames(MetaWrites(c))
  {
    PlanDistinct(c);
    FilterDistinct(Plan(c), Goes);
    MapDistinct(Performed(c));
  }

  /** The content a tag holds after `updateMetaTags`, when the tag is written; one created has the attribute its name calls for. */
  lemma WrittenContent(h: Head, c: SeoConfig, p: Planned)
    requires p in Plan(c) && Goes(p)
    ensures TagName(p.tag) in UpdateMetaTags(h, c).1 && UpdateMetaTags(h, c).1[TagName(p.tag)].content == Content(p)
    ensures TagName(p.tag) !in h ==> UpdateMetaTags(h, c).1[TagName(p.tag)].attr == AttributeFor(TagName(p.tag))
  {
    var ps := Performed(c);
    WritesDistinct(c);
    var i :| 0 <= i < |ps| && ps[i] == p;
    ApplyAllWritten(h, MetaWrites(c), i);
  }

  /** The five fixed calls come first, then the optional ones whose setting is non-empty. */
  lemma PerformedShape(c: SeoConfig)
    ensures Performed(c) == Fixed(c) + Seqs.Filter(Optional(c), Goes)
  {
    var fixed := Fixed(c);
    assert forall i :: 0 <= i < |fixed| ==> fixed[i].always;
    Seqs.FilterFull(fixed, Goes);
    Seqs.FilterAppend(fixed, Optional(c), Goes);
  }

  /** Each of the five fixed tags holds its value after `updateMetaTags`. */
  lemma FixedWritten(h: Head, c: SeoConfig, k: int)
    requires 0 <= k < 5
    ensures TagName(Fixed(c)[k].tag) in UpdateMetaTags(h, c).1
    ensures UpdateMetaTags(h, c).1[TagName(Fixed(c)[k].tag)].content == Content(Fixed(c)[k])
  {
    PerformedShape(c);
    WritesDistinct(c);
    assert MetaWrites(c)[k] == ToWrite(Fixed(c)[k]);
    ApplyAllWritten(h, MetaWrites(c), k);
  }

  /** The title goes to both title tags. */
  lemma TitleTags(h: Head, c: SeoConfig)
    ensures TagName(OgTitle) in UpdateMetaTags(h, c).1 && UpdateMetaTags(h, c).1[TagName(OgTitle)].content == c.title
    ensures TagName(TwitterTitle) in UpdateMetaTags(h, c).1 && UpdateMetaTags(h, c).1[TagName(TwitterTitle)].content == c.title
  {
    FixedWritten(h, c, 0);
    FixedWritten(h, c, 1);
  }

  /** The description goes to all three description tags. */
  lemma DescriptionTags(h: Head, c: SeoConfig)
    ensures TagName(Description) in UpdateMetaTags(h, c).1 && UpdateMetaTags(h, c).1[TagName(Description)].content == c.description
    ensures TagName(OgDescription) in UpdateMetaTags(h, c).1 && UpdateMetaTags(h, c).1[TagName(OgDescription)].content == c.description
    ensures TagName(TwitterDescription) in UpdateMetaTags(h, c).1 && UpdateMetaTags(h, c).1[TagName(TwitterDescription)].content == c.description
  {
    FixedWritten(h, c, 2);
    FixedWritten(h, c, 3);
    FixedWritten(h, c, 4);
  }

  /** A tag is written exactly when a performed call names it. */
  lemma WrittenTag(c: SeoConfig, t: MetaTag)
    ensures Written(MetaWrites(c), TagName(t)) <==> exists i :: 0 <= i < |Performed(c)| && Performed(c)[i].tag == t
  {
    var ps, ws := Performed(c), MetaWrites(c);
    if Written(ws, TagName(t)) {
      var i :| 0 <= i < |ws| && ws[i].name == TagName(t);
      TagNameInjective(ps[i].tag, t);
    }
    if exists i :: 0 <= i < |ps| && ps[i].tag == t {
      var i :| 0 <= i < |ps| && ps[i].tag == t;
      assert ws[i].name == TagName(t);
    }
  }

  /** Two planned calls for the same tag are the same call. */
  lemma PlanTagUnique(c: SeoConfig, p: Planned, q: Planned)
    requires p in Plan(c) && q in Plan(c) && p.tag == q.tag
    ensures p == q
  {
    var plan := Plan(c);
    PlanDistinct(c);
    var k :| 0 <= k < |plan| && plan[k] == p;
    var m :| 0 <= m < |plan| && plan[m] == q;
    assert k == m;
  }

  /** The optional calls are guarded by their setting alone. */
  lemma OptionalGuard(c: SeoConfig, p: Planned)
    requires p in Optional(c)
    ensures p in Plan(c) && (Goes(p) <==> Js.TruthyString(p.value))
  {
  }

  /** An optional setting is written exactly when it is non-empty. */
  lemma OptionalWrites(c: SeoConfig, p: Planned)
    requires p in Optional(c)
    ensures Written(MetaWrites(c), TagName(p.tag)) <==> Js.TruthyString(p.value)
  {
    var ps := Performed(c);
    OptionalGuard(c, p);
    WrittenTag(c, p.tag);
    if exists i :: 0 <= i < |ps| && ps[i].tag == p.tag {
      var i :| 0 <= i < |ps| && ps[i].tag == p.tag;
      PlanTagUnique(c, ps[i], p);
    }
    if Js.TruthyString(p.value) {
      var i :| 0 <= i < |ps| && ps[i] == p;
    }
  }

  /** A tag whose optional setting is empty keeps the element it had. */
  lemma EmptySettingUntouched(h: Head, c: SeoConfig, p: Planned)
    requires p in Optional(c) && !Js.TruthyString(p.value) && TagName(p.tag) in h
    ensures TagName(p.tag) in UpdateMetaTags(h, c).1 && UpdateMetaTags(h, c).1[TagName(p.tag)] == h[TagName(p.tag)]
  {
    OptionalWrites(c, p);
    ApplyAllUntouched(h, MetaWrites(c), TagName(p.tag));
  }

  // ---------------------------------------------------------------------------
  // Structured data

  datatype Offer = Offer(price: string, priceCurrency: string)

  /** The service record: its name and description, the business as provider, and an offer only for a non-empty price. */
  datatype ServiceSchema = ServiceSchema(name: string, description: string, providerName: string, offers: Option<Offer>)

  function ServiceSchemaOf(name: string, description: string, price: Option<string>): (r: ServiceSchema)
    ensures r.name == name && r.description == description && r.providerName == "Dastawez"
    ensures r.offers.Some? <==> Js.TruthyString(price)
    ensures r.offers.Some? ==> r.offers.value == Offer(price.value, "INR")
  {
    ServiceSchema(name, description, "Dastawez",
      if Js.TruthyString(price) then Some(Offer(price.value, "INR")) else None)
  }

  datatype Faq = Faq(question: string, answer: string)
  datatype Question = Question(name: string, acceptedAnswer: string)

  function QuestionOf(f: Faq): Question {
    Question(f.question, f.answer)
  }

  /** The FAQ page: one question per entry, in order, with its answer text unchanged. */
  function FaqSchema(faqs: seq<Faq>): (r: seq<Question>)
    ensures |r| == |faqs|
    ensures forall i :: 0 <= i < |r| ==> r[i].name == faqs[i].question && r[i].acceptedAnswer == faqs[i].answer
  {
    Seqs.Map(faqs, QuestionOf)
  }

  function FaqOf(q: Question): Faq {
    Faq(q.name, q.acceptedAnswer)
  }

  /** The FAQ entries can be read back from the schema. */
  lemma FaqRoundTrip(faqs: seq<Faq>)
    ensures Seqs.Map(FaqSchema(faqs), FaqOf) == faqs
  {
  }

  datatype Crumb = Crumb(name: string, url: string)
  datatype ListItem = ListItem(position: int, name: string, item: string)

  /** The breadcrumb list: the items in order, numbered from 1. */
  function BreadcrumbSchema(items: seq<Crumb>): (r: seq<ListItem>)
    ensures |r| == |items|
    ensures forall i :: 0 <= i < |r| ==> r[i] == ListItem(i + 1, items[i].name, items[i].url)
    decreases |items|
  {
    if |items| == 0 then []
    else
      var n := |items| - 1;
      BreadcrumbSchema(items[..n]) + [ListItem(n + 1, items[n].name, items[n].url)]
  }

  /** Positions run 1, 2, …, n without gaps, and a crumb added at the end gets the next position. */
  lemma BreadcrumbPositions(items: seq<Crumb>, c: Crumb)
    ensures forall i, j :: 0 <= i < j < |items| ==> BreadcrumbSchema(items)[i].position < BreadcrumbSchema(items)[j].position
    ensures |items| > 0 ==> BreadcrumbSchema(items)[|items| - 1].position == |items|
    ensures BreadcrumbSchema(items + [c]) == BreadcrumbSchema(items) + [ListItem(|items| + 1, c.name, c.url)]
  {
    assert (items + [c])[..|items|] == items;
  }

  datatype ArticleInput = ArticleInput(headline: string, description: string, image: Option<string>, datePublished: string, dateModified: Option<string>, author: Option<string>)
  datatype ArticleSchema = ArticleSchema(headline: string, description: string, image: Option<string>, datePublished: string, dateModified: string, authorName: string)

  /** The article record: the modified date falls back to the published date, the author to the business. */
  function ArticleSchemaOf(a: ArticleInput): (r: ArticleSchema)
    ensures r.headline == a.headline && r.description == a.description && r.image == a.image && r.datePublished == a.datePublished
    ensures Js.TruthyString(a.dateModified) ==> r.dateModified == a.dateModified.value
    ensures !Js.TruthyString(a.dateModified) ==> r.dateModified == a.datePublished
    ensures Js.TruthyString(a.author) ==> r.authorName == a.author.value
    ensures !Js.TruthyString(a.author) ==> r.authorName == "Dastawez"
  {
    ArticleSchema(a.headline, a.description, a.image, a.datePublished,
      Js.OrString(a.dateModified, a.datePublished), Js.OrString(a.author, "Dastawez"))
  }

  /** An article never edited reads as modified when it was published. */
  lemma UneditedArticle(a: ArticleInput)
    requires a.dateModified.None? || a.dateModified == Some("")
    ensures ArticleSchemaOf(a).dateModified == ArticleSchemaOf(a).datePublished
  {
  }
}

=== FILE: seqs.dfy ===
/**
 * Folds and filters over sequences, recursing from the back so that each
 * one visits the elements left to right like `Array.prototype.reduce`,
 * `forEach` and `filter` do.
 */
module Seqs {

  function Min(a: int, b: int): int {
    if a <= b then a else b
  }

  /** A non-empty sequence is its front followed by its last element. */
  lemma Snoc<T>(s: seq<T>)
    requires |s| > 0
    ensures s == s[..|s| - 1] + [s[|s| - 1]]
  {
  }

  lemma Assoc<T>(a: seq<T>, b: seq<T>, c: seq<T>)
    ensures a + (b + c) == (a + b) + c
  {
  }

  lemma DropPrefix<T>(a: seq<T>, b: seq<T>)
    ensures (a + b)[|a|..] == b && (a + b)[..|a|] == a
  {
  }

  /** Cutting s at n before or after dropping its last element. */
  lemma CutSnoc<T>(s: seq<T>, n: nat)
    requires n < |s|
    ensures s[..|s| - 1][..n] == s[..n]
    ensures s[n..] == s[..|s| - 1][n..] + [s[|s| - 1]]
  {
  }

  /** `s.filter(p)`: the elements satisfying p, in their original order. */
  function Filter<T>(s: seq<T>, p: T -> bool): (r: seq<T>)
    ensures |r| <= |s|
    ensures forall i :: 0 <= i < |r| ==> r[i] in s && p(r[i])
    ensures forall i :: 0 <= i < |s| && p(s[i]) ==> s[i] in r
  {
    if |s| == 0 then []
    else
      assert s == s[..|s| - 1] + [s[|s| - 1]];
      Filter(s[..|s| - 1], p) + (if p(s[|s| - 1]) then [s[|s| - 1]] else [])
  }

  /** `s.reduce((sum, x) => sum + f(x), 0)`. */
  function Sum<T>(s: seq<T>, f: T -> int): int {
    if |s| == 0 then 0 else Sum(s[..|s| - 1], f) + f(s[|s| - 1])
  }

  /** `s.filter(p).length`. */
  function Count<T>(s: seq<T>, p: T -> bool): nat {
    |Filter(s, p)|
  }

  /** idx lists, in increasing order, positions of s holding the elements of r. */
  ghost predicate Embeds<T>(idx: seq<int>, r: seq<T>, s: seq<T>) {
    && |idx| == |r|
    && (forall k :: 0 <= k < |idx| ==> 0 <= idx[k] < |s| && r[k] == s[idx[k]])
    && (forall k, l :: 0 <= k < l < |idx| ==> idx[k] < idx[l])
  }

  /** r is an order-preserving subsequence of s. */
  ghost predicate IsSubsequence<T>(r: seq<T>, s: seq<T>) {
    exists idx :: Embeds(idx, r, s)
  }

  /** The positions of s that Filter keeps. */
  ghost function KeptIndices<T>(s: seq<T>, p: T -> bool): seq<int> {
    if |s| == 0 then []
    else KeptIndices(s[..|s| - 1], p) + (if p(s[|s| - 1]) then [|s| - 1] else [])
  }

  lemma {:induction false} FilterEmbeds<T>(s: seq<T>, p: T -> bool)
    ensures Embeds(KeptIndices(s, p), Filter(s, p), s)
    ensures forall k :: 0 <= k < |KeptIndices(s, p)| ==> KeptIndices(s, p)[k] < |s|
  {
    if |s| > 0 {
      var init := s[..|s| - 1];
      FilterEmbeds(init, p);
      var idx := KeptIndices(init, p);
      var r := Filter(init, p);
      forall k | 0 <= k < |idx|
        ensures 0 <= idx[k] < |s| && r[k] == s[idx[k]]
      {
        assert s[idx[k]] == init[idx[k]];
      }
    }
  }

  /** Filtering keeps the survivors in their original relative order. */
  lemma FilterIsSubsequence<T>(s: seq<T>, p: T -> bool)
    ensures IsSubsequence(Filter(s, p), s)
  {
    FilterEmbeds(s, p);
  }

  lemma {:induction false} SumNonNegative<T>(s: seq<T>, f: T -> int)
    requires forall i :: 0 <= i < |s| ==> f(s[i]) >= 0
    ensures Sum(s, f) >= 0
  {
    if |s| > 0 {
      SumNonNegative(s[..|s| - 1], f);
    }
  }

  /** Filtering s + [x] filters s and then keeps or drops x. */
  lemma FilterSnoc<T>(s: seq<T>, x: T, p: T -> bool)
    ensures Filter(s + [x], p) == Filter(s, p) + (if p(x) then [x] else [])
  {
    assert (s + [x])[..|s + [x]| - 1] == s;
  }

  lemma SumAppendOne<T>(s: seq<T>, x: T, f: T -> int)
    ensures Sum(s + [x], f) == Sum(s, f) + f(x)
  {
    assert (s + [x])[..|s + [x]| - 1] == s;
  }

  /** Sum of a filter over s + [x], peeled once. */
  lemma SumFilterSnoc<T>(s: seq<T>, x: T, p: T -> bool, f: T -> int)
    ensures Sum(Filter(s + [x], p), f) == Sum(Filter(s, p), f) + (if p(x) then f(x) else 0)
  {
    FilterSnoc(s, x, p);
    if p(x) {
      SumAppendOne(Filter(s, p), x, f);
    } else {
      assert Filter(s, p) + [] == Filter(s, p);
    }
  }

  /** Two complementary filters split a sum exactly. */
  lemma {:induction false} SumSplit<T>(s: seq<T>, p: T -> bool, q: T -> bool, f: T -> int)
    requires forall i :: 0 <= i < |s| ==> p(s[i]) != q(s[i])
    ensures Sum(Filter(s, p), f) + Sum(Filter(s, q), f) == Sum(s, f)
  {
    if |s| > 0 {
      var init, x := s[..|s| - 1], s[|s| - 1];
      assert s == init + [x];
      SumSplit(init, p, q, f);
      SumFilterSnoc(init, x, p, f);
      SumFilterSnoc(init, x, q, f);
    }
  }

  /** Three filters of which exactly one holds of each element split a sum exactly. */
  lemma {:induction false} SumSplit3<T>(s: seq<T>, p: T -> bool, q: T -> bool, t: T -> bool, f: T -> int)
    requires forall i :: 0 <= i < |s| ==> ExactlyOne(p(s[i]), q(s[i]), t(s[i]))
    ensures Sum(Filter(s, p), f) + Sum(Filter(s, q), f) + Sum(Filter(s, t), f) == Sum(s, f)
  {
    if |s| > 0 {
      var init, x := s[..|s| - 1], s[|s| - 1];
      assert s == init + [x];
      SumSplit3(init, p, q, t, f);
      SumFilterSnoc(init, x, p, f);
      SumFilterSnoc(init, x, q, f);
      SumFilterSnoc(init, x, t, f);
    }
  }

  predicate ExactlyOne(a: bool, b: bool, c: bool) {
    (if a then 1 else 0) + (if b then 1 else 0) + (if c then 1 else 0) == 1
  }

  /** Three filters of which exactly one holds of each element partition the sequence. */
  lemma {:induction false} CountSplit3<T>(s: seq<T>, p: T -> bool, q: T -> bool, t: T -> bool)
    requires forall i :: 0 <= i < |s| ==> ExactlyOne(p(s[i]), q(s[i]), t(s[i]))
    ensures Count(s, p) + Count(s, q) + Count(s, t) == |s|
  {
    if |s| > 0 {
      var init, x := s[..|s| - 1], s[|s| - 1];
      assert s == init + [x];
      CountSplit3(init, p, q, t);
      FilterSnoc(init, x, p);
      FilterSnoc(init, x, q);
      FilterSnoc(init, x, t);
    }
  }

  /** With non-negative terms, a filtered sum never exceeds the whole sum. */
  lemma {:induction false} SumFilterAtMost<T>(s: seq<T>, p: T -> bool, f: T -> int)
    requires forall i :: 0 <= i < |s| ==> f(s[i]) >= 0
    ensures Sum(Filter(s, p), f) <= Sum(s, f)
  {
    if |s| > 0 {
      var init, x := s[..|s| - 1], s[|s| - 1];
      assert s == init + [x];
      SumFilterAtMost(init, p, f);
      SumFilterSnoc(init, x, p, f);
    }
  }

  /** When nothing in s satisfies both p and q, filtering by "p or q" sums to the two sums. */
  lemma {:induction false} SumFilterOr<T>(s: seq<T>, p: T -> bool, q: T -> bool, pq: T -> bool, f: T -> int)
    requires forall i :: 0 <= i < |s| ==> !(p(s[i]) && q(s[i])) && (pq(s[i]) <==> p(s[i]) || q(s[i]))
    ensures Sum(Filter(s, pq), f) == Sum(Filter(s, p), f) + Sum(Filter(s, q), f)
  {
    if |s| > 0 {
      var init, x := s[..|s| - 1], s[|s| - 1];
      assert s == init + [x];
      SumFilterOr(init, p, q, pq, f);
      SumFilterSnoc(init, x, pq, f);
      SumFilterSnoc(init, x, p, f);
      SumFilterSnoc(init, x, q, f);
    }
  }

  /** Filtering [x] + s keeps or drops x and then filters s. */
  lemma {:induction false} FilterCons<T>(x: T, s: seq<T>, p: T -> bool)
    ensures Filter([x] + s, p) == (if p(x) then [x] else []) + Filter(s, p)
  {
    if |s| == 0 {
      assert [x] + s == [] + [x];
      FilterSnoc([], x, p);
    } else {
      var init, y := s[..|s| - 1], s[|s| - 1];
      Snoc(s);
      Assoc([x], init, [y]);
      FilterCons(x, init, p);
      FilterSnoc([x] + init, y, p);
      FilterSnoc(init, y, p);
      Assoc(if p(x) then [x] else [], Filter(init, p), if p(y) then [y] else []);
    }
  }

  /** Filtering a concatenation filters each part. */
  lemma {:induction false} FilterAppend<T>(a: seq<T>, b: seq<T>, p: T -> bool)
    ensures Filter(a + b, p) == Filter(a, p) + Filter(b, p)
    decreases |b|
  {
    if |b| == 0 {
      assert a + b == a;
    } else {
      var init, y := b[..|b| - 1], b[|b| - 1];
      Snoc(b);
      Assoc(a, init, [y]);
      FilterAppend(a, init, p);
      FilterSnoc(a + init, y, p);
      FilterSnoc(init, y, p);
      Assoc(Filter(a, p), Filter(init, p), if p(y) then [y] else []);
    }
  }

  /** Replacing an element the filter drops by another it drops leaves the filtered sequence unchanged. */
  lemma FilterUpdateDropped<T>(s: seq<T>, i: nat, x: T, p: T -> bool)
    requires i < |s| && !p(s[i]) && !p(x)
    ensures Filter(s[i := x], p) == Filter(s, p)
  {
    var a, b := s[..i], s[i + 1..];
    assert s == a + ([s[i]] + b);
    assert s[i := x] == a + ([x] + b);
    FilterAppend(a, [s[i]] + b, p);
    FilterAppend(a, [x] + b, p);
    FilterCons(s[i], b, p);
    FilterCons(x, b, p);
  }

  /** Filtering returns the whole sequence exactly when every element passes. */
  lemma {:induction false} FilterFull<T>(s: seq<T>, p: T -> bool)
    ensures |Filter(s, p)| == |s| <==> forall i :: 0 <= i < |s| ==> p(s[i])
    ensures (forall i :: 0 <= i < |s| ==> p(s[i])) ==> Filter(s, p) == s
  {
    if |s| > 0 {
      var init, x := s[..|s| - 1], s[|s| - 1];
      assert s == init + [x];
      FilterFull(init, p);
      FilterSnoc(init, x, p);
      if |Filter(s, p)| == |s| {
        assert p(x);
        forall i | 0 <= i < |s|
          ensures p(s[i])
        {
          if i < |init| {
            assert s[i] == init[i];
          }
        }
      }
      if forall i :: 0 <= i < |s| ==> p(s[i]) {
        assert forall i :: 0 <= i < |init| ==> p(init[i]) by {
          forall i | 0 <= i < |init|
            ensures p(init[i])
          {
            assert init[i] == s[i];
          }
        }
      }
    }
  }

  /** Filtering keeps nothing when no element passes. */
  lemma {:induction false} FilterNone<T>(s: seq<T>, p: T -> bool)
    requires forall i :: 0 <= i < |s| ==> !p(s[i])
    ensures Filter(s, p) == []
  {
    if |s| > 0 {
      var init, x := s[..|s| - 1], s[|s| - 1];
      assert s == init + [x];
      FilterNone(init, p);
      FilterSnoc(init, x, p);
    }
  }

  /** Filtering by a predicate that the elements already satisfy changes nothing. */
  lemma FilterTwice<T>(s: seq<T>, p: T -> bool)
    ensures Filter(Filter(s, p), p) == Filter(s, p)
  {
    FilterFull(Filter(s, p), p);
  }

  /** `s.map(f)`. */
  function Map<T, U>(s: seq<T>, f: T -> U): (r: seq<U>)
    ensures |r| == |s|
    ensures forall i :: 0 <= i < |s| ==> r[i] == f(s[i])
  {
    if |s| == 0 then [] else Map(s[..|s| - 1], f) + [f(s[|s| - 1])]
  }

  /** Counting after a map is counting the elements whose image passes. */
  lemma {:induction false} CountMap<T, U>(s: seq<T>, f: T -> U, p: U -> bool, q: T -> bool)
    requires forall i :: 0 <= i < |s| ==> p(f(s[i])) == q(s[i])
    ensures Count(Map(s, f), p) == Count(s, q)
  {
    if |s| > 0 {
      var init, x := s[..|s| - 1], s[|s| - 1];
      assert s == init + [x];
      CountMap(init, f, p, q);
      assert Map(s, f) == Map(init, f) + [f(x)];
      FilterSnoc(Map(init, f), f(x), p);
      FilterSnoc(init, x, q);
    }
  }

  /** When nothing in s satisfies both p and q, "p or q" counts the two counts. */
  lemma {:induction false} CountOr<T>(s: seq<T>, p: T -> bool, q: T -> bool, pq: T -> bool)
    requires forall i :: 0 <= i < |s| ==> !(p(s[i]) && q(s[i])) && (pq(s[i]) <==> p(s[i]) || q(s[i]))
    ensures Count(s, pq) == Count(s, p) + Count(s, q)
  {
    if |s| > 0 {
      var init, x := s[..|s| - 1], s[|s| - 1];
      assert s == init + [x];
      CountOr(init, p, q, pq);
      FilterSnoc(init, x, pq);
      FilterSnoc(init, x, p);
      FilterSnoc(init, x, q);
    }
  }

  /** The first min(n, |s|) elements: `s.slice(0, n)`. */
  function Take<T>(s: seq<T>, n: nat): (r: seq<T>)
    ensures |r| == Min(n, |s|)
    ensures forall i :: 0 <= i < |r| ==> r[i] == s[i]
  {
    s[..Min(n, |s|)]
  }

  /** Filters by predicates that agree on every element are equal. */
  lemma {:induction false} FilterSame<T>(s: seq<T>, p: T -> bool, q: T -> bool)
    requires forall i :: 0 <= i < |s| ==> p(s[i]) == q(s[i])
    ensures Filter(s, p) == Filter(s, q)
  {
    if |s| > 0 {
      var init, x := s[..|s| - 1], s[|s| - 1];
      assert s == init + [x];
      FilterSame(init, p, q);
      FilterSnoc(init, x, p);
      FilterSnoc(init, x, q);
    }
  }

  /** Summing g over a mapped sequence is summing its composite over the original. */
  lemma {:induction false} SumMap<T, U>(s: seq<T>, f: T -> U, g: U -> int, h: T -> int)
    requires forall i :: 0 <= i < |s| ==> g(f(s[i])) == h(s[i])
    ensures Sum(Map(s, f), g) == Sum(s, h)
  {
    if |s| > 0 {
      var init, x := s[..|s| - 1], s[|s| - 1];
      assert s == init + [x];
      SumMap(init, f, g, h);
      assert Map(s, f) == Map(init, f) + [f(x)];
      SumAppendOne(Map(init, f), f(x), g);
    }
  }

  /** Dropping the elements whose non-negative term is zero keeps the sum. */
  lemma {:induction false} SumDropZeros<T>(s: seq<T>, p: T -> bool, f: T -> int)
    requires forall i :: 0 <= i < |s| ==> f(s[i]) >= 0 && (p(s[i]) <==> f(s[i]) > 0)
    ensures Sum(Filter(s, p), f) == Sum(s, f)
  {
    if |s| > 0 {
      var init, x := s[..|s| - 1], s[|s| - 1];
      assert s == init + [x];
      SumDropZeros(init, p, f);
      SumFilterSnoc(init, x, p, f);
      SumAppendOne(init, x, f);
    }
  }

  /** An element is kept by the filter exactly when it occurs and passes. */
  lemma FilterMember<T>(s: seq<T>, p: T -> bool, x: T)
    ensures x in Filter(s, p) <==> x in s && p(x)
  {
    var r := Filter(s, p);
    if x in r {
      var i :| 0 <= i < |r| && r[i] == x;
    }
    if x in s && p(x) {
      var i :| 0 <= i < |s| && s[i] == x;
    }
  }

  /** With non-negative terms, every filtered sum is non-negative. */
  lemma {:induction false} SumFilterNonNegative<T>(s: seq<T>, p: T -> bool, f: T -> int)
    requires forall i :: 0 <= i < |s| ==> f(s[i]) >= 0
    ensures Sum(Filter(s, p), f) >= 0
  {
    if |s| > 0 {
      var init, x := s[..|s| - 1], s[|s| - 1];
      assert s == init + [x];
      SumFilterNonNegative(init, p, f);
      SumFilterSnoc(init, x, p, f);
    }
  }

  /** Some element passes exactly when the count is positive. */
  lemma CountPositive<T>(s: seq<T>, p: T -> bool)
    ensures Count(s, p) > 0 <==> exists i :: 0 <= i < |s| && p(s[i])
  {
    var r := Filter(s, p);
    if |r| > 0 {
      var i :| 0 <= i < |s| && s[i] == r[0];
    }
    if exists i :: 0 <= i < |s| && p(s[i]) {
      var i :| 0 <= i < |s| && p(s[i]);
      assert s[i] in r;
    }
  }

  /** Filtering by a conjunction is filtering by one conjunct, then the other. */
  lemma {:induction false} FilterAnd<T>(s: seq<T>, p: T -> bool, q: T -> bool, pq: T -> bool)
    requires forall i :: 0 <= i < |s| ==> (pq(s[i]) <==> p(s[i]) && q(s[i]))
    ensures Filter(s, pq) == Filter(Filter(s, p), q)
  {
    if |s| > 0 {
      var init, x := s[..|s| - 1], s[|s| - 1];
      assert s == init + [x];
      assert pq(x) <==> p(x) && q(x);
      FilterAnd(init, p, q, pq);
      FilterSnoc(init, x, pq);
      FilterSnoc(init, x, p);
      if p(x) {
        FilterSnoc(Filter(init, p), x, q);
      } else {
        assert Filter(s, p) == Filter(init, p) + [] == Filter(init, p);
        assert Filter(s, pq) == Filter(init, pq) + [] == Filter(init, pq);
      }
    }
  }
}

=== FILE: serviceeditor.dfy ===
/**
 * The administrator's service editor: the form opened for a new or an
 * existing service, the category switch, the custom-field list editor, what
 * a save writes, and the active switch of the service list.
 */
module ServiceEditor {
  import opened Wrappers
  import Strings
  import Js
  import opened Schema
  import opened Services

  /** The editor's form state; the price is the text typed in the price box. */
  datatype Form = Form(
    name: string,
    description: string,
    category: ServiceCategory,
    price: string,
    icon: string,
    isActive: bool,
    customFields: seq<CustomField>,
    pricePerCopy: bool,
    showUploadSection: bool,
    showCompletedSection: bool)

  /** `initialFormData`: the form of a new service. */
  const InitialForm: Form := Form("", "", Printing, "", "FileText", true, [], false, true, true)

  /** The fields an existing service's form starts with: its own list when it stores one, even an empty one. */
  function EditFields(s: Service): (r: seq<CustomField>)
    ensures s.customFields.JArray? ==> r == s.customFields.fields
    ensures !s.customFields.JArray? ==> r == NormalisedDefaults(s.category)
  {
    var parsed := ParseCustomFields(s.customFields);
    if parsed.Some? then parsed.value else NormalisedDefaults(s.category)
  }

  /** `openEditDialog`: the service's values, with a default for each field that is null. */
  function EditForm(s: Service): (r: Form)
    ensures r.name == s.name && r.category == s.category
    ensures r.description == (if s.description.Some? then s.description.value else "")
    ensures r.price == Strings.IntToString(s.price)
    ensures r.icon == Js.OrString(s.icon, "FileText")
    ensures r.isActive == (s.isActive != Some(false))
    ensures r.pricePerCopy == (s.pricePerCopy == Some(true))
    ensures r.showUploadSection == (s.showUploadSection != Some(false))
    ensures r.showCompletedSection == (s.showCompletedSection != Some(false))
    ensures r.customFields == EditFields(s)
  {
    Form(
      s.name,
      Js.OrString(s.description, ""),
      s.category,
      Strings.IntToString(s.price),
      Js.OrString(s.icon, "FileText"),
      Js.OrBool(s.isActive, true),
      EditFields(s),
      Js.OrBool(s.pricePerCopy, false),
      Js.OrBool(s.showUploadSection, true),
      Js.OrBool(s.showCompletedSection, true))
  }

  /** The form of a service with every column null is the new-service form with its name, category and price. */
  lemma NullColumnsGiveNewForm(s: Service)
    requires s.description.None? && s.icon.None? && s.isActive.None? && s.pricePerCopy.None?
    requires s.showUploadSection.None? && s.showCompletedSection.None? && s.customFields == JArray([])
    ensures EditForm(s) == InitialForm.(name := s.name, category := s.category, price := Strings.IntToString(s.price))
  {
  }

  // ---------------------------------------------------------------------------
  // Editing the form

  /** Choosing a category: its default fields replace the list, and only printing is priced per copy. */
  function ChangeCategory(f: Form, c: ServiceCategory): (r: Form)
    ensures r.category == c && r.customFields == NormalisedDefaults(c)
    ensures r.pricePerCopy <==> c == Printing
    ensures r.(category := f.category, customFields := f.customFields, pricePerCopy := f.pricePerCopy) == f
  {
    f.(category := c, customFields := NormalisedDefaults(c), pricePerCopy := c == Printing)
  }

  /**
   * The category handler itself, called with the form's current category,
   * resets the fields. The select never calls it that way (see PickCategory),
   * so this is a fact about the handler, not about what the editor does.
   */
  lemma SameCategoryResetsFields(f: Form)
    ensures ChangeCategory(f, f.category).customFields == NormalisedDefaults(f.category)
    ensures ChangeCategory(f, f.category) == f <==> f.customFields == NormalisedDefaults(f.category) && (f.pricePerCopy <==> f.category == Printing)
  {
    ResetSame(f, NormalisedDefaults(f.category), f.category == Printing);
  }

  /**
   * Picking a category in the controlled select: the select hands the pick to
   * the handler only when it differs from the current value, so re-picking the
   * current category keeps the edited fields. The edited fields survive a pick
   * exactly when the category stays or they already were the new defaults.
   */
  function PickCategory(f: Form, c: ServiceCategory): (r: Form)
    ensures r.category == c
    ensures r.customFields == f.customFields <==> c == f.category || f.customFields == NormalisedDefaults(c)
    ensures c != f.category ==> r == ChangeCategory(f, c)
    ensures r.(category := f.category, customFields := f.customFields, pricePerCopy := f.pricePerCopy) == f
  {
    if c == f.category then f else ChangeCategory(f, c)
  }

  /** Overwriting the field list and the per-copy flag gives back the form exactly when both were already so. */
  lemma ResetSame(f: Form, fields: seq<CustomField>, perCopy: bool)
    ensures f.(customFields := fields, pricePerCopy := perCopy) == f <==> f.customFields == fields && f.pricePerCopy == perCopy
  {
    var g := f.(customFields := fields, pricePerCopy := perCopy);
    if g == f {
      assert g.customFields == f.customFields;
    }
  }

  /** The field "Add Field" appends: a timestamped id, empty texts, a text input, optional. */
  function BlankField(now: nat): (r: CustomField)
    ensures r.caption == "" && r.placeholder == "" && r.fieldType == "text" && !r.required
  {
    CustomField("field_" + Strings.NatToString(now), "", "", "text", false)
  }

  function AddField(f: Form, now: nat): (r: Form)
    ensures |r.customFields| == |f.customFields| + 1
    ensures r.customFields[..|f.customFields|] == f.customFields
    ensures r.customFields[|f.customFields|] == BlankField(now)
    ensures r.(customFields := f.customFields) == f
  {
    f.(customFields := f.customFields + [BlankField(now)])
  }

  /** `filter((_, i) => i !== index)`: drops the field at the index; an index past the end drops nothing. */
  function RemoveField(f: Form, index: nat): (r: Form)
    ensures index < |f.customFields| ==> |r.customFields| == |f.customFields| - 1
    ensures index < |f.customFields| ==>
      r.customFields[..index] == f.customFields[..index] && r.customFields[index..] == f.customFields[index + 1..]
    ensures index >= |f.customFields| ==> r.customFields == f.customFields
    ensures r.(customFields := f.customFields) == f
  {
    var fs := f.customFields;
    if index < |fs| then f.(customFields := fs[..index] + fs[index + 1..]) else f
  }

  /** Removing the field just added gives back the form. */
  lemma RemoveAddedField(f: Form, now: nat)
    ensures RemoveField(AddField(f, now), |f.customFields|) == f
  {
    var g := AddField(f, now);
    assert g.customFields[..|f.customFields|] + g.customFields[|f.customFields| + 1..] == f.customFields;
  }

  /** The label, placeholder, type and required edits: the field at the index is replaced, the rest stay. */
  function SetField(f: Form, index: nat, field: CustomField): (r: Form)
    requires index < |f.customFields|
    ensures |r.customFields| == |f.customFields| && r.customFields[index] == field
    ensures forall j :: 0 <= j < |f.customFields| && j != index ==> r.customFields[j] == f.customFields[j]
    ensures r.(customFields := f.customFields) == f
  {
    f.(customFields := f.customFields[index := field])
  }

  /** Editing a field and then putting back its old value gives back the form. */
  lemma SetFieldUndo(f: Form, index: nat, field: CustomField)
    requires index < |f.customFields|
    ensures SetField(SetField(f, index, field), index, f.customFields[index]) == f
  {
  }

  // ---------------------------------------------------------------------------
  // Saving

  /** The row written by a save; the price is the typed text read as a number, None for NaN. */
  datatype Payload = Payload(
    name: string,
    description: Option<string>,
    category: ServiceCategory,
    price: Option<int>,
    icon: string,
    isActive: bool,
    customFields: Option<seq<CustomField>>,
    pricePerCopy: bool,
    showUploadSection: bool,
    showCompletedSection: bool)

  /** `handleSave`: refused without a name or a price; an empty description and an empty field list are written as null. */
  function Save(f: Form): (r: Option<Payload>)
    ensures r.None? <==> f.name == [] || f.price == []
    ensures r.Some? ==> r.value.name == f.name && r.value.category == f.category && r.value.icon == f.icon
    ensures r.Some? ==> r.value.price == Strings.ParseLeadingInt(f.price)
    ensures r.Some? ==> (r.value.description.None? <==> f.description == [])
    ensures r.Some? && r.value.description.Some? ==> r.value.description.value == f.description
    ensures r.Some? ==> (r.value.customFields.None? <==> f.customFields == [])
    ensures r.Some? && r.value.customFields.Some? ==> r.value.customFields.value == f.customFields
    ensures r.Some? ==> r.value.isActive == f.isActive && r.value.pricePerCopy == f.pricePerCopy
    ensures r.Some? ==> r.value.showUploadSection == f.showUploadSection && r.value.showCompletedSection == f.showCompletedSection
  {
    if f.name == [] || f.price == [] then None
    else
      Some(Payload(
        f.name,
        Js.NullIfEmpty(Some(f.description)),
        f.category,
        Strings.ParseLeadingInt(f.price),
        f.icon,
        f.isActive,
        if |f.customFields| > 0 then Some(f.customFields) else None,
        f.pricePerCopy,
        f.showUploadSection,
        f.showCompletedSection))
  }

  /** The stored `custom_fields` value of a payload. */
  function StoredFields(p: Payload): (r: Json)
    ensures p.customFields.None? <==> r == JNull
  {
    if p.customFields.Some? then JArray(p.customFields.value) else JNull
  }

  /** The new-service form cannot be saved as it is. */
  lemma NewFormRefused()
    ensures Save(InitialForm).None?
  {
  }

  /**
   * Opening a named service with a field list and every column set, and saving
   * it untouched, writes back what was stored: the price survives being shown
   * as text and read back.
   */
  lemma EditSaveRoundTrip(s: Service)
    requires s.name != [] && s.description.Some? && s.description.value != []
    requires s.icon.Some? && s.icon.value != []
    requires s.isActive.Some? && s.pricePerCopy.Some? && s.showUploadSection.Some? && s.showCompletedSection.Some?
    requires s.customFields.JArray? && s.customFields.fields != []
    ensures Save(EditForm(s)).Some?
    ensures var p := Save(EditForm(s)).value;
      && p.name == s.name && p.description == s.description && p.category == s.category
      && p.price == Some(s.price) && Some(p.icon) == s.icon && Some(p.isActive) == s.isActive
      && StoredFields(p) == s.customFields && Some(p.pricePerCopy) == s.pricePerCopy
      && Some(p.showUploadSection) == s.showUploadSection && Some(p.showCompletedSection) == s.showCompletedSection
  {
    Strings.ParseIntToString(s.price);
    PriceTextNonEmpty(s.price);
  }

  lemma PriceTextNonEmpty(price: int)
    ensures Strings.IntToString(price) != []
  {
    if price < 0 {
      assert Strings.IntToString(price)[0] == '-';
    } else {
      assert |Strings.NatToString(price)| >= 1;
    }
  }

  /**
   * A stored empty list opens as an empty list, but saving it writes null,
   * so the next opening of the editor shows the category's default fields.
   */
  lemma EmptyListReopensWithDefaults(s: Service)
    requires s.name != [] && s.customFields == JArray([])
    ensures EditForm(s).customFields == []
    ensures Save(EditForm(s)).Some?
    ensures var s2 := s.(customFields := StoredFields(Save(EditForm(s)).value));
      EditForm(s2).customFields == NormalisedDefaults(s.category)
  {
    PriceTextNonEmpty(s.price);
  }

  // ---------------------------------------------------------------------------
  // Active switch

  /** `toggleServiceStatus`: writes `!service.is_active`, so a null flag turns the service on. */
  function ToggledActive(s: Service): (r: bool)
    ensures r <==> s.isActive != Some(true)
  {
    !Js.IsTrue(s.isActive)
  }

  /** Writing the toggled flag into the catalog moves the service into or out of the customer catalog. */
  lemma ToggleFlipsCatalog(all: seq<Service>, i: nat)
    requires i < |all|
    ensures var t := all[i].(isActive := Some(ToggledActive(all[i])));
      t in CustomerCatalog(all[i := t]) <==> all[i] !in CustomerCatalog(all)
  {
    var s := all[i];
    var t := s.(isActive := Some(ToggledActive(s)));
    CustomerCatalogMembers(all, s);
    CustomerCatalogMembers(all[i := t], t);
    assert all[i := t][i] == t;
  }

  /** The service as stored after `toggleServiceStatus`. */
  function Toggle(s: Service): Service {
    s.(isActive := Some(ToggledActive(s)))
  }

  /**
   * Toggling a service twice leaves the customer catalog as it was, also for a
   * service whose flag was null: it is hidden before and after.
   */
  lemma ToggleTwiceRestoresCatalog(all: seq<Service>, i: nat)
    requires i < |all|
    ensures CustomerCatalog(all[i := Toggle(Toggle(all[i]))]) == CustomerCatalog(all)
  {
    var u := Toggle(Toggle(all[i]));
    if all[i].isActive.Some? {
      var t := Toggle(all[i]);
      assert t.isActive == Some(all[i].isActive != Some(true));
      assert ToggledActive(t) == all[i].isActive.value by {
        if all[i].isActive.value {
          assert t.isActive == Some(false);
        } else {
          assert t.isActive == Some(true);
        }
      }
      assert u == all[i];
      assert all[i := u] == all;
    } else {
      Seqs.FilterUpdateDropped(all, i, u, (x: Service) => Js.IsTrue(x.isActive));
    }
  }
}

=== FILE: services.dfy ===
/**
 * Service records, the custom form fields a service declares, the built-in
 * fields of each category, and the two catalog queries.
 */
module Services {
  import opened Wrappers
  import Seqs
  import Js
  import opened Schema

  /** One order-form field a service asks for. */
  datatype CustomField = CustomField(id: string, caption: string, placeholder: string, fieldType: string, required: bool)

  /**
   * The JSON value stored in `custom_fields`. An array is taken to hold
   * field records, as the client casts it without looking inside.
   */
  datatype Json =
    | JUndefined
    | JNull
    | JBool(b: bool)
    | JNumber(n: int)
    | JString(s: string)
    | JArray(fields: seq<CustomField>)
    | JObject

  /** JavaScript truthiness of a JSON value: arrays and objects are always truthy. */
  predicate Truthy(v: Json) {
    match v
    case JUndefined => false
    case JNull => false
    case JBool(b) => b
    case JNumber(n) => n != 0
    case JString(s) => s != []
    case JArray(_) => true
    case JObject => true
  }

  /** `parseCustomFields`: the array itself, or null for anything that is not an array. */
  function ParseCustomFields(v: Json): (r: Option<seq<CustomField>>)
    ensures !Truthy(v) ==> r == None
    ensures v.JArray? ==> r == Some(v.fields)
    ensures Truthy(v) && !v.JArray? ==> r == None
  {
    if !Truthy(v) then None
    else if v.JArray? then Some(v.fields)
    else None
  }

  /** A parsed list is exactly what was stored, so storing a list and parsing it round-trips. */
  lemma ParseCustomFieldsRoundTrip(fields: seq<CustomField>)
    ensures ParseCustomFields(JArray(fields)) == Some(fields)
    ensures ParseCustomFields(JArray([])) == Some([])
  {
  }

  /** A `services` row. */
  datatype Service = Service(
    id: string,
    name: string,
    description: Option<string>,
    category: ServiceCategory,
    price: int,
    isActive: Option<bool>,
    icon: Option<string>,
    customFields: Json,
    pricePerCopy: Option<bool>,
    showUploadSection: Option<bool>,
    showCompletedSection: Option<bool>)

  /** An entry of a category's built-in field list, whose type and required flag may be left out. */
  datatype DefaultField = DefaultField(id: string, caption: string, placeholder: string, fieldType: Option<string>, required: Option<bool>)

  /** The built-in fields of each category. */
  function CategoryDefaults(c: ServiceCategory): (r: seq<DefaultField>)
    ensures |r| > 0
  {
    match c
    case Printing => [
      DefaultField("copies", "Number of Copies", "Enter number of copies", Some("number"), Some(true)),
      DefaultField("paperSize", "Paper Size", "e.g., A4, A3, Letter", None, Some(true)),
      DefaultField("colorType", "Print Type", "e.g., Color, Black & White", None, Some(true))]
    case Certificates => [
      DefaultField("applicantName", "Applicant Full Name", "Name as per documents", None, Some(true)),
      DefaultField("fatherName", "Father's Name", "Enter father's name", None, Some(true)),
      DefaultField("dateOfBirth", "Date of Birth", "DD/MM/YYYY", None, Some(true)),
      DefaultField("aadharNumber", "Aadhar Number", "12-digit Aadhar number", None, Some(true)),
      DefaultField("samagraId", "Samagra ID", "Enter Samagra ID", None, Some(false))]
    case Bills => [
      DefaultField("accountNumber", "Account/Consumer Number", "Enter account number", None, Some(true)),
      DefaultField("billAmount", "Bill Amount (\U{20B9})", "Enter bill amount", Some("number"), Some(true)),
      DefaultField("billType", "Bill Type", "e.g., Electricity, Water, Gas", None, Some(true))]
    case MpOnline => [
      DefaultField("applicantName", "Applicant Full Name", "Name as per documents", None, Some(true)),
      DefaultField("fatherName", "Father's Name", "Enter father's name", None, Some(true)),
      DefaultField("aadharNumber", "Aadhar Number", "12-digit Aadhar number", None, Some(true)),
      DefaultField("serviceType", "Service Required", "e.g., Domicile, Income, Caste", None, Some(true))]
  }

  /** `{...f, type: f.type || 'text', required: f.required ?? false}`. */
  function Normalise(f: DefaultField): (r: CustomField)
    ensures r.id == f.id && r.caption == f.caption && r.placeholder == f.placeholder
    ensures r.fieldType == Js.OrString(f.fieldType, "text")
    ensures r.required <==> f.required == Some(true)
  {
    CustomField(f.id, f.caption, f.placeholder, Js.OrString(f.fieldType, "text"),
                if f.required.Some? then f.required.value else false)
  }

  /** A category's built-in fields with every type and required flag filled in. */
  function NormalisedDefaults(c: ServiceCategory): (r: seq<CustomField>)
    ensures |r| == |CategoryDefaults(c)|
    ensures forall i :: 0 <= i < |r| ==> r[i] == Normalise(CategoryDefaults(c)[i]) && r[i].fieldType != []
  {
    Seqs.Map(CategoryDefaults(c), Normalise)
  }

  /** The number-of-copies field of the printing defaults. */
  const CopiesField: CustomField := CustomField("copies", "Number of Copies", "Enter number of copies", "number", true)

  lemma PrintingFirst()
    ensures CategoryDefaults(Printing)[0].id == "copies"
    ensures Normalise(CategoryDefaults(Printing)[0]) == CopiesField
  {
    assert Js.OrString(Some("number"), "text") == "number";
  }

  lemma OtherFirst(c: ServiceCategory)
    requires c != Printing
    ensures |CategoryDefaults(c)[0].id| > 0 && CategoryDefaults(c)[0].id[0] == 'a'
  {
  }

  /** The first built-in field is the copies field for printing and has another id elsewhere. */
  lemma FirstDefault(c: ServiceCategory)
    ensures CategoryDefaults(c)[0].id == "copies" <==> c == Printing
    ensures c == Printing ==> Normalise(CategoryDefaults(c)[0]) == CopiesField
  {
    if c == Printing {
      PrintingFirst();
    } else {
      OtherFirst(c);
      assert "copies"[0] == 'c';
    }
  }

  /** Only printing has a number-of-copies field by default, and it is the first one. */
  lemma CopiesFieldOnlyForPrinting(c: ServiceCategory)
    ensures NormalisedDefaults(c)[0] == CopiesField <==> c == Printing
  {
    FirstDefault(c);
  }

  // ---------------------------------------------------------------------------
  // Catalog queries

  function CategoryRank(c: ServiceCategory): nat {
    match c
    case Printing => 0
    case Certificates => 1
    case Bills => 2
    case MpOnline => 3
  }

  predicate InCategory(s: Service, c: ServiceCategory) {
    s.category == c
  }

  /** The services of one category, in fetched order. */
  function Block(ss: seq<Service>, c: ServiceCategory): (r: seq<Service>)
    ensures forall i :: 0 <= i < |r| ==> r[i].category == c
  {
    Seqs.Filter(ss, s => InCategory(s, c))
  }

  lemma BlockSnoc(ss: seq<Service>, x: Service, c: ServiceCategory)
    ensures Block(ss + [x], c) == Block(ss, c) + (if x.category == c then [x] else [])
  {
    Seqs.FilterSnoc(ss, x, s => InCategory(s, c));
  }

  /** `order('category')`: the services grouped by category in the enum's order, each group in fetched order. */
  function SortByCategory(ss: seq<Service>): (r: seq<Service>)
    ensures |r| == |ss|
  {
    var r := Block(ss, Printing) + Block(ss, Certificates) + Block(ss, Bills) + Block(ss, MpOnline);
    CategoryMultiset(ss);
    assert |r| == |multiset(r)|;
    r
  }

  /** The part of a service's multiset that falls in category c. */
  function Share(x: Service, c: ServiceCategory): multiset<Service> {
    if x.category == c then multiset{x} else multiset{}
  }

  lemma BlockMultisetSnoc(ss: seq<Service>, x: Service, c: ServiceCategory)
    ensures multiset(Block(ss + [x], c)) == multiset(Block(ss, c)) + Share(x, c)
  {
    BlockSnoc(ss, x, c);
  }

  /** Adding each share to its block adds the whole service to the union. */
  lemma Regroup4<T>(a: multiset<T>, b: multiset<T>, c: multiset<T>, d: multiset<T>, sa: multiset<T>, sb: multiset<T>, sc: multiset<T>, sd: multiset<T>,
                    m: multiset<T>, x: T)
    requires a + b + c + d == m && sa + sb + sc + sd == multiset{x}
    ensures (a + sa) + (b + sb) + (c + sc) + (d + sd) == m + multiset{x}
  {
  }

  function BlocksUnion(ss: seq<Service>): multiset<Service> {
    multiset(Block(ss, Printing)) + multiset(Block(ss, Certificates)) + multiset(Block(ss, Bills)) + multiset(Block(ss, MpOnline))
  }

  lemma BlocksUnionSnoc(ss: seq<Service>, x: Service)
    ensures BlocksUnion(ss + [x]) == BlocksUnion(ss) + multiset{x}
  {
    BlockMultisetSnoc(ss, x, Printing);
    BlockMultisetSnoc(ss, x, Certificates);
    BlockMultisetSnoc(ss, x, Bills);
    BlockMultisetSnoc(ss, x, MpOnline);
    Regroup4(multiset(Block(ss, Printing)), multiset(Block(ss, Certificates)), multiset(Block(ss, Bills)), multiset(Block(ss, MpOnline)),
             Share(x, Printing), Share(x, Certificates), Share(x, Bills), Share(x, MpOnline), BlocksUnion(ss), x);
  }

  lemma SnocMultiset(ss: seq<Service>)
    requires |ss| > 0
    ensures ss == ss[..|ss| - 1] + [ss[|ss| - 1]]
    ensures multiset(ss) == multiset(ss[..|ss| - 1]) + multiset{ss[|ss| - 1]}
  {
    assert ss == ss[..|ss| - 1] + [ss[|ss| - 1]];
  }

  /** The four blocks hold every service exactly once. */
  lemma {:induction false} CategoryMultiset(ss: seq<Service>)
    ensures BlocksUnion(ss) == multiset(ss)
  {
    if |ss| > 0 {
      var init, x := ss[..|ss| - 1], ss[|ss| - 1];
      CategoryMultiset(init);
      BlocksUnionSnoc(init, x);
      SnocMultiset(ss);
    }
  }

  /** The sorted list is ordered by category and holds exactly the services given, each as often. */
  lemma SortByCategoryShape(ss: seq<Service>)
    ensures forall i, j :: 0 <= i < j < |SortByCategory(ss)| ==>
      CategoryRank(SortByCategory(ss)[i].category) <= CategoryRank(SortByCategory(ss)[j].category)
    ensures multiset(SortByCategory(ss)) == multiset(ss)
  {
    CategoryMultiset(ss);
    BlocksSorted(Block(ss, Printing), Block(ss, Certificates), Block(ss, Bills), Block(ss, MpOnline));
  }

  /** Which of four consecutive blocks of lengths la, lb, lc and the rest position p falls in. */
  function BlockOf(p: int, la: int, lb: int, lc: int): nat {
    if p < la then 0 else if p < la + lb then 1 else if p < la + lb + lc then 2 else 3
  }

  lemma BlocksSorted(a: seq<Service>, b: seq<Service>, c: seq<Service>, d: seq<Service>)
    requires forall i :: 0 <= i < |a| ==> InCategory(a[i], Printing)
    requires forall i :: 0 <= i < |b| ==> InCategory(b[i], Certificates)
    requires forall i :: 0 <= i < |c| ==> InCategory(c[i], Bills)
    requires forall i :: 0 <= i < |d| ==> InCategory(d[i], MpOnline)
    ensures forall i, j :: 0 <= i < j < |a + b + c + d| ==>
      CategoryRank((a + b + c + d)[i].category) <= CategoryRank((a + b + c + d)[j].category)
  {
    var r := a + b + c + d;
    forall p | 0 <= p < |r|
      ensures CategoryRank(r[p].category) == BlockOf(p, |a|, |b|, |c|)
    {
      if p < |a| {
        assert r[p] == a[p];
      } else if p < |a| + |b| {
        assert r[p] == b[p - |a|];
      } else if p < |a| + |b| + |c| {
        assert r[p] == c[p - |a| - |b|];
      } else {
        assert r[p] == d[p - |a| - |b| - |c|];
      }
    }
  }

  /** `useServices`: the active services only. */
  function CustomerCatalog(all: seq<Service>): (r: seq<Service>)
    ensures forall i :: 0 <= i < |r| ==> r[i].isActive == Some(true)
  {
    var active := Seqs.Filter(all, (x: Service) => Js.IsTrue(x.isActive));
    SortByCategoryShape(active);
    var r := SortByCategory(active);
    forall i | 0 <= i < |r|
      ensures r[i].isActive == Some(true)
    {
      assert r[i] in multiset(r);
      Seqs.FilterMember(all, (x: Service) => Js.IsTrue(x.isActive), r[i]);
    }
    r
  }

  /** `useAllServices`: every service, inactive ones included. */
  function AdminCatalog(all: seq<Service>): (r: seq<Service>)
    ensures multiset(r) == multiset(all)
  {
    SortByCategoryShape(all);
    SortByCategory(all)
  }

  /** A service is offered to customers exactly when it is explicitly active; a null flag hides it. */
  lemma CustomerCatalogMembers(all: seq<Service>, s: Service)
    ensures s in CustomerCatalog(all) <==> s in all && s.isActive == Some(true)
  {
    var active := Seqs.Filter(all, (x: Service) => Js.IsTrue(x.isActive));
    SortByCategoryShape(active);
    assert s in CustomerCatalog(all) <==> s in multiset(active);
    if s in all && s.isActive == Some(true) {
      var i :| 0 <= i < |all| && all[i] == s;
    }
  }
}

=== FILE: strings.dfy ===
/**
 * The string operations the pages use, on `string` = `seq<char>`.
 * Case mapping is ASCII only; `parseInt` is a leading-integer parse.
 */
module Strings {
  import opened Wrappers
  import Seqs

  predicate IsUpperAscii(c: char) {
    'A' <= c <= 'Z'
  }

  predicate IsLowerAscii(c: char) {
    'a' <= c <= 'z'
  }

  function LowerChar(c: char): char {
    if IsUpperAscii(c) then (c as int + 32) as char else c
  }

  function UpperChar(c: char): char {
    if IsLowerAscii(c) then (c as int - 32) as char else c
  }

  /** `s.toLowerCase()` restricted to ASCII letters. */
  function Lower(s: string): (r: string)
    ensures |r| == |s|
    ensures forall i :: 0 <= i < |s| ==> r[i] == LowerChar(s[i])
  {
    seq(|s|, i requires 0 <= i < |s| => LowerChar(s[i]))
  }

  /** `s.toUpperCase()` restricted to ASCII letters. */
  function Upper(s: string): (r: string)
    ensures |r| == |s|
    ensures forall i :: 0 <= i < |s| ==> r[i] == UpperChar(s[i])
  {
    seq(|s|, i requires 0 <= i < |s| => UpperChar(s[i]))
  }

  predicate StartsWith(s: string, prefix: string) {
    |prefix| <= |s| && s[..|prefix|] == prefix
  }

  predicate EndsWith(s: string, suffix: string) {
    |suffix| <= |s| && s[|s| - |suffix|..] == suffix
  }

  /** `needle` occurs in `hay` starting at position i. */
  predicate OccursAt(hay: string, needle: string, i: int) {
    0 <= i && i + |needle| <= |hay| && hay[i..i + |needle|] == needle
  }

  /** `hay.includes(needle)`. */
  function Contains(hay: string, needle: string): bool
    decreases |hay|
  {
    StartsWith(hay, needle) || (|hay| > 0 && Contains(hay[1..], needle))
  }

  /** Contains is exactly "occurs at some position". */
  lemma {:induction false} ContainsIffOccurs(hay: string, needle: string)
    ensures Contains(hay, needle) <==> exists i :: OccursAt(hay, needle, i)
    decreases |hay|
  {
    if StartsWith(hay, needle) {
      assert OccursAt(hay, needle, 0);
    } else if |hay| > 0 {
      ContainsIffOccurs(hay[1..], needle);
      if Contains(hay[1..], needle) {
        var i :| OccursAt(hay[1..], needle, i);
        assert hay[1..][i..i + |needle|] == hay[i + 1..i + 1 + |needle|];
        assert OccursAt(hay, needle, i + 1);
      }
      if exists i :: OccursAt(hay, needle, i) {
        var i :| OccursAt(hay, needle, i);
        if i > 0 {
          assert hay[1..][i - 1..i - 1 + |needle|] == hay[i..i + |needle|];
          assert OccursAt(hay[1..], needle, i - 1);
        }
      }
    }
  }

  /** The empty string occurs in every string, so an empty search matches everything. */
  lemma ContainsEmpty(hay: string)
    ensures Contains(hay, [])
  {
    assert hay[..0] == [];
  }

  /** `hay.toLowerCase().includes(query.toLowerCase())`. */
  predicate IncludesIgnoreCase(hay: string, query: string) {
    Contains(Lower(hay), Lower(query))
  }

  lemma IncludesIgnoreCaseEmpty(hay: string)
    ensures IncludesIgnoreCase(hay, [])
  {
    ContainsEmpty(Lower(hay));
  }

  /** `s?.toLowerCase().includes(query.toLowerCase()) || false`: a missing string never matches. */
  predicate OptionIncludesIgnoreCase(s: Option<string>, query: string) {
    s.Some? && IncludesIgnoreCase(s.value, query)
  }

  /**
   * `s.split(c).pop()`: the text after the last c, or all of s when it has none.
   * It is the longest suffix of s free of c.
   */
  function AfterLast(s: string, c: char): (r: string)
    ensures c !in r
    ensures EndsWith(s, r)
    ensures |r| < |s| ==> s[|s| - |r| - 1] == c
  {
    if |s| == 0 then []
    else if s[|s| - 1] == c then []
    else
      var r' := AfterLast(s[..|s| - 1], c);
      assert s[|s| - 1 - |r'|..] == s[..|s| - 1][|s| - 1 - |r'|..] + [s[|s| - 1]];
      r' + [s[|s| - 1]]
  }

  /** A string that ends in c followed by a c-free tail has that tail as its last segment. */
  lemma {:induction false} AfterLastOfSuffix(prefix: string, c: char, tail: string)
    requires c !in tail
    ensures AfterLast(prefix + [c] + tail, c) == tail
    decreases |tail|
  {
    var s := prefix + [c] + tail;
    if |tail| == 0 {
      assert s[|s| - 1] == c;
    } else {
      var init := tail[..|tail| - 1];
      assert s[..|s| - 1] == prefix + [c] + init;
      AfterLastOfSuffix(prefix, c, init);
      assert init + [tail[|tail| - 1]] == tail;
    }
  }

  lemma OccursAtTail(s: string, sep: string, j: int)
    requires |s| > 0 && j >= 1
    ensures OccursAt(s, sep, j) <==> OccursAt(s[1..], sep, j - 1)
  {
    if j + |sep| <= |s| {
      assert s[j..j + |sep|] == s[1..][j - 1..j - 1 + |sep|];
    }
  }

  /** The first position where sep occurs in s (`s.indexOf(sep)`), None when it does not. */
  function IndexOf(s: string, sep: string): (r: Option<nat>)
    ensures r.Some? ==> OccursAt(s, sep, r.value)
    ensures r.Some? ==> forall j :: 0 <= j < r.value ==> !OccursAt(s, sep, j)
    ensures r.None? ==> forall j :: !OccursAt(s, sep, j)
    decreases |s|
  {
    if StartsWith(s, sep) then Some(0)
    else if |s| == 0 then None
    else
      var r := IndexOf(s[1..], sep);
      assert forall j :: 1 <= j ==> (OccursAt(s, sep, j) <==> OccursAt(s[1..], sep, j - 1)) by {
        forall j | 1 <= j {
          OccursAtTail(s, sep, j);
        }
      }
      if r.None? then None else Some(r.value + 1)
  }

  /** A separator first found at the end of base + sep is still found there once more text follows. */
  lemma IndexOfExtended(base: string, sep: string, tail: string)
    requires IndexOf(base + sep, sep) == Some(|base|)
    ensures IndexOf(base + sep + tail, sep) == Some(|base|)
  {
    var u := base + sep;
    var s := u + tail;
    assert s[|base|..|base| + |sep|] == sep;
    forall j | 0 <= j < |base|
      ensures !OccursAt(s, sep, j)
    {
      assert !OccursAt(u, sep, j);
      if j + |sep| <= |s| {
        assert s[j..j + |sep|] == u[j..j + |sep|];
      }
    }
    assert OccursAt(s, sep, |base|);
    var r := IndexOf(s, sep);
    assert r.Some?;
  }

  /** A string that never holds the separator's first character does not contain the separator. */
  lemma NoIndexWithoutHead(s: string, sep: string)
    requires |sep| > 0 && forall i :: 0 <= i < |s| ==> s[i] != sep[0]
    ensures IndexOf(s, sep).None?
  {
    forall j
      ensures !OccursAt(s, sep, j)
    {
      if 0 <= j && j + |sep| <= |s| {
        assert s[j..j + |sep|][0] == s[j];
      }
    }
  }

  predicate IsDigit(c: char) {
    '0' <= c <= '9'
  }

  function DigitChar(d: nat): char
    requires d < 10
  {
    ('0' as int + d) as char
  }

  function DigitValue(c: char): nat
    requires IsDigit(c)
  {
    c as int - '0' as int
  }

  /** Decimal digits of n, most significant first, without leading zeros. */
  function NatToString(n: nat): (r: string)
    ensures |r| >= 1
    ensures forall i :: 0 <= i < |r| ==> IsDigit(r[i])
    ensures |r| > 1 ==> r[0] != '0'
  {
    if n < 10 then [DigitChar(n)]
    else NatToString(n / 10) + [DigitChar(n % 10)]
  }

  /** `${i}` for an integer-valued number. */
  function IntToString(i: int): string {
    if i < 0 then "-" + NatToString(-i) else NatToString(i)
  }

  /** The value of a string of decimal digits. */
  function DigitsValue(d: string): nat
    requires forall i :: 0 <= i < |d| ==> IsDigit(d[i])
  {
    if |d| == 0 then 0 else DigitsValue(d[..|d| - 1]) * 10 + DigitValue(d[|d| - 1])
  }

  /** The longest prefix of s made of decimal digits. */
  function LeadingDigits(s: string): (r: string)
    ensures |r| <= |s| && r == s[..|r|]
    ensures forall i :: 0 <= i < |r| ==> IsDigit(r[i])
    ensures |r| < |s| ==> !IsDigit(s[|r|])
  {
    if |s| == 0 || !IsDigit(s[0]) then []
    else [s[0]] + LeadingDigits(s[1..])
  }

  lemma {:induction false} NatToStringValue(n: nat)
    ensures DigitsValue(NatToString(n)) == n
  {
    if n >= 10 {
      NatToStringValue(n / 10);
      var r := NatToString(n);
      assert r[..|r| - 1] == NatToString(n / 10);
    }
  }

  lemma LeadingDigitsOfDigits(s: string)
    requires forall i :: 0 <= i < |s| ==> IsDigit(s[i])
    ensures LeadingDigits(s) == s
  {
  }

  /**
   * White space that `trim` and `parseInt` skip: the ECMAScript WhiteSpace
   * characters (tab, vertical tab, form feed, the byte order mark and every
   * space separator) and its LineTerminator characters.
   */
  predicate IsWhite(c: char) {
    || c == '\t' || c == '\n' || c == '\U{B}' || c == '\U{C}' || c == '\r' || c == ' '
    || c == '\U{A0}' || c == '\U{1680}' || '\U{2000}' <= c <= '\U{200A}'
    || c == '\U{2028}' || c == '\U{2029}' || c == '\U{202F}' || c == '\U{205F}'
    || c == '\U{3000}' || c == '\U{FEFF}'
  }

  function TrimStart(s: string): (r: string)
    ensures EndsWith(s, r)
    ensures |r| > 0 ==> !IsWhite(r[0])
    ensures forall i :: 0 <= i < |s| - |r| ==> IsWhite(s[i])
  {
    if |s| > 0 && IsWhite(s[0]) then TrimStart(s[1..]) else s
  }

  function TrimEnd(s: string): (r: string)
    ensures StartsWith(s, r)
    ensures |r| > 0 ==> !IsWhite(r[|r| - 1])
    ensures forall i :: |r| <= i < |s| ==> IsWhite(s[i])
  {
    if |s| > 0 && IsWhite(s[|s| - 1]) then TrimEnd(s[..|s| - 1]) else s
  }

  /** `s.trim()`. */
  function Trim(s: string): string {
    TrimEnd(TrimStart(s))
  }

  /**
   * `parseInt(s, 10)` read as a leading-integer parse: skip white space, an
   * optional sign, then the longest run of decimal digits; None (NaN) when
   * there are no digits.
   */
  function ParseLeadingInt(s: string): Option<int> {
    ParseSigned(TrimStart(s))
  }

  function ParseSigned(t: string): Option<int> {
    if |t| > 0 && t[0] == '-' then
      var d := LeadingDigits(t[1..]);
      if |d| == 0 then None else Some(-(DigitsValue(d) as int))
    else
      var body := if |t| > 0 && t[0] == '+' then t[1..] else t;
      var d := LeadingDigits(body);
      if |d| == 0 then None else Some(DigitsValue(d))
  }

  lemma TrimStartNoWhite(t: string)
    requires |t| > 0 && !IsWhite(t[0])
    ensures TrimStart(t) == t
  {
  }

  /** A text that neither starts nor ends with white space is its own trim. */
  lemma TrimNoWhiteEnds(t: string)
    requires |t| > 0 && !IsWhite(t[0]) && !IsWhite(t[|t| - 1])
    ensures Trim(t) == t
  {
    TrimStartNoWhite(t);
  }

  /** `trimStart` of a text that starts with white space is that of the rest. */
  lemma TrimStartStep(s: string)
    requires |s| > 0 && IsWhite(s[0])
    ensures TrimStart(s) == TrimStart(s[1..])
  {
  }

  /** `trimStart` drops any run of white space in front. */
  lemma {:induction false} TrimStartSkipsWhite(w: string, t: string)
    requires forall i :: 0 <= i < |w| ==> IsWhite(w[i])
    ensures TrimStart(w + t) == TrimStart(t)
    decreases |w|
  {
    if |w| > 0 {
      var s := w + t;
      assert s[0] == w[0];
      TrimStartStep(s);
      assert s[1..] == w[1..] + t;
      TrimStartSkipsWhite(w[1..], t);
    } else {
      assert w + t == t;
    }
  }

  /** White space in front of a number never changes what `parseInt` reads. */
  lemma ParseSkipsWhite(w: string, t: string)
    requires forall i :: 0 <= i < |w| ==> IsWhite(w[i])
    ensures ParseLeadingInt(w + t) == ParseLeadingInt(t)
  {
    TrimStartSkipsWhite(w, t);
  }

  /** An ideographic space and a space before a digit are both skipped. */
  lemma IdeographicSpaceSkipped()
    ensures ParseLeadingInt("\U{3000} 3") == Some(3)
  {
    assert IntToString(3) == "3";
    ParseIntToString(3);
    ParseSkipsWhite("\U{3000} ", "3");
    assert "\U{3000} " + "3" == "\U{3000} 3";
  }

  /** Printing an integer and parsing it back gives the integer. */
  lemma ParseIntToString(i: int)
    ensures ParseLeadingInt(IntToString(i)) == Some(i)
  {
    var n: nat := if i < 0 then -i else i;
    ParseDigits(n);
    var t := IntToString(i);
    TrimStartNoWhite(t);
    if i < 0 {
      Seqs.DropPrefix("-", NatToString(n));
    }
  }

  /** The digits of n parse back to n, and do not start with a sign. */
  lemma ParseDigits(n: nat)
    ensures |NatToString(n)| > 0 && IsDigit(NatToString(n)[0])
    ensures LeadingDigits(NatToString(n)) == NatToString(n)
    ensures DigitsValue(NatToString(n)) == n
  {
    NatToStringValue(n);
    LeadingDigitsOfDigits(NatToString(n));
  }

  /** The UTF-16 length JavaScript reports: characters outside the BMP count twice. */
  function Utf16Length(s: string): (r: nat)
    ensures |s| <= r <= 2 * |s|
  {
    if |s| == 0 then 0
    else Utf16Length(s[..|s| - 1]) + (if s[|s| - 1] as int >= 0x10000 then 2 else 1)
  }

  /** n in decimal, left-padded with zeros to at least `width` digits. */
  function PadNat(n: nat, width: nat): (r: string)
    ensures |r| >= width
    ensures forall i :: 0 <= i < |r| ==> IsDigit(r[i])
  {
    var d := NatToString(n);
    if |d| >= width then d else seq(width - |d|, _ => '0') + d
  }

  function Pow10(k: nat): (r: nat)
    ensures r >= 1
  {
    if k == 0 then 1 else 10 * Pow10(k - 1)
  }

  /** A number below 10^w has at most w digits. */
  lemma {:induction false} NatToStringShort(n: nat, w: nat)
    requires w >= 1 && n < Pow10(w)
    ensures |NatToString(n)| <= w
  {
    if n >= 10 {
      NatToStringShort(n / 10, w - 1);
    }
  }

  /** Zeros alone are worth nothing. */
  lemma {:induction false} ZerosValue(z: string)
    requires forall i :: 0 <= i < |z| ==> z[i] == '0'
    ensures DigitsValue(z) == 0
  {
    if |z| > 0 {
      ZerosValue(z[..|z| - 1]);
    }
  }

  /** Leading zeros do not change the value of a digit string. */
  lemma {:induction false} LeadingZerosValue(z: string, d: string)
    requires forall i :: 0 <= i < |z| ==> z[i] == '0'
    requires forall i :: 0 <= i < |d| ==> IsDigit(d[i])
    ensures DigitsValue(z + d) == DigitsValue(d)
    decreases |d|
  {
    if |d| == 0 {
      assert z + d == z;
      ZerosValue(z);
    } else {
      var init := d[..|d| - 1];
      assert (z + d)[..|z + d| - 1] == z + init;
      LeadingZerosValue(z, init);
    }
  }

  /** A padded number reads back as the number, and fills exactly the width when it fits. */
  lemma PadNatValue(n: nat, width: nat)
    ensures DigitsValue(PadNat(n, width)) == n
    ensures width >= 1 && n < Pow10(width) ==> |PadNat(n, width)| == width
  {
    var d := NatToString(n);
    NatToStringValue(n);
    if |d| < width {
      LeadingZerosValue(seq(width - |d|, _ => '0'), d);
    }
    if width >= 1 && n < Pow10(width) {
      NatToStringShort(n, width);
    }
  }
}

=== FILE: upi.dfy ===
/**
 * The UPI payment card: the `upi://pay` deep link that opens a payment app,
 * and the QR-code image URL that carries the same payment request.
 */
module Upi {
  import opened Wrappers
  import Seqs
  import Strings
  import Uri

  const UpiId: string := "8878502349@ybl"
  const MerchantName: string := "Dastawez"
  const Scheme: string := "upi://pay?"
  const QrPrefix: string := "https://api.qrserver.com/v1/create-qr-code/?size=200x200&data="

  // ---------------------------------------------------------------------------
  // Query strings

  /** One `key=value` pair of a query string. */
  datatype Param = Param(key: string, value: string)

  /** The position of the first c in s. */
  function FirstIndex(s: string, c: char): (r: nat)
    requires c in s
    ensures r < |s| && s[r] == c
    ensures forall j :: 0 <= j < r ==> s[j] != c
  {
    if s[0] == c then 0 else 1 + FirstIndex(s[1..], c)
  }

  lemma {:induction false} FirstIndexAfter(head: string, c: char, rest: string)
    requires c !in head
    ensures c in head + [c] + rest && FirstIndex(head + [c] + rest, c) == |head|
  {
    var s := head + [c] + rest;
    assert s[|head|] == c;
    if |head| > 0 {
      assert s[1..] == head[1..] + [c] + rest;
      FirstIndexAfter(head[1..], c, rest);
    }
  }

  /** A pair read at its first '='; a segment without one is a key with an empty value. */
  function ParseParam(seg: string): Param {
    if '=' in seg then
      var i := FirstIndex(seg, '=');
      Param(seg[..i], seg[i + 1..])
    else Param(seg, "")
  }

  /** The pairs of a query string, split at every '&', in order. */
  function Params(q: string): (r: seq<Param>)
    ensures |r| >= 1
    decreases |q|
  {
    if '&' !in q then [ParseParam(q)]
    else
      var i := FirstIndex(q, '&');
      [ParseParam(q[..i])] + Params(q[i + 1..])
  }

  function Field(p: Param): string {
    p.key + "=" + p.value
  }

  /** The pairs written as `k1=v1&k2=v2&…`. */
  function Query(ps: seq<Param>): string
    requires |ps| >= 1
  {
    if |ps| == 1 then Field(ps[0]) else Field(ps[0]) + "&" + Query(ps[1..])
  }

  /** A pair that reads back unchanged: no separator in the key, no '&' in the value. */
  predicate Clean(p: Param) {
    '=' !in p.key && '&' !in p.key && '&' !in p.value
  }

  lemma ParseField(p: Param)
    requires '=' !in p.key
    ensures ParseParam(Field(p)) == p
  {
    FirstIndexAfter(p.key, '=', p.value);
    var s := Field(p);
    assert s == p.key + ['='] + p.value;
    assert s[..|p.key|] == p.key;
    assert s[|p.key| + 1..] == p.value;
  }

  /** Writing clean pairs and reading them back gives the same pairs, in the same order. */
  lemma {:induction false} ParamsOfQuery(ps: seq<Param>)
    requires |ps| >= 1
    requires forall i :: 0 <= i < |ps| ==> Clean(ps[i])
    ensures Params(Query(ps)) == ps
  {
    var f := Field(ps[0]);
    assert '&' !in f by {
      forall j | 0 <= j < |f|
        ensures f[j] != '&'
      {
        if j < |ps[0].key| {
          assert f[j] == ps[0].key[j];
        } else if j > |ps[0].key| {
          assert f[j] == ps[0].value[j - |ps[0].key| - 1];
        }
      }
    }
    ParseField(ps[0]);
    if |ps| > 1 {
      var rest := Query(ps[1..]);
      FirstIndexAfter(f, '&', rest);
      var q := f + "&" + rest;
      assert q == f + ['&'] + rest;
      assert q[..|f|] == f;
      assert q[|f| + 1..] == rest;
      ParamsOfQuery(ps[1..]);
    }
  }

  // ---------------------------------------------------------------------------
  // Deep link and QR code

  /** The payment note of the deep link: the service and the order's short id. */
  function LinkNote(serviceName: string, orderId: string): string {
    "Order: " + serviceName + " - " + Seqs.Take(orderId, 8)
  }

  /** `${amount}` for a whole-rupee amount. */
  function AmountText(amount: int): string {
    Strings.IntToString(amount)
  }

  /**
   * `generateUPILink`: the scheme followed by the query of the five payment
   * parameters, every free-text value encoded and the amount written as is.
   */
  function UpiLink(amount: int, orderId: string, serviceName: string): (r: string)
    ensures r == Scheme + Query(Request(Uri.Encode(UpiId), Uri.Encode(MerchantName), AmountText(amount), Uri.Encode(LinkNote(serviceName, orderId))))
  {
    var pa, pn, am, tn := Uri.Encode(UpiId), Uri.Encode(MerchantName), AmountText(amount), Uri.Encode(LinkNote(serviceName, orderId));
    Written(pa, pn, am, tn);
    Scheme + "pa=" + pa + "&pn=" + pn + "&am=" + am + "&tn=" + tn + "&cu=INR"
  }

  /**
   * The payment request inside the QR code: the same five parameters with
   * nothing encoded, and a note that names only the service.
   */
  function QrPayload(amount: int, serviceName: string): (r: string)
    ensures r == Scheme + Query(Request(UpiId, MerchantName, AmountText(amount), "Order: " + serviceName))
  {
    var head := Scheme + "pa=" + UpiId + "&pn=" + MerchantName + "&am=" + AmountText(amount);
    assert "&tn=Order: " == "&tn=" + "Order: ";
    assert head + "&tn=Order: " + serviceName == head + "&tn=" + ("Order: " + serviceName);
    Written(UpiId, MerchantName, AmountText(amount), "Order: " + serviceName);
    head + "&tn=Order: " + serviceName + "&cu=INR"
  }

  /** `generateQRCodeURL`: the payload encoded once as the `data` parameter of the QR service. */
  function QrCodeUrl(amount: int, serviceName: string): (r: string)
    ensures Strings.StartsWith(r, QrPrefix)
  {
    var r := QrPrefix + Uri.Encode(QrPayload(amount, serviceName));
    assert r[..|QrPrefix|] == QrPrefix;
    r
  }

  /** The parameters of a link or payload, in the order they are written. */
  function Request(pa: string, pn: string, am: string, tn: string): seq<Param> {
    [Param("pa", pa), Param("pn", pn), Param("am", am), Param("tn", tn), Param("cu", "INR")]
  }

  /** A query of several pairs is the first field, an '&', and the query of the rest. */
  lemma QueryCons(p: Param, ps: seq<Param>)
    requires |ps| >= 1
    ensures Query([p] + ps) == Field(p) + "&" + Query(ps)
  {
    assert ([p] + ps)[1..] == ps;
  }

  lemma QueryFive(p0: Param, p1: Param, p2: Param, p3: Param, p4: Param)
    ensures Query([p0, p1, p2, p3, p4]) == Field(p0) + "&" + Field(p1) + "&" + Field(p2) + "&" + Field(p3) + "&" + Field(p4)
  {
    var q4 := Query([p4]);
    QueryCons(p3, [p4]);
    assert [p3] + [p4] == [p3, p4];
    var q3 := Query([p3, p4]);
    QueryCons(p2, [p3, p4]);
    assert [p2] + [p3, p4] == [p2, p3, p4];
    var q2 := Query([p2, p3, p4]);
    QueryCons(p1, [p2, p3, p4]);
    assert [p1] + [p2, p3, p4] == [p1, p2, p3, p4];
    var q1 := Query([p1, p2, p3, p4]);
    QueryCons(p0, [p1, p2, p3, p4]);
    assert [p0] + [p1, p2, p3, p4] == [p0, p1, p2, p3, p4];
    Flatten5(Field(p0), Field(p1), Field(p2), Field(p3), Field(p4));
  }

  lemma Flatten5(f0: string, f1: string, f2: string, f3: string, f4: string)
    ensures f0 + "&" + (f1 + "&" + (f2 + "&" + (f3 + "&" + f4))) == f0 + "&" + f1 + "&" + f2 + "&" + f3 + "&" + f4
  {
  }

  /** The literal pieces of a link split into separator, key and '='. */
  lemma LinkPieces()
    ensures "pa=" == "pa" + "=" && "&pn=" == "&" + "pn" + "=" && "&am=" == "&" + "am" + "="
    ensures "&tn=" == "&" + "tn" + "=" && "&cu=INR" == "&" + "cu" + "=" + "INR"
  {
  }

  /** Regrouping the written link into the scheme and its five fields. */
  lemma Regroup5(sch: string, l0: string, v0: string, l1: string, v1: string, l2: string, v2: string, l3: string, v3: string, l4: string,
                 k0: string, k1: string, k2: string, k3: string, k4: string, v4: string)
    requires l0 == k0 + "=" && l1 == "&" + k1 + "=" && l2 == "&" + k2 + "=" && l3 == "&" + k3 + "=" && l4 == "&" + k4 + "=" + v4
    ensures sch + l0 + v0 + l1 + v1 + l2 + v2 + l3 + v3 + l4
      == sch + ((k0 + "=" + v0) + "&" + (k1 + "=" + v1) + "&" + (k2 + "=" + v2) + "&" + (k3 + "=" + v3) + "&" + (k4 + "=" + v4))
  {
  }

  /** A link or payload is the scheme followed by the query of its five parameters. */
  lemma Shape(pa: string, pn: string, am: string, tn: string)
    ensures var u := Scheme + "pa=" + pa + "&pn=" + pn + "&am=" + am + "&tn=" + tn + "&cu=INR";
      Strings.StartsWith(u, Scheme) && u[|Scheme|..] == Query(Request(pa, pn, am, tn))
  {
    var u := Scheme + "pa=" + pa + "&pn=" + pn + "&am=" + am + "&tn=" + tn + "&cu=INR";
    var q := Query(Request(pa, pn, am, tn));
    QueryFive(Param("pa", pa), Param("pn", pn), Param("am", am), Param("tn", tn), Param("cu", "INR"));
    LinkPieces();
    Regroup5(Scheme, "pa=", pa, "&pn=", pn, "&am=", am, "&tn=", tn, "&cu=INR", "pa", "pn", "am", "tn", "cu", "INR");
    assert u == Scheme + q;
    PrefixOf(Scheme, q);
  }

  /** The written link or payload is the scheme followed by the query of its parameters. */
  lemma Written(pa: string, pn: string, am: string, tn: string)
    ensures Scheme + "pa=" + pa + "&pn=" + pn + "&am=" + am + "&tn=" + tn + "&cu=INR" == Scheme + Query(Request(pa, pn, am, tn))
  {
    var u := Scheme + "pa=" + pa + "&pn=" + pn + "&am=" + am + "&tn=" + tn + "&cu=INR";
    Shape(pa, pn, am, tn);
    assert u == u[..|Scheme|] + u[|Scheme|..];
  }

  lemma PrefixOf(s: string, q: string)
    ensures Strings.StartsWith(s + q, s) && (s + q)[|s|..] == q
  {
    assert (s + q)[..|s|] == s;
  }

  lemma EncodedHasNoSeparator(s: string)
    ensures '&' !in Uri.Encode(s) && '=' !in Uri.Encode(s)
  {
    var e := Uri.Encode(s);
    forall j | 0 <= j < |e|
      ensures e[j] != '&' && e[j] != '='
    {
      assert Uri.IsUnreserved(e[j]) || e[j] == '%';
    }
  }

  lemma AmountHasNoSeparator(amount: int)
    ensures '&' !in AmountText(amount)
  {
    var t := AmountText(amount);
    var n: nat := if amount < 0 then -amount else amount;
    var d := Strings.NatToString(n);
    forall j | 0 <= j < |t|
      ensures t[j] != '&'
    {
      if amount < 0 {
        if j > 0 {
          assert t[j] == d[j - 1];
        }
      } else {
        assert t[j] == d[j];
      }
    }
  }

  lemma RequestClean(pa: string, pn: string, am: string, tn: string)
    requires '&' !in pa && '&' !in pn && '&' !in am && '&' !in tn
    ensures forall i :: 0 <= i < 5 ==> Clean(Request(pa, pn, am, tn)[i])
  {
  }

  /**
   * The deep link reads back as the five parameters pa, pn, am, tn, cu in that
   * order, and each encoded value decodes to the UPI id, the merchant name and
   * the note with the order's short id.
   */
  lemma LinkParameters(amount: int, orderId: string, serviceName: string)
    ensures Strings.StartsWith(UpiLink(amount, orderId, serviceName), Scheme)
    ensures Params(UpiLink(amount, orderId, serviceName)[|Scheme|..])
      == Request(Uri.Encode(UpiId), Uri.Encode(MerchantName), AmountText(amount), Uri.Encode(LinkNote(serviceName, orderId)))
    ensures Uri.Decode(Uri.Encode(UpiId)) == Some(UpiId)
    ensures Uri.Decode(Uri.Encode(MerchantName)) == Some(MerchantName)
    ensures Uri.Decode(Uri.Encode(LinkNote(serviceName, orderId))) == Some(LinkNote(serviceName, orderId))
  {
    var pa, pn, am, tn := Uri.Encode(UpiId), Uri.Encode(MerchantName), AmountText(amount), Uri.Encode(LinkNote(serviceName, orderId));
    Shape(pa, pn, am, tn);
    EncodedHasNoSeparator(UpiId);
    EncodedHasNoSeparator(MerchantName);
    EncodedHasNoSeparator(LinkNote(serviceName, orderId));
    AmountHasNoSeparator(amount);
    RequestClean(pa, pn, am, tn);
    ParamsOfQuery(Request(pa, pn, am, tn));
    Uri.DecodeEncode(UpiId);
    Uri.DecodeEncode(MerchantName);
    Uri.DecodeEncode(LinkNote(serviceName, orderId));
  }

  /** Scanning the QR code gives back the whole payment request, exactly. */
  lemma QrCarriesPayload(amount: int, serviceName: string)
    ensures Uri.Decode(QrCodeUrl(amount, serviceName)[|QrPrefix|..]) == Some(QrPayload(amount, serviceName))
  {
    var r := QrCodeUrl(amount, serviceName);
    assert r[|QrPrefix|..] == Uri.Encode(QrPayload(amount, serviceName));
    Uri.DecodeEncode(QrPayload(amount, serviceName));
  }

  lemma QrPayloadShape(amount: int, serviceName: string)
    ensures QrPayload(amount, serviceName)
      == Scheme + "pa=" + UpiId + "&pn=" + MerchantName + "&am=" + AmountText(amount) + "&tn=" + ("Order: " + serviceName) + "&cu=INR"
  {
    var head := Scheme + "pa=" + UpiId + "&pn=" + MerchantName + "&am=" + AmountText(amount);
    assert "&tn=Order: " == "&tn=" + "Order: ";
    assert head + "&tn=Order: " + serviceName == head + "&tn=" + ("Order: " + serviceName);
  }

  lemma QrNoteClean(serviceName: string)
    requires '&' !in serviceName
    ensures '&' !in "Order: " + serviceName
  {
    var tn := "Order: " + serviceName;
    forall j | 0 <= j < |tn|
      ensures tn[j] != '&'
    {
      if j >= 7 {
        assert tn[j] == serviceName[j - 7];
      }
    }
  }

  /**
   * For a service name without '&', the QR payment request reads back as the
   * same five parameters, with the raw UPI id and name, the same amount text
   * as the deep link, and a note without the order id.
   */
  lemma QrParameters(amount: int, serviceName: string)
    requires '&' !in serviceName
    ensures Strings.StartsWith(QrPayload(amount, serviceName), Scheme)
    ensures Params(QrPayload(amount, serviceName)[|Scheme|..]) == Request(UpiId, MerchantName, AmountText(amount), "Order: " + serviceName)
  {
    var tn := "Order: " + serviceName;
    var am := AmountText(amount);
    assert '&' !in UpiId && '&' !in MerchantName;
    QrNoteClean(serviceName);
    AmountHasNoSeparator(amount);
    QrPayloadShape(amount, serviceName);
    Shape(UpiId, MerchantName, am, tn);
    RequestClean(UpiId, MerchantName, am, tn);
    ParamsOfQuery(Request(UpiId, MerchantName, am, tn));
  }

  lemma FieldHasNoAmpersand(p: Param)
    requires Clean(p)
    ensures '&' !in Field(p)
  {
    var f := Field(p);
    forall j | 0 <= j < |f|
      ensures f[j] != '&'
    {
      if j < |p.key| {
        assert f[j] == p.key[j];
      } else if j > |p.key| {
        assert f[j] == p.value[j - |p.key| - 1];
      }
    }
  }

  /** The first segment of a query is read on its own, the rest is read after its '&'. */
  lemma ParamsCons(seg: string, rest: string)
    requires '&' !in seg
    ensures Params(seg + "&" + rest) == [ParseParam(seg)] + Params(rest)
  {
    var q := seg + "&" + rest;
    assert q == seg + ['&'] + rest;
    FirstIndexAfter(seg, '&', rest);
    assert q[..|seg|] == seg;
    assert q[|seg| + 1..] == rest;
  }

  lemma Regroup3(a: string, b: string, c: string)
    ensures (a + "&" + b) + "&" + c == a + "&" + (b + "&" + c)
  {
  }

  /** Clean pairs followed by more text read back as those pairs, then the pairs of the rest. */
  lemma {:induction false} ParamsOfQueryThen(ps: seq<Param>, rest: string)
    requires |ps| >= 1
    requires forall i :: 0 <= i < |ps| ==> Clean(ps[i])
    ensures Params(Query(ps) + "&" + rest) == ps + Params(rest)
    decreases |ps|
  {
    if |ps| == 1 {
      FieldHasNoAmpersand(ps[0]);
      ParseField(ps[0]);
      ParamsCons(Field(ps[0]), rest);
    } else {
      ParamsOfQueryThen(ps[1..], rest);
      ThenStep(ps[0], ps[1..], rest);
      Cons(ps);
    }
  }

  lemma Cons(ps: seq<Param>)
    requires |ps| >= 1
    ensures ps == [ps[0]] + ps[1..]
  {
  }

  /** One more clean pair in front of a query that reads back. */
  lemma ThenStep(p: Param, ps: seq<Param>, rest: string)
    requires |ps| >= 1 && Clean(p)
    requires Params(Query(ps) + "&" + rest) == ps + Params(rest)
    ensures Params(Query([p] + ps) + "&" + rest) == [p] + ps + Params(rest)
  {
    var whole, tail := Query([p] + ps) + "&" + rest, Query(ps) + "&" + rest;
    QueryThenShape(p, ps, rest);
    HeadParam(p, tail);
    assert Params(whole) == [p] + Params(tail);
    Seqs.Assoc([p], ps, Params(rest));
  }

  lemma QueryThenShape(p: Param, ps: seq<Param>, rest: string)
    requires |ps| >= 1
    ensures Query([p] + ps) + "&" + rest == Field(p) + "&" + (Query(ps) + "&" + rest)
  {
    QueryCons(p, ps);
    Regroup3(Field(p), Query(ps), rest);
  }

  /** A clean pair in front of any text is read first. */
  lemma HeadParam(p: Param, tail: string)
    requires Clean(p)
    ensures Params(Field(p) + "&" + tail) == [p] + Params(tail)
  {
    FieldHasNoAmpersand(p);
    ParseField(p);
    ParamsCons(Field(p), tail);
  }



  /**
   * The QR note is not encoded inside the payload, so an '&' in the service
   * name ends the note there and the rest of the name becomes a parameter of
   * its own; the deep link, which encodes its note, is not affected.
   */
  lemma AmpersandSplitsQrNote(amount: int, x: string, y: string)
    requires '&' !in x && '&' !in y
    ensures var ps := Params(QrPayload(amount, x + "&" + y)[|Scheme|..]);
      |ps| == 6 && ps[3] == Param("tn", "Order: " + x) && ps[4] == ParseParam(y) && ps[5] == Param("cu", "INR")
  {
    var four := FourParams(UpiId, MerchantName, AmountText(amount), "Order: " + x);
    var cu := Param("cu", "INR");
    QrNoteClean(x);
    AmountHasNoSeparator(amount);
    assert '&' !in UpiId && '&' !in MerchantName;
    QrSplitShape(amount, x, y);
    FourThen(UpiId, MerchantName, AmountText(amount), "Order: " + x, y, cu);
  }

  function FourParams(pa: string, pn: string, am: string, tn: string): seq<Param> {
    [Param("pa", pa), Param("pn", pn), Param("am", am), Param("tn", tn)]
  }

  /** The four fixed keys hold neither separator, so values without '&' make clean pairs. */
  lemma FourClean(pa: string, pn: string, am: string, tn: string)
    requires '&' !in pa && '&' !in pn && '&' !in am && '&' !in tn
    ensures |FourParams(pa, pn, am, tn)| == 4
    ensures forall i :: 0 <= i < 4 ==> Clean(FourParams(pa, pn, am, tn)[i])
  {
  }

  /** Four clean pairs, a bare segment and one more clean pair read back as six parameters. */
  lemma FourThen(pa: string, pn: string, am: string, tn: string, y: string, p: Param)
    requires '&' !in pa && '&' !in pn && '&' !in am && '&' !in tn && '&' !in y && Clean(p)
    ensures var ps := Params(Query(FourParams(pa, pn, am, tn)) + "&" + (y + "&" + Field(p)));
      |ps| == 6 && ps[3] == Param("tn", tn) && ps[4] == ParseParam(y) && ps[5] == p
  {
    var four := FourParams(pa, pn, am, tn);
    FourClean(pa, pn, am, tn);
    ParamsOfQueryThen(four, y + "&" + Field(p));
    SplitTail(y, p);
  }

  lemma SplitTail(y: string, p: Param)
    requires '&' !in y && Clean(p)
    ensures Params(y + "&" + Field(p)) == [ParseParam(y), p]
  {
    ParamsCons(y, Field(p));
    FieldHasNoAmpersand(p);
    ParseField(p);
  }

  /** Regrouping a concatenation of free strings. */
  lemma Regroup(s: string, a: string, b: string, c: string, d: string, e: string, f: string, g: string, n: string, x: string, y: string, t: string)
    ensures (s + a + b + c + d + e + f + g + (n + (x + "&" + y)) + t)[|s|..] == (a + b + c + d + e + f + g + (n + x)) + "&" + (y + t)
  {
    var u := s + a + b + c + d + e + f + g + (n + (x + "&" + y)) + t;
    var w := (a + b + c + d + e + f + g + (n + x)) + "&" + (y + t);
    assert u == s + w;
    assert u[|s|..] == w;
  }

  lemma QrSplitShape(amount: int, x: string, y: string)
    ensures QrPayload(amount, x + "&" + y)[|Scheme|..]
      == Query(FourParams(UpiId, MerchantName, AmountText(amount), "Order: " + x)) + "&" + (y + "&" + Field(Param("cu", "INR")))
  {
    var am := AmountText(amount);
    QrPayloadShape(amount, x + "&" + y);
    FourQuery(UpiId, MerchantName, am, "Order: " + x);
    assert Field(Param("cu", "INR")) == "cu=INR";
    assert "&" + Field(Param("cu", "INR")) == "&cu=INR";
    Regroup(Scheme, "pa=", UpiId, "&pn=", MerchantName, "&am=", am, "&tn=", "Order: ", x, y, "&cu=INR");
    assert y + "&cu=INR" == y + "&" + Field(Param("cu", "INR"));
  }

  lemma FourQuery(pa: string, pn: string, am: string, tn: string)
    ensures Query(FourParams(pa, pn, am, tn)) == "pa=" + pa + "&pn=" + pn + "&am=" + am + "&tn=" + tn
  {
    var p0, p1, p2, p3 := Param("pa", pa), Param("pn", pn), Param("am", am), Param("tn", tn);
    QueryCons(p2, [p3]);
    assert [p2] + [p3] == [p2, p3];
    QueryCons(p1, [p2, p3]);
    assert [p1] + [p2, p3] == [p1, p2, p3];
    QueryCons(p0, [p1, p2, p3]);
    assert [p0] + [p1, p2, p3] == FourParams(pa, pn, am, tn);
    LinkPieces();
    Regroup4(Field(p0), Field(p1), Field(p2), Field(p3), "pa=", pa, "&pn=", pn, "&am=", am, "&tn=", tn, "pa", "pn", "am", "tn");
  }

  lemma Regroup4(f0: string, f1: string, f2: string, f3: string, l0: string, v0: string, l1: string, v1: string, l2: string, v2: string, l3: string, v3: string,
                 k0: string, k1: string, k2: string, k3: string)
    requires f0 == k0 + "=" + v0 && f1 == k1 + "=" + v1 && f2 == k2 + "=" + v2 && f3 == k3 + "=" + v3
    requires l0 == k0 + "=" && l1 == "&" + k1 + "=" && l2 == "&" + k2 + "=" && l3 == "&" + k3 + "="
    ensures f0 + "&" + (f1 + "&" + (f2 + "&" + f3)) == l0 + v0 + l1 + v1 + l2 + v2 + l3 + v3
  {
  }

}

=== FILE: uri.dfy ===
/**
 * `encodeURIComponent` and `decodeURIComponent` over Unicode strings, with
 * UTF-8 percent-escapes, and the round trip between them.
 */
module Uri {
  import opened Wrappers
  import Seqs

  type Byte = b: int | 0 <= b < 256

  /** Characters `encodeURIComponent` leaves as they are. */
  predicate IsUnreserved(c: char) {
    || 'A' <= c <= 'Z' || 'a' <= c <= 'z' || '0' <= c <= '9'
    || c == '-' || c == '_' || c == '.' || c == '!' || c == '~' || c == '*'
    || c == '\'' || c == '(' || c == ')'
  }

  function HexDigit(n: nat): char
    requires n < 16
  {
    if n < 10 then ('0' as int + n) as char else ('A' as int + n - 10) as char
  }

  function HexValue(c: char): (r: Option<nat>)
    ensures r.Some? ==> r.value < 16
  {
    if '0' <= c <= '9' then Some(c as int - '0' as int)
    else if 'A' <= c <= 'F' then Some(c as int - 'A' as int + 10)
    else if 'a' <= c <= 'f' then Some(c as int - 'a' as int + 10)
    else None
  }

  lemma HexRoundTrip(n: nat)
    requires n < 16
    ensures HexValue(HexDigit(n)) == Some(n)
  {
  }

  /** "%XY" with upper-case hex digits. */
  function Escape(b: Byte): string {
    ['%', HexDigit(b / 16), HexDigit(b % 16)]
  }

  function EscapeAll(bs: seq<Byte>): (r: string)
    ensures |r| == 3 * |bs|
  {
    if |bs| == 0 then [] else Escape(bs[0]) + EscapeAll(bs[1..])
  }

  /** The UTF-8 encoding of one Unicode scalar value. */
  function Utf8(c: char): (r: seq<Byte>)
    ensures 1 <= |r| <= 4
  {
    var cp := c as int;
    if cp < 0x80 then [cp]
    else if cp < 0x800 then [0xC0 + cp / 64, 0x80 + cp % 64]
    else if cp < 0x10000 then [0xE0 + cp / 4096, 0x80 + (cp / 64) % 64, 0x80 + cp % 64]
    else [0xF0 + cp / 262144, 0x80 + (cp / 4096) % 64, 0x80 + (cp / 64) % 64, 0x80 + cp % 64]
  }

  function EncodeChar(c: char): string {
    if IsUnreserved(c) then [c] else EscapeAll(Utf8(c))
  }

  /** `encodeURIComponent(s)`: its result holds only unreserved characters and '%'. */
  function Encode(s: string): (r: string)
    ensures forall i :: 0 <= i < |r| ==> IsUnreserved(r[i]) || r[i] == '%'
  {
    if |s| == 0 then []
    else
      var head := EncodeChar(s[0]);
      assert forall i :: 0 <= i < |head| ==> IsUnreserved(head[i]) || head[i] == '%' by {
        if !IsUnreserved(s[0]) {
          EscapeAllAlphabet(Utf8(s[0]));
        }
      }
      head + Encode(s[1..])
  }

  lemma {:induction false} EscapeAllAlphabet(bs: seq<Byte>)
    ensures forall i :: 0 <= i < |EscapeAll(bs)| ==> IsUnreserved(EscapeAll(bs)[i]) || EscapeAll(bs)[i] == '%'
  {
    if |bs| > 0 {
      EscapeAllAlphabet(bs[1..]);
    }
  }

  /** Reads "%XY" (either case) at the start of t. */
  function ReadEscape(t: string): (r: Option<Byte>)
    ensures r.Some? ==> |t| >= 3 && t[0] == '%'
  {
    if |t| >= 3 && t[0] == '%' && HexValue(t[1]).Some? && HexValue(t[2]).Some? then
      Some(HexValue(t[1]).value * 16 + HexValue(t[2]).value)
    else None
  }

  /** Reads k continuation bytes (10xxxxxx) and returns their low six bits. */
  function Continuations(t: string, k: nat): (r: Option<seq<nat>>)
    ensures r.Some? ==> |t| >= 3 * k && |r.value| == k
    ensures r.Some? ==> forall i :: 0 <= i < k ==> r.value[i] < 64
    decreases k
  {
    if k == 0 then Some([])
    else
      match ReadEscape(t)
      case None => None
      case Some(b) =>
        if 0x80 <= b < 0xC0 then
          match Continuations(t[3..], k - 1)
          case None => None
          case Some(rest) => Some([b - 0x80] + rest)
        else None
  }

  /** Appends six-bit groups to a code point prefix. */
  function Combine(acc: nat, groups: seq<nat>): nat
    decreases |groups|
  {
    if |groups| == 0 then acc else Combine(acc * 64 + groups[0], groups[1..])
  }

  /** The length of the UTF-8 sequence a lead byte announces; 0 when it is not a lead byte. */
  function SequenceLength(b: Byte): nat {
    if 0xC0 <= b < 0xE0 then 2
    else if 0xE0 <= b < 0xF0 then 3
    else if 0xF0 <= b < 0xF8 then 4
    else 0
  }

  /**
   * Decodes the escaped character at the start of t (which starts with '%'),
   * returning it with the number of input characters it used; None is the
   * URIError the source would throw.
   */
  function DecodeEscaped(t: string): (r: Option<(char, nat)>)
    ensures r.Some? ==> 3 <= r.value.1 <= |t|
  {
    match ReadEscape(t)
    case None => None
    case Some(b0) =>
      if b0 < 0x80 then Some((b0 as char, 3))
      else
        var n := SequenceLength(b0);
        if n == 0 then None
        else
          match Continuations(t[3..], n - 1)
          case None => None
          case Some(groups) =>
            var lead := if n == 2 then b0 - 0xC0 else if n == 3 then b0 - 0xE0 else b0 - 0xF0;
            var cp := Combine(lead, groups);
            var least := if n == 2 then 0x80 else if n == 3 then 0x800 else 0x10000;
            if cp < least || (0xD800 <= cp < 0xE000) || cp >= 0x110000 then None
            else Some((cp as char, 3 * n))
  }

  /** `decodeURIComponent(t)`; None when it would throw URIError. */
  function Decode(t: string): Option<string>
    decreases |t|
  {
    if |t| == 0 then Some([])
    else if t[0] != '%' then
      match Decode(t[1..])
      case None => None
      case Some(r) => Some([t[0]] + r)
    else
      match DecodeEscaped(t)
      case None => None
      case Some((c, k)) =>
        match Decode(t[k..])
        case None => None
        case Some(r) => Some([c] + r)
  }

  /** Text without '%' decodes to itself. */
  lemma {:induction false} DecodeNoEscapes(t: string)
    requires '%' !in t
    ensures Decode(t) == Some(t)
  {
    if |t| > 0 {
      DecodeNoEscapes(t[1..]);
      assert [t[0]] + t[1..] == t;
    }
  }

  lemma ReadEscapeOf(b: Byte, rest: string)
    ensures ReadEscape(Escape(b) + rest) == Some(b)
  {
    HexRoundTrip(b / 16);
    HexRoundTrip(b % 16);
  }

  /** The low six bits of each continuation byte. */
  function LowBits(bs: seq<Byte>): seq<nat>
    requires forall i :: 0 <= i < |bs| ==> 0x80 <= bs[i] < 0xC0
  {
    if |bs| == 0 then [] else [bs[0] - 0x80] + LowBits(bs[1..])
  }

  lemma {:induction false} ContinuationsOf(bs: seq<Byte>, rest: string)
    requires forall i :: 0 <= i < |bs| ==> 0x80 <= bs[i] < 0xC0
    ensures Continuations(EscapeAll(bs) + rest, |bs|) == Some(LowBits(bs))
  {
    if |bs| > 0 {
      var t := EscapeAll(bs) + rest;
      assert t == Escape(bs[0]) + (EscapeAll(bs[1..]) + rest);
      ReadEscapeOf(bs[0], EscapeAll(bs[1..]) + rest);
      assert t[3..] == EscapeAll(bs[1..]) + rest;
      ContinuationsOf(bs[1..], rest);
    }
  }

  lemma CombineTwo(a: nat, b: nat, c: nat)
    ensures Combine(a, [b, c]) == (a * 64 + b) * 64 + c
  {
    assert [b, c][0] == b && [b, c][1..] == [c];
    assert Combine(a, [b, c]) == Combine(a * 64 + b, [c]);
    assert [c][0] == c && [c][1..] == [];
    assert Combine(a * 64 + b, [c]) == Combine((a * 64 + b) * 64 + c, []);
  }

  lemma CombineThree(a: nat, b: nat, c: nat, d: nat)
    ensures Combine(a, [b, c, d]) == ((a * 64 + b) * 64 + c) * 64 + d
  {
    assert [b, c, d][0] == b && [b, c, d][1..] == [c, d];
    assert Combine(a, [b, c, d]) == Combine(a * 64 + b, [c, d]);
    CombineTwo(a * 64 + b, c, d);
  }

  lemma Div64Twice(x: nat)
    ensures x / 4096 == (x / 64) / 64
  {
    var q := x / 64;
    assert x == 64 * q + x % 64;
    assert q == 64 * (q / 64) + q % 64;
    assert x == 4096 * (q / 64) + (64 * (q % 64) + x % 64);
  }

  lemma Div64Thrice(x: nat)
    ensures x / 262144 == (x / 4096) / 64
  {
    var q := x / 4096;
    assert x == 4096 * q + x % 4096;
    assert q == 64 * (q / 64) + q % 64;
    assert x == 262144 * (q / 64) + (4096 * (q % 64) + x % 4096);
  }

  /** One escaped character decodes back to itself. */
  lemma DecodeEscapedOf(c: char, rest: string)
    requires !IsUnreserved(c)
    ensures DecodeEscaped(EscapeAll(Utf8(c)) + rest) == Some((c, 3 * |Utf8(c)|))
  {
    var cp := c as int;
    if cp < 0x80 {
      EscapedHead(Utf8(c), rest);
      assert (cp as char) == c;
    } else if cp < 0x800 {
      DecodeTwo(c);
      DecodeMulti(c, rest, 2, 0xC0);
    } else if cp < 0x10000 {
      DecodeThree(c);
      DecodeMulti(c, rest, 3, 0xE0);
    } else {
      DecodeFour(c);
      DecodeMulti(c, rest, 4, 0xF0);
    }
  }

  /** A multi-byte encoding whose bytes reassemble into c decodes back to c. */
  lemma DecodeMulti(c: char, rest: string, n: nat, lead: int)
    requires 2 <= n <= 4
    requires lead == (if n == 2 then 0xC0 else if n == 3 then 0xE0 else 0xF0)
    requires c as int >= (if n == 2 then 0x80 else if n == 3 then 0x800 else 0x10000)
    requires Reassembles(c, n, lead)
    ensures DecodeEscaped(EscapeAll(Utf8(c)) + rest) == Some((c, 3 * n))
  {
    var bs := Utf8(c);
    EscapedHead(bs, rest);
    ContinuationsOf(bs[1..], rest);
  }

  /** The first escape of an escaped byte string reads back as its first byte, followed by the other escapes. */
  lemma EscapedHead(bs: seq<Byte>, rest: string)
    requires |bs| >= 1
    ensures ReadEscape(EscapeAll(bs) + rest) == Some(bs[0])
    ensures (EscapeAll(bs) + rest)[3..] == EscapeAll(bs[1..]) + rest
  {
    var tail := EscapeAll(bs[1..]) + rest;
    assert EscapeAll(bs) == Escape(bs[0]) + EscapeAll(bs[1..]);
    Seqs.Assoc(Escape(bs[0]), EscapeAll(bs[1..]), rest);
    ReadEscapeOf(bs[0], tail);
    Seqs.DropPrefix(Escape(bs[0]), tail);
  }

  /** The lead byte, and the code point rebuilt from the continuation groups, of a multi-byte encoding. */
  predicate Reassembles(c: char, n: nat, lead: int) {
    var bs := Utf8(c);
    && |bs| == n
    && (forall i :: 1 <= i < n ==> 0x80 <= bs[i] < 0xC0)
    && SequenceLength(bs[0]) == n
    && bs[0] - lead >= 0
    && Combine(bs[0] - lead, LowBits(bs[1..])) == c as int
  }

  lemma DecodeTwo(c: char)
    requires 0x80 <= c as int < 0x800
    ensures Reassembles(c, 2, 0xC0)
  {
    var cp := c as int;
    var bs := Utf8(c);
    assert LowBits(bs[1..]) == [cp % 64];
    assert Combine(cp / 64, [cp % 64]) == cp;
  }

  lemma DecodeThree(c: char)
    requires 0x800 <= c as int < 0x10000
    ensures Reassembles(c, 3, 0xE0)
  {
    var cp := c as int;
    var bs := Utf8(c);
    var tail := bs[1..];
    assert tail[1..][1..] == [];
    assert LowBits(tail[1..]) == [tail[1] - 0x80] + LowBits(tail[1..][1..]);
    assert LowBits(tail) == [(cp / 64) % 64, cp % 64];
    var q := cp / 64;
    Div64Twice(cp);
    assert cp == 64 * q + cp % 64;
    assert q == 64 * (q / 64) + q % 64;
    CombineTwo(cp / 4096, (cp / 64) % 64, cp % 64);
  }

  lemma DecodeFour(c: char)
    requires 0x10000 <= c as int
    ensures Reassembles(c, 4, 0xF0)
  {
    var cp := c as int;
    var bs := Utf8(c);
    var tail := bs[1..];
    assert tail[1..][1..][1..] == [];
    assert LowBits(tail[1..][1..]) == [tail[2] - 0x80] + LowBits(tail[1..][1..][1..]);
    assert LowBits(tail[1..]) == [tail[1] - 0x80] + LowBits(tail[1..][1..]);
    assert LowBits(tail) == [(cp / 4096) % 64, (cp / 64) % 64, cp % 64];
    var q := cp / 64;
    var q2 := cp / 4096;
    Div64Twice(cp);
    Div64Thrice(cp);
    assert cp == 64 * q + cp % 64;
    assert q == 64 * (q / 64) + q % 64;
    assert q2 == 64 * (q2 / 64) + q2 % 64;
    CombineThree(cp / 262144, (cp / 4096) % 64, (cp / 64) % 64, cp % 64);
  }

  lemma DecodeCharThen(c: char, rest: string)
    ensures Decode(EncodeChar(c) + rest) == (match Decode(rest) case None => None case Some(r) => Some([c] + r))
  {
    var t := EncodeChar(c) + rest;
    if IsUnreserved(c) {
      assert t[0] == c && t[1..] == rest;
    } else {
      DecodeEscapedOf(c, rest);
      assert t[3 * |Utf8(c)|..] == rest;
    }
  }

  /** `decodeURIComponent(encodeURIComponent(s)) === s` for every string. */
  lemma {:induction false} DecodeEncode(s: string)
    ensures Decode(Encode(s)) == Some(s)
  {
    if |s| > 0 {
      DecodeEncode(s[1..]);
      DecodeCharThen(s[0], Encode(s[1..]));
      assert [s[0]] + s[1..] == s;
    }
  }
}

=== FILE: userdata.dfy ===
/**
 * The administrator's page for one customer: the spending summary, the
 * searchable order list and the activity timeline.
 */
module UserData {
  import opened Wrappers
  import Seqs
  import Strings
  import opened Schema
  import B = Buckets
  import A = Analytics

  predicate IsDelivered(o: Order) {
    o.status == Some(Delivered)
  }

  /** "Pending" on this page: pending or in progress only. */
  predicate IsActive(o: Order) {
    o.status == Some(Pending) || o.status == Some(InProgress)
  }

  predicate IsCancelled(o: Order) {
    o.status == Some(Cancelled)
  }

  /** The orders this page puts in none of its three status buckets: ready, or without a status. */
  predicate Unbucketed(o: Order) {
    o.status == Some(Ready) || o.status.None?
  }

  /** The summary of one customer (the month-by-month spending is not modelled). */
  datatype UserStats = UserStats(
    totalOrders: nat,
    totalSpent: int,
    avgOrderValue: int,
    deliveredOrders: nat,
    pendingOrders: nat,
    cancelledOrders: nat,
    deliveredRevenue: int,
    pendingRevenue: int,
    categorySpending: seq<B.Bucket<ServiceCategory>>,
    totalDocuments: nat)

  /** Each status lands in exactly one of delivered, active, cancelled, unbucketed, and "open" is active or unbucketed. */
  lemma Classify(o: Order)
    ensures Seqs.ExactlyOne(IsDelivered(o), IsActive(o) || Unbucketed(o), IsCancelled(o))
    ensures !(IsActive(o) && Unbucketed(o))
    ensures A.IsOpen(o) <==> IsActive(o) || Unbucketed(o)
  {
    match o.status
    case None =>
    case Some(Pending) =>
    case Some(InProgress) =>
    case Some(Ready) =>
    case Some(Delivered) =>
    case Some(Cancelled) =>
  }

  /** Every order is in exactly one of: delivered, active, cancelled, unbucketed. */
  lemma FourWaySplit(os: seq<Order>)
    ensures Seqs.Count(os, IsDelivered) + Seqs.Count(os, IsActive) + Seqs.Count(os, IsCancelled) + Seqs.Count(os, Unbucketed) == |os|
    ensures A.Revenue(Seqs.Filter(os, IsDelivered)) + A.Revenue(Seqs.Filter(os, IsActive)) + A.Revenue(Seqs.Filter(os, IsCancelled))
            + A.Revenue(Seqs.Filter(os, Unbucketed)) == A.Revenue(os)
  {
    var rest := (o: Order) => IsActive(o) || Unbucketed(o);
    forall i | 0 <= i < |os|
      ensures Seqs.ExactlyOne(IsDelivered(os[i]), rest(os[i]), IsCancelled(os[i]))
      ensures !(IsActive(os[i]) && Unbucketed(os[i])) && (rest(os[i]) <==> IsActive(os[i]) || Unbucketed(os[i]))
    {
      Classify(os[i]);
    }
    Seqs.CountSplit3(os, IsDelivered, rest, IsCancelled);
    Seqs.SumSplit3(os, IsDelivered, rest, IsCancelled, Amount);
    Seqs.CountOr(os, IsActive, Unbucketed, rest);
    Seqs.SumFilterOr(os, IsActive, Unbucketed, rest, Amount);
  }

  /** `stats`: the three status buckets leave out ready orders, so they need not add up to the total. */
  function ComputeStats(os: seq<Order>, userDocuments: nat, orderDocuments: nat): (r: UserStats)
    ensures r.totalOrders == |os| && r.totalSpent == A.Revenue(os)
    ensures r.deliveredOrders + r.pendingOrders + r.cancelledOrders + Seqs.Count(os, Unbucketed) == r.totalOrders
    ensures r.totalOrders == 0 ==> r.avgOrderValue == 0
    ensures r.totalOrders > 0 ==>
      2 * r.totalOrders * r.avgOrderValue <= 2 * r.totalSpent + r.totalOrders < 2 * r.totalOrders * r.avgOrderValue + 2 * r.totalOrders
    ensures Seqs.Sum(r.categorySpending, (b: B.Bucket<ServiceCategory>) => b.total) == A.Revenue(Seqs.Filter(os, x => B.Keyed(Category, x)))
    ensures forall i :: 0 <= i < |r.categorySpending| ==>
      r.categorySpending[i].total == B.KeyedSum(os, Category, r.categorySpending[i].key, Amount)
    ensures B.DistinctKeys(r.categorySpending)
    ensures forall c :: B.HasBucket(r.categorySpending, c) <==> B.KeyedCount(os, Category, c) > 0
    ensures r.totalDocuments == userDocuments + orderDocuments
    ensures r.deliveredOrders == A.StatusCount(os, Delivered) && r.cancelledOrders == A.StatusCount(os, Cancelled)
    ensures r.pendingOrders == A.StatusCount(os, Pending) + A.StatusCount(os, InProgress)
    ensures r.deliveredRevenue == A.StatusRevenue(os, Delivered)
    ensures r.pendingRevenue == A.StatusRevenue(os, Pending) + A.StatusRevenue(os, InProgress)
  {
    FourWaySplit(os);
    StatusBuckets(os);
    B.GroupTotals(os, Category, Amount);
    var g := B.Group(os, Category, Amount);
    CategorySpendingMembers(os);
    var total := A.Revenue(os);
    UserStats(
      |os|,
      total,
      A.RoundedMean(total, |os|),
      Seqs.Count(os, IsDelivered),
      Seqs.Count(os, IsActive),
      Seqs.Count(os, IsCancelled),
      A.Revenue(Seqs.Filter(os, IsDelivered)),
      A.Revenue(Seqs.Filter(os, IsActive)),
      g,
      userDocuments + orderDocuments)
  }

  /** This page's three status buckets, against the per-status counts and revenues of the analytics page. */
  lemma StatusBuckets(os: seq<Order>)
    ensures Seqs.Count(os, IsDelivered) == A.StatusCount(os, Delivered)
    ensures Seqs.Count(os, IsCancelled) == A.StatusCount(os, Cancelled)
    ensures Seqs.Count(os, IsActive) == A.StatusCount(os, Pending) + A.StatusCount(os, InProgress)
    ensures A.Revenue(Seqs.Filter(os, IsDelivered)) == A.StatusRevenue(os, Delivered)
    ensures A.Revenue(Seqs.Filter(os, IsActive)) == A.StatusRevenue(os, Pending) + A.StatusRevenue(os, InProgress)
  {
    var isPending := (x: Order) => B.HasKey(A.StatusOf, Pending, x);
    var isInProgress := (x: Order) => B.HasKey(A.StatusOf, InProgress, x);
    Seqs.FilterSame(os, IsDelivered, x => B.HasKey(A.StatusOf, Delivered, x));
    Seqs.FilterSame(os, IsCancelled, x => B.HasKey(A.StatusOf, Cancelled, x));
    Seqs.CountOr(os, isPending, isInProgress, IsActive);
    Seqs.SumFilterOr(os, isPending, isInProgress, IsActive, Amount);
  }

  /** One spending entry per category that has orders and no other, each holding that category's total. */
  lemma CategorySpendingMembers(os: seq<Order>)
    ensures var g := B.Group(os, Category, Amount);
      forall i :: 0 <= i < |g| ==> g[i].total == B.KeyedSum(os, Category, g[i].key, Amount)
    ensures B.DistinctKeys(B.Group(os, Category, Amount))
    ensures forall c :: B.HasBucket(B.Group(os, Category, Amount), c) <==> B.KeyedCount(os, Category, c) > 0
  {
    var g := B.Group(os, Category, Amount);
    forall i | 0 <= i < |g|
      ensures g[i].total == B.KeyedSum(os, Category, g[i].key, Amount)
    {
      B.GroupMember(os, Category, Amount, g[i]);
    }
    forall c
      ensures B.HasBucket(g, c) <==> B.KeyedCount(os, Category, c) > 0
    {
      B.GroupKeys(os, Category, Amount, c);
    }
    B.GroupKeys(os, Category, Amount, Printing);
  }

  /** With non-negative amounts, delivered plus pending revenue, and the category spending, stay within the total spent. */
  lemma SpendingBounds(os: seq<Order>, userDocuments: nat, orderDocuments: nat)
    requires forall i :: 0 <= i < |os| ==> Amount(os[i]) >= 0
    ensures var st := ComputeStats(os, userDocuments, orderDocuments);
      && st.deliveredRevenue + st.pendingRevenue <= st.totalSpent
      && Seqs.Sum(st.categorySpending, (b: B.Bucket<ServiceCategory>) => b.total) <= st.totalSpent
      && 0 <= st.avgOrderValue <= st.totalSpent
  {
    FourWaySplit(os);
    Seqs.SumFilterNonNegative(os, IsCancelled, Amount);
    Seqs.SumFilterNonNegative(os, Unbucketed, Amount);
    Seqs.SumFilterAtMost(os, x => B.Keyed(Category, x), Amount);
    Seqs.SumNonNegative(os, Amount);
    A.RoundedMeanBounds(A.Revenue(os), |os|);
  }

  /**
   * "Pending" differs between pages: the analytics page counts ready and
   * status-less orders as pending, this page does not, so the two agree
   * exactly when no order is ready or without a status.
   */
  lemma PendingDiffers(os: seq<Order>, inThisMonth: Order -> bool, inLastMonth: Order -> bool, userDocuments: nat, orderDocuments: nat)
    ensures Seqs.Count(os, A.IsOpen) == Seqs.Count(os, IsActive) + Seqs.Count(os, Unbucketed)
    ensures Seqs.Count(os, A.IsOpen) == Seqs.Count(os, IsActive) <==> forall i :: 0 <= i < |os| ==> !Unbucketed(os[i])
    ensures A.ComputeStats(os, inThisMonth, inLastMonth).pendingOrders
            == ComputeStats(os, userDocuments, orderDocuments).pendingOrders + Seqs.Count(os, Unbucketed)
    ensures A.ComputeStats(os, inThisMonth, inLastMonth).pendingOrders == ComputeStats(os, userDocuments, orderDocuments).pendingOrders
            <==> forall i :: 0 <= i < |os| ==> !Unbucketed(os[i])
  {
    forall i | 0 <= i < |os|
      ensures !(IsActive(os[i]) && Unbucketed(os[i])) && (A.IsOpen(os[i]) <==> IsActive(os[i]) || Unbucketed(os[i]))
    {
      Classify(os[i]);
    }
    Seqs.CountOr(os, IsActive, Unbucketed, A.IsOpen);
    Seqs.CountPositive(os, Unbucketed);
  }

  /** One ready order is pending on the analytics page and in no bucket here. */
  lemma ReadyOrderExample(o: Order)
    requires o.status == Some(Ready)
    ensures A.ComputeStats([o], _ => true, _ => false).pendingOrders == 1
    ensures ComputeStats([o], 0, 0).pendingOrders == 0
    ensures ComputeStats([o], 0, 0).deliveredOrders + ComputeStats([o], 0, 0).cancelledOrders == 0
  {
    assert Seqs.Filter([o], A.IsOpen) == [o] by {
      assert [o] == [] + [o];
      Seqs.FilterSnoc([], o, A.IsOpen);
    }
    assert [o] == [] + [o];
    Seqs.FilterSnoc([], o, IsActive);
    Seqs.FilterSnoc([], o, IsDelivered);
    Seqs.FilterSnoc([], o, IsCancelled);
  }

  // ---------------------------------------------------------------------------
  // Order list

  /** Case-insensitive search over the service name or the order id. */
  predicate SearchMatches(q: string, o: Order) {
    || Strings.OptionIncludesIgnoreCase(ServiceName(o), q)
    || Strings.IncludesIgnoreCase(o.id, q)
  }

  predicate Matches(q: string, f: StatusFilter, o: Order) {
    SearchMatches(q, o) && StatusMatches(f, o)
  }

  /** `filteredOrders`: the matching orders in their original order. */
  function FilteredOrders(os: seq<Order>, q: string, f: StatusFilter): (r: seq<Order>)
    ensures Seqs.IsSubsequence(r, os)
    ensures forall i :: 0 <= i < |r| ==> Matches(q, f, r[i])
    ensures forall i :: 0 <= i < |os| && Matches(q, f, os[i]) ==> os[i] in r
  {
    Seqs.FilterIsSubsequence(os, o => Matches(q, f, o));
    Seqs.Filter(os, o => Matches(q, f, o))
  }

  /** An empty search with "all" lists every order. */
  lemma EmptySearchKeepsAll(os: seq<Order>)
    ensures FilteredOrders(os, "", AnyStatus) == os
  {
    forall i | 0 <= i < |os|
      ensures Matches("", AnyStatus, os[i])
    {
      Strings.IncludesIgnoreCaseEmpty(os[i].id);
    }
    Seqs.FilterFull(os, o => Matches("", AnyStatus, o));
  }

  /** Choosing a status filters the "all" result further, keeping its order. */
  lemma StatusNarrows(os: seq<Order>, q: string, s: OrderStatus)
    ensures FilteredOrders(os, q, Only(s)) == Seqs.Filter(FilteredOrders(os, q, AnyStatus), o => StatusMatches(Only(s), o))
    ensures |FilteredOrders(os, q, Only(s))| <= |FilteredOrders(os, q, AnyStatus)|
  {
    var f := Only(s);
    Seqs.FilterAnd(os, o => Matches(q, AnyStatus, o), o => StatusMatches(Only(s), o), o => Matches(q, f, o));
  }

  /** The activity tab: at most the first twenty orders, in order. */
  function Activity(os: seq<Order>): (r: seq<Order>)
    ensures |r| <= 20 && |r| <= |os|
    ensures r == os[..|r|]
    ensures |os| <= 20 ==> r == os
    ensures |os| > 20 ==> |r| == 20
  {
    Seqs.Take(os, 20)
  }
}

=== FILE: wizard.dfy ===
/**
 * The customer's new-order wizard: pricing, the form fields of the chosen
 * service, the staged attachments, the four steps, and what is sent when the
 * order is placed.
 */
module Wizard {
  import opened Wrappers
  import Seqs
  import Js
  import Strings
  import opened Schema
  import opened Services
  import OQ = OrderQueries

  // ---------------------------------------------------------------------------
  // Pricing and fields

  /** The copy count the customer typed, when it parses to a positive integer. */
  function Copies(details: OQ.Details): Option<int> {
    if "copies" in details && details["copies"] != [] then
      match Strings.ParseLeadingInt(details["copies"])
      case Some(c) => if c > 0 then Some(c) else None
      case None => None
    else None
  }

  /** `calculateTotalPrice`: base price, times the copies for a per-copy service with a positive copy count. */
  function TotalPrice(s: Service, details: OQ.Details): (r: int)
    ensures Js.IsTrue(s.pricePerCopy) && Copies(details).Some? ==> r == s.price * Copies(details).value
    ensures !(Js.IsTrue(s.pricePerCopy) && Copies(details).Some?) ==> r == s.price
  {
    if Js.IsTrue(s.pricePerCopy) && Copies(details).Some? then s.price * Copies(details).value
    else s.price
  }

  /** A per-copy service charges the base price once per copy typed as a positive number. */
  lemma TotalForTypedCopies(s: Service, details: OQ.Details, n: int)
    requires Js.IsTrue(s.pricePerCopy)
    requires "copies" in details && details["copies"] == Strings.IntToString(n)
    ensures n > 0 ==> TotalPrice(s, details) == s.price * n
    ensures n <= 0 ==> TotalPrice(s, details) == s.price
  {
    Strings.ParseIntToString(n);
    assert Strings.IntToString(n) != [] by {
      if n < 0 {
        assert Strings.IntToString(n)[0] == '-';
      } else {
        assert |Strings.NatToString(n)| >= 1;
      }
    }
  }

  /** Without per-copy pricing the details never change the total. */
  lemma TotalIgnoresDetails(s: Service, d1: OQ.Details, d2: OQ.Details)
    requires !Js.IsTrue(s.pricePerCopy)
    ensures TotalPrice(s, d1) == TotalPrice(s, d2) == s.price
  {
  }

  /** `getServiceFields`: the service's own fields when it declares some, else its category's defaults. */
  function ServiceFields(s: Service): (r: seq<CustomField>)
    ensures ParseCustomFields(s.customFields).Some? && |ParseCustomFields(s.customFields).value| > 0
            ==> r == s.customFields.fields
    ensures !(ParseCustomFields(s.customFields).Some? && |ParseCustomFields(s.customFields).value| > 0)
            ==> r == NormalisedDefaults(s.category)
    ensures |r| > 0
  {
    var parsed := ParseCustomFields(s.customFields);
    if parsed.Some? && |parsed.value| > 0 then parsed.value
    else NormalisedDefaults(s.category)
  }

  /** A service that stores an empty list, or no list, gets its category's defaults. */
  lemma EmptyFieldsFallBack(s: Service)
    requires s.customFields == JArray([]) || !s.customFields.JArray?
    ensures ServiceFields(s) == NormalisedDefaults(s.category)
    ensures forall i :: 0 <= i < |ServiceFields(s)| ==> ServiceFields(s)[i].fieldType != []
  {
  }

  // ---------------------------------------------------------------------------
  // Attachments

  /** 10 MiB. */
  const MaxFileBytes: int := 10 * 1024 * 1024

  /** A file picked in the browser. */
  datatype PickedFile = PickedFile(name: string, size: nat, mime: string)

  datatype FileKind = Photo | Document

  /** The `document_type` a staged file is stored with. */
  function KindKey(k: FileKind): string {
    match k
    case Photo => "photo"
    case Document => "document"
  }

  /** A staged attachment: the file, whether it has a preview, and its kind. */
  datatype StagedFile = StagedFile(file: PickedFile, hasPreview: bool, kind: FileKind)

  predicate IsImage(f: PickedFile) {
    Strings.StartsWith(f.mime, "image/")
  }

  predicate Fits(f: PickedFile) {
    f.size <= MaxFileBytes
  }

  /** An image is a photo with a preview; anything else is a document without one. */
  function Stage(f: PickedFile): (r: StagedFile)
    ensures r.file == f
    ensures r.kind == Photo <==> IsImage(f)
    ensures r.hasPreview <==> r.kind == Photo
  {
    if IsImage(f) then StagedFile(f, true, Photo) else StagedFile(f, false, Document)
  }

  /** `handleFileChange`: oversized files are dropped; the rest are appended in the order picked. */
  function AddFiles(staged: seq<StagedFile>, picked: Option<seq<PickedFile>>): (r: seq<StagedFile>)
    ensures picked.None? ==> r == staged
    ensures |r| >= |staged| && r[..|staged|] == staged
    ensures picked.Some? ==> r[|staged|..] == Seqs.Map(Seqs.Filter(picked.value, Fits), Stage)
  {
    if picked.None? then staged
    else
      var added := Seqs.Map(Seqs.Filter(picked.value, Fits), Stage);
      assert (staged + added)[..|staged|] == staged && (staged + added)[|staged|..] == added;
      staged + added
  }

  /** Every added attachment is a picked file within the limit, they keep the picked order, and every fitting file is added. */
  lemma AddFilesContents(staged: seq<StagedFile>, picked: seq<PickedFile>)
    ensures forall i :: |staged| <= i < |AddFiles(staged, Some(picked))| ==>
      var f := AddFiles(staged, Some(picked))[i].file; f in picked && Fits(f)
    ensures Seqs.IsSubsequence(Seqs.Filter(picked, Fits), picked)
    ensures |AddFiles(staged, Some(picked))| - |staged| == Seqs.Count(picked, Fits)
  {
    Seqs.FilterIsSubsequence(picked, Fits);
    var r := AddFiles(staged, Some(picked));
    var kept := Seqs.Filter(picked, Fits);
    forall i | |staged| <= i < |r|
      ensures r[i].file in picked && Fits(r[i].file)
    {
      assert r[i] == r[|staged|..][i - |staged|];
      assert r[i] == Stage(kept[i - |staged|]);
    }
  }

  /** `removeFile(i)`: the i-th attachment goes, the others stay in order. */
  function RemoveFile(staged: seq<StagedFile>, i: nat): (r: seq<StagedFile>)
    requires i < |staged|
    ensures |r| == |staged| - 1
    ensures r[..i] == staged[..i] && r[i..] == staged[i + 1..]
    ensures multiset(r) + multiset{staged[i]} == multiset(staged)
  {
    assert staged == staged[..i] + [staged[i]] + staged[i + 1..];
    staged[..i] + staged[i + 1..]
  }

  /** The storage path of an attachment uploaded after the order is created. */
  function AttachmentPath(userId: Option<string>, orderId: string, now: nat, f: StagedFile): (r: string)
    ensures Strings.EndsWith(r, "-" + f.file.name)
  {
    var r := Js.Interpolate(userId) + "/" + orderId + "/" + Strings.NatToString(now) + "-" + f.file.name;
    assert r[|r| - |"-" + f.file.name|..] == "-" + f.file.name;
    r
  }

  /** The `order_documents` row written for an uploaded attachment. */
  datatype DocumentRow = DocumentRow(orderId: string, fileName: string, fileUrl: string, documentType: string)

  function AttachmentRow(orderId: string, publicUrl: string, f: StagedFile): (r: DocumentRow)
    ensures r.documentType == "photo" || r.documentType == "document"
    ensures r.fileName == f.file.name && r.orderId == orderId
  {
    DocumentRow(orderId, f.file.name, publicUrl, KindKey(f.kind))
  }

  // ---------------------------------------------------------------------------
  // Steps

  /** The wizard's state: the step shown, the chosen service, and the created order. */
  datatype State = State(step: int, selected: Option<Service>, createdOrderId: Option<string>)

  /** The user's moves: pick a service, press Back or Continue, or finish placing an order. */
  datatype Event = Choose(service: Service) | Back | Continue | Placed(orderId: Option<string>)

  const Start: State := State(1, None, None)

  /** Steps 2 and 3 have a service, step 4 also a created order. */
  predicate Valid(w: State) {
    && 1 <= w.step <= 4
    && (w.step >= 2 ==> w.selected.Some?)
    && (w.step == 4 ==> Js.TruthyString(w.createdOrderId))
  }

  /** One move; a move the current step offers no control for changes nothing. */
  function Next(w: State, e: Event): (r: State)
    ensures r.step != w.step ==>
      || (w.step == 1 && e.Choose? && r.step == 2 && r.selected == Some(e.service))
      || (w.step == 2 && e.Back? && r.step == 1)
      || (w.step == 2 && e.Continue? && r.step == 3)
      || (w.step == 3 && e.Back? && r.step == 2)
      || (w.step == 3 && e.Placed? && Js.TruthyString(e.orderId) && r.step == 4 && r.createdOrderId == e.orderId)
  {
    match e
    case Choose(s) => if w.step == 1 then w.(step := 2, selected := Some(s)) else w
    case Back => if w.step == 2 then w.(step := 1) else if w.step == 3 then w.(step := 2) else w
    case Continue => if w.step == 2 then w.(step := 3) else w
    case Placed(id) =>
      if w.step == 3 && w.selected.Some? && Js.TruthyString(id) then w.(step := 4, createdOrderId := id) else w
  }

  /** Every move keeps the wizard valid, so the payment step always has an order id. */
  lemma NextValid(w: State, e: Event)
    requires Valid(w)
    ensures Valid(Next(w, e))
    ensures Next(w, e).step == 4 && w.step != 4 ==> e.Placed? && Js.TruthyString(e.orderId)
  {
  }

  /** Any run of moves from the start stays valid. */
  function Run(w: State, es: seq<Event>): State
    decreases |es|
  {
    if |es| == 0 then w else Run(Next(w, es[0]), es[1..])
  }

  lemma {:induction false} RunValid(w: State, es: seq<Event>)
    requires Valid(w)
    ensures Valid(Run(w, es))
    decreases |es|
  {
    if |es| > 0 {
      NextValid(w, es[0]);
      RunValid(Next(w, es[0]), es[1..]);
    }
  }

  // ---------------------------------------------------------------------------
  // Placing the order

  /** `handleSubmit`'s request: nothing without a service; empty details and notes are left undefined. */
  function SubmitRequest(w: State, details: OQ.Details, notes: string): (r: Option<OQ.OrderRequest>)
    ensures r.Some? <==> w.selected.Some?
    ensures r.Some? ==> r.value.serviceId == w.selected.value.id
    ensures r.Some? ==> (r.value.details.None? <==> |details| == 0)
    ensures r.Some? ==> (r.value.notes.None? <==> notes == [])
    ensures r.Some? ==> r.value.totalAmount == Some(TotalPrice(w.selected.value, details))
  {
    if w.selected.None? then None
    else
      var s := w.selected.value;
      Some(OQ.OrderRequest(
        s.id,
        if |details| > 0 then Some(details) else None,
        if notes != [] then Some(notes) else None,
        Some(TotalPrice(s, details))))
  }

  /** What is stored for an order placed from the wizard: the submit-time price, or null when it is zero. */
  lemma PlacedRow(w: State, details: OQ.Details, notes: string, user: string)
    requires w.selected.Some?
    ensures var row := OQ.CreateOrderRow(SubmitRequest(w, details, notes).value, Some(user));
      && row.Ok?
      && row.value.totalAmount == Js.NullIfZero(Some(TotalPrice(w.selected.value, details)))
      && (row.value.notes.None? <==> notes == [])
      && (row.value.details.None? <==> |details| == 0)
  {
  }

  /** Fifty rupees a copy for three typed copies is stored as 150. */
  lemma ThreeCopiesExample(s: Service, user: string)
    requires s.price == 50 && s.pricePerCopy == Some(true)
    ensures var w := State(3, Some(s), None);
            OQ.CreateOrderRow(SubmitRequest(w, map["copies" := "3"], "").value, Some(user)).value.totalAmount == Some(150)
  {
    TotalForTypedCopies(s, map["copies" := "3"], 3);
    assert Strings.IntToString(3) == "3";
  }
}

=== FILE: wrappers.dfy ===
/** Failure-carrying datatypes shared by every module of the model. */
module Wrappers {

  /** A value that may be absent: TypeScript's `T | null | undefined`. */
  datatype Option<+T> = None | Some(value: T) {

    /** Returns the value in Some, or the default when None (the `??` operator). */
    function GetOr(default: T): T {
      match this
      case Some(v) => v
      case None => default
    }
  }

  /** Either a value or the reason an operation was refused. */
  datatype Result<+R, +E> = Ok(value: R) | Err(error: E)
}
